=== FILE: README.md ===
# wag-laravel-sdk, modelled in Dafny

The wag-laravel-sdk package is a PHP client for the WUZAPI WhatsApp gateway. This project
models the decisions the package makes before and after an HTTP request:

- **Phone numbers and JIDs.** `PhoneFormatter` and the JID helpers of `UserService` keep
  only the digits of a number, check a minimum length, and add or strip `@s.whatsapp.net`.
- **The dispatcher in `WAGClient`.** The client is an immutable record
  `{baseUrl, userToken, adminToken}`. A request becomes either an exception or a request
  descriptor:
  - the path without leading slashes;
  - the JSON headers merged with the credential header;
  - where the data goes: JSON body, query string or nowhere.

  The transport outcome is an input value, and `Complete` turns it into the response array
  or a `WAGException`. The recursive log redaction `sanitizeData` is modelled as well.
- **Whitelists and event lists.** These cover presence states and presence types, webhook
  and session event names, and the subscription list algebra of
  `addEvent`/`removeEvent`/`isEventSubscribed`.
- **Payload builders and response projections.** Each service method becomes a pure
  function returning a `Call` (credential kind, verb, endpoint, data). The projections read
  a response array. Helpers that issue a request and then read its answer receive that
  answer, or the exception it raised, as a parameter.

PHP values are the datatype `J` (`null`, booleans, integers, strings, ordered arrays with
integer or string keys). The module `PhpArray` holds PHP's truthiness, `??` lookups,
`array_filter`, `array_values`, `$a[] = v`, loose `in_array` over word lists, and the
coercions PHP applies at a declared return type: an array returned where `bool` or
`?string` is declared raises a `TypeError`, which `catch (\Exception)` does not catch.
`PhpString` holds the string built-ins (`preg_replace` of non-digits, `ltrim`/`rtrim` of one
character, ASCII `strtolower`/`strtoupper`, `str_contains`, `str_replace`, `implode`).

Modules follow the PHP classes: `Wrappers`, `Exceptions`, `PhpString`, `PhpArray`,
`PhoneFormatter`, `ResponseFormatter`, `WagClient`, `WebhookService`, `UserService`,
`ChatService`, `SessionService`, `NewsletterService`, `AdminService` and `MessageService`.
`MessageService` is its own module: its file declares a second `ChatService` class whose
builders send their literal payloads through `array_filter`.

## Model

| member | source | states |
|---|---|---|
| PhoneFormatter.Format | src/Utils/PhoneFormatter.php:11-18 | the result holds only decimal digits, contains exactly the digit characters of the input, and leaves an all-digit number unchanged |
| PhoneFormatter.FormatIsDigits | src/Utils/PhoneFormatter.php:14-17 | the `ltrim('+')` after stripping non-digits never removes anything |
| PhoneFormatter.FormatAppend | src/Utils/PhoneFormatter.php:14 | formatting distributes over concatenation, so the digits keep their original order |
| PhoneFormatter.FormatIdempotent | src/Utils/PhoneFormatter.php:11-18 | formatting twice is formatting once |
| PhoneFormatter.Validate | src/Utils/PhoneFormatter.php:23-30 | a valid number has at least ten characters; an all-digit number is valid exactly when it has at least ten digits |
| PhoneFormatter.ValidateFormatted | src/Utils/PhoneFormatter.php:23-30 | validating the formatted number gives the same answer as validating the raw one |
| PhoneFormatter.ToJid | src/Utils/PhoneFormatter.php:35-45 | the JID is always the formatted number followed by `@s.whatsapp.net`: the guard against a suffix already present never fires |
| PhoneFormatter.FormatLacksSuffix | src/Utils/PhoneFormatter.php:35-45 | the formatted number never contains `@s.whatsapp.net`, since formatting removed the `@` |
| PhoneFormatter.SuffixHasNoDigits | src/Utils/PhoneFormatter.php:41 | the JID suffix holds no digit |
| PhoneFormatter.ToJidIdempotent | src/Utils/PhoneFormatter.php:35-45 | converting a JID to a JID again changes nothing |
| PhoneFormatter.ToJidOfDigits | src/Utils/PhoneFormatter.php:35-45 | an all-digit number gets exactly the suffix appended |
| PhoneFormatter.FormatExample | tests/Unit/WAGClientTest.php:80-84 | `+1 (234) 567-8901` formats to `12345678901` |
| PhoneFormatter.ToJidExample | tests/Unit/WAGClientTest.php:86-90 | `12345678901` becomes `12345678901@s.whatsapp.net` |
| ResponseFormatter.IsSuccessful | src/Utils/ResponseFormatter.php:10-13 | true exactly when `success` is present and is the boolean true |
| ResponseFormatter.GetErrorMessage | src/Utils/ResponseFormatter.php:18-21 | a missing or null `error` gives null, a string is returned as it is, and an array raises a TypeError |
| ResponseFormatter.GetStatusCode | src/Utils/ResponseFormatter.php:26-29 | a missing or null `code` gives 0; otherwise the value under `code` |
| ResponseFormatter.GetData | src/Utils/ResponseFormatter.php:34-37 | a missing or null `data` gives null, an array is returned, and any other value raises a TypeError |
| WagClient.NewClient | src/WAGClient.php:34-41 | the stored base URL is the given one with only its trailing slashes removed, so it never ends in `/`; no user token is set; the logging switch is the one configured |
| WagClient.SetUserToken | src/WAGClient.php:54-66 | the token reads back through `getUserToken` (the `userToken` field), and the base URL, admin token and logging flag are unchanged |
| WagClient.ClearUserToken | src/WAGClient.php:63-75 | the token reads back through `getUserToken` as null, and nothing else changes |
| WagClient.SetThenClear | src/WAGClient.php:54-75 | clearing after setting equals clearing alone, and setting after clearing equals setting alone |
| WagClient.HeaderValue | src/WAGClient.php:203-206 | a header name is absent exactly when no header has that name; a value found is a header of the list |
| WagClient.PutHeader | src/WAGClient.php:203-206 | `array_merge` of one string key adds a new name at the end and keeps the length when the name exists |
| WagClient.PutHeaderLookup | src/WAGClient.php:203-206 | after the merge the merged name reads the new value and every other name reads what it read before |
| WagClient.JsonHeadersLookup | src/WAGClient.php:202-207 | on top of the JSON headers, a name other than `Content-Type` and `Accept` reads only the added header |
| WagClient.MergedHeaders | src/WAGClient.php:202-207 | with a credential header on top, `Content-Type` and `Accept` are still `application/json` and the credential reads back |
| WagClient.Placement | src/WAGClient.php:209-213 | data becomes the JSON body exactly for upper-cased POST, PUT or PATCH with non-empty data, and the query exactly for GET with non-empty data |
| WagClient.OtherVerbsDropData | src/WAGClient.php:209-213 | for any other verb, such as DELETE, the data is sent nowhere |
| WagClient.PlacementIgnoresCase | src/WAGClient.php:209-211 | the verb's letter case does not change the placement |
| WagClient.MakeRequest | src/WAGClient.php:192-215 | the descriptor has the verb, the base URL, the endpoint with only its leading slashes removed, the JSON headers with the credential merged on top, and the placement |
| WagClient.AuthHeader | src/WAGClient.php:160-187 | user calls carry `token` exactly when the user token is truthy; admin calls carry `Authorization` exactly when the admin token is truthy; one-time calls always carry the given `token` |
| WagClient.Send | src/WAGClient.php:160-215 | a call fails with its missing-credential exception exactly when no credential header exists; otherwise it yields the descriptor of `makeRequest` |
| WagClient.Request | src/WAGClient.php:160-167 | fails with "User token is required…" exactly when the user token is null, `""` or `"0"`; otherwise the `token` header is the user token and no `Authorization` is sent |
| WagClient.RequestAsAdmin | src/WAGClient.php:172-179 | fails exactly when the admin token is falsy; otherwise `Authorization` is the admin token and no `token` is sent |
| WagClient.RequestWithToken | src/WAGClient.php:184-187 | always succeeds, with `token` set to the given token and the usual placement |
| WagClient.UserTokenOnlyChangesHeader | src/WAGClient.php:160-167 | two truthy user tokens give requests that differ only in their headers |
| WagClient.Complete | src/WAGClient.php:215-237 | with logging on, a body that is not an array raises a TypeError at `logResponse(array)`; otherwise a falsy decoded body gives `{success: true}`, an array body is returned, and a truthy scalar raises a TypeError; a failed request raises `"API request failed: "` plus the response body with its status, or the exception message with code 0 |
| WagClient.LoggingOnlyRejectsNonArrays | src/WAGClient.php:220-224 | switching logging on changes the outcome of a call exactly for a `null` or falsy scalar body, which then raises a TypeError instead of giving `{success: true}`; every success and every `WAGException` stays the same |
| WagClient.Execute | src/WAGClient.php:160-237 | a call without credentials fails before the transport is consulted; otherwise the outcome is that of the transport result under the client's logging switch |
| WagClient.MissingCredentialIgnoresTransport | src/WAGClient.php:160-179 | without a credential the outcome is the same whatever the transport would answer, and its code is 0 |
| WagClient.ExecuteNeverEmpty | src/WAGClient.php:224 | a successful call never returns an empty array |
| WagClient.SanitizeValue | src/WAGClient.php:283-302 | scalars pass unchanged, and an array keeps its number of entries |
| WagClient.Sanitize | src/WAGClient.php:283-302 | keys and their order are kept; a string key whose lower-case form is one of the ten sensitive names maps to `[REDACTED]`; other array values are sanitized recursively; other values are unchanged |
| WagClient.SanitizeScrubs | src/WAGClient.php:283-302 | after sanitizing, no sensitive string key at any depth holds anything but `[REDACTED]` |
| WagClient.ScrubbedIsFixedPoint | src/WAGClient.php:283-302 | sanitizing leaves a value unchanged exactly when it is already scrubbed |
| WagClient.SanitizeIdempotent | src/WAGClient.php:283-302 | sanitizing twice is sanitizing once |
| WagClient.SensitiveKeysIgnoreCase | src/WAGClient.php:292 | whether a key is sensitive does not depend on its letter case |
| WebhookService.EventsAreWords | src/Services/WebhookService.php:20-30 | the six events are purely alphabetic names, so loose and strict membership agree on strings |
| WebhookService.ValidateEvents | src/Services/WebhookService.php:83-94 | passes exactly when every value is loosely one of the events; otherwise reports the first value that is not |
| WebhookService.KnownEventsPass | src/Services/WebhookService.php:83-94 | a list made only of known event names always passes |
| WebhookService.Update | src/Services/WebhookService.php:64-67 | `update` sends its data unchanged with PUT to `/webhook` |
| WebhookService.Set | src/Services/WebhookService.php:50-56 | `set` sends the URL under `webhook` and the events under `subscribe`, which default to `["All"]` |
| WebhookService.SetWithEvents | src/Services/WebhookService.php:83-94 | succeeds exactly when all events are valid, and is then `set` with them; otherwise raises an `InvalidArgumentException` before any request |
| WebhookService.SetForAllEvents | src/Services/WebhookService.php:99-102 | posts to `/webhook` the URL and the one-event list `All` |
| WebhookService.SetForMessages | src/Services/WebhookService.php:107-110 | posts to `/webhook` the URL and the one-event list `Message` |
| WebhookService.SetForMessagesAndReceipts | src/Services/WebhookService.php:115-118 | posts to `/webhook` the URL and the list `Message`, `ReadReceipt`, in that order |
| WebhookService.SetForAllIsDefault | src/Services/WebhookService.php:99-102 | `setForAllEvents` equals `set` with its default events |
| WebhookService.PresetsPassCheck | src/Services/WebhookService.php:99-118 | the three preset lists pass the check, so each preset equals the checked call |
| WebhookService.UpdateUrl | src/Services/WebhookService.php:123-128 | an update whose only key is `webhook`, holding the new URL |
| WebhookService.UpdateEvents | src/Services/WebhookService.php:133-146 | succeeds exactly when all events are valid, with `subscribe` as the only key; otherwise an `InvalidArgumentException` |
| WebhookService.UpdateStatus | src/Services/WebhookService.php:151-156 | an update whose only key is `active` |
| WebhookService.Activate | src/Services/WebhookService.php:161-164 | a user-token `PUT /webhook` whose only key, `active`, is true |
| WebhookService.Deactivate | src/Services/WebhookService.php:169-172 | a user-token `PUT /webhook` whose only key, `active`, is false |
| WebhookService.CompletePayload | src/Services/WebhookService.php:187-191 | the keys are exactly `webhook`, `subscribe`, `active`, in that order, each holding its argument |
| WebhookService.UpdateComplete | src/Services/WebhookService.php:177-192 | succeeds exactly when all events are valid and then sends the three fields in order; otherwise an `InvalidArgumentException` |
| WebhookService.GetUrl | src/Services/WebhookService.php:197-201 | a missing URL gives null, a string URL is returned, and only an array raises a TypeError |
| WebhookService.GetEvents | src/Services/WebhookService.php:206-210 | a missing `data.subscribe` gives `[]`; an array is returned as it is; any other value raises a TypeError |
| WebhookService.IsConfigured | src/Services/WebhookService.php:215-223 | true exactly when `data.webhook` is set and truthy; an exception from the request gives false, a TypeError passes through |
| WebhookService.IsEventSubscribed | src/Services/WebhookService.php:228-232 | succeeds exactly when the events can be read, and then holds iff the list loosely contains the event or `All`, integer numeric strings (surrounding whitespace allowed) comparing by value |
| WebhookService.SubscribedNamedEvent | src/Services/WebhookService.php:228-232 | for a known event name, subscribed means the list holds that name, `All`, or the boolean true |
| WebhookService.AddedEvents | src/Services/WebhookService.php:244-249 | an already-covered list is kept; otherwise the event is appended; unique keys and list shape are preserved |
| WebhookService.AddedIsSubscribed | src/Services/WebhookService.php:244-251 | after adding, the event is subscribed |
| WebhookService.AddEventIdempotent | src/Services/WebhookService.php:244-249 | adding the same event twice is adding it once |
| WebhookService.AddEvent | src/Services/WebhookService.php:237-252 | an unknown event raises an `InvalidArgumentException`; otherwise the updated list is sent and the event is subscribed in it |
| WebhookService.ValidEventNames | src/Services/WebhookService.php:239-242 | a string event is valid exactly when it is one of the six names |
| WebhookService.RemovedEvents | src/Services/WebhookService.php:259-262 | the result is a list keyed 0, 1, …, keeps the relative order, and holds exactly the values other than the event |
| WebhookService.RemoveEvent | src/Services/WebhookService.php:257-263 | the event is not validated; the list sent no longer holds it |
| WebhookService.RemoveUndoesAdd | src/Services/WebhookService.php:237-263 | removing an event that was just added to a list not covering it gives back the original list |
| WebhookService.RemoveUnderAll | src/Services/WebhookService.php:228-263 | while `All` stays in the list, removing another event leaves it subscribed |
| UserService.SetPresence | src/Services/UserService.php:54-64 | succeeds exactly for `available` and `unavailable`, then sends `{presence: p}`; otherwise raises the "Invalid presence type" exception |
| UserService.PhoneToJid | src/Services/UserService.php:393-404 | the JID is always the digits of the number followed by `@s.whatsapp.net`: the `@` guard always holds |
| UserService.PhoneToJidMatchesToJid | src/Services/UserService.php:393-404 | the JID is the one `PhoneFormatter::toJID` gives for the same number |
| UserService.JidToPhone | src/Services/UserService.php:409-412 | a text without `@` holds no suffix and comes back unchanged |
| UserService.JidRoundTrip | src/Services/UserService.php:393-412 | converting a number to a JID and back gives its digits |
| UserService.JidToPhoneOfJid | src/Services/UserService.php:393-412 | for a JID of digits, stripping the suffix and converting back gives the JID again |
| UserService.CheckSingleNumber | src/Services/UserService.php:116-129 | null when `data.Users` is not an array; otherwise the loop stops at the first record that is the number's (its `Query` strictly equal) or a string (whose `['Query']` raises a TypeError): the record is returned, the string raises the TypeError, and null comes exactly when no record stops the loop |
| UserService.AllContacts | src/Services/UserService.php:232-236 | a missing `data` gives `[]`; an array `data` is returned; any other value raises a TypeError |
| UserService.GetContact | src/Services/UserService.php:241-245 | the contact under the JID used as an array key, null when absent, a TypeError when it is not an array |
| UserService.NameMatches | src/Services/UserService.php:257-270 | when every name field reads as text, the contact matches exactly when some lower-cased field contains the term |
| UserService.SearchContacts | src/Services/UserService.php:250-274 | the result is a key-preserving subsequence of the contacts holding exactly those that match |
| UserService.SearchContactsByName | src/Services/UserService.php:250-274 | searches the contacts of the answer with the lower-cased term |
| UserService.SearchIgnoresCase | src/Services/UserService.php:255 | the term's letter case does not change the result |
| UserService.EmptyTermMatches | src/Services/UserService.php:265-269 | an empty term matches every contact whose first name field reads as text |
| UserService.BusinessContacts | src/Services/UserService.php:279-286 | exactly the contacts with a truthy `BusinessName`, as a key-preserving subsequence |
| UserService.FirstNonEmpty | src/Services/UserService.php:379-385 | the value of the first field that is set and truthy, and null exactly when none is |
| UserService.ContactDisplayName | src/Services/UserService.php:370-388 | a TypeError when the contacts or the contact cannot be read; null when the contact is absent or has no truthy name field; otherwise the first of PushName, FullName, FirstName, BusinessName that is set and truthy, converted as at a `?string` return |
| UserService.SingleUserInfo | src/Services/UserService.php:93-102 | on an array `Users` the entry under the user id as array key: null when absent or null, the array itself, and a TypeError at `?array` for any other value; on a string `Users` a TypeError exactly when the id is an in-range integer offset, else null; null for any other `Users` |
| UserService.StoredUserReadsBack | src/Services/UserService.php:93-102 | a record stored under the id in a `Users` array with unique keys is the info read back |
| UserService.UserDevices | src/Services/UserService.php:316-320 | no info, an empty info or no `Devices` gives `[]`; an array `Devices` is returned as it is; anything else raises a TypeError |
| UserService.DevicesAreCounted | src/Services/UserService.php:316-347 | when the info read back holds a `Devices` array, the devices are that array and the multiple-device test is its count above 1 |
| UserService.UserHasMultipleDevices | src/Services/UserService.php:343-347 | holds exactly when the device list has more than one entry |
| ChatService.StatesAreWords | src/Services/ChatService.php:30-36 | the presence states `composing` and `paused` are purely alphabetic |
| ChatService.SetPresence | src/Services/ChatService.php:272-280 | fails exactly when `state` is set and is not loosely one of the states; a payload without `state` is sent unchecked |
| ChatService.PresenceHelpersPass | src/Services/ChatService.php:691-732 | a payload naming a valid state always passes the check and is sent as built |
| ChatService.PresencePayloadFields | src/Services/ChatService.php:691-732 | the indicator payload has the keys `phone`, `state` and, for audio, `media`, in that order, holding the phone, the state and `audio` |
| ChatService.SetTyping | src/Services/ChatService.php:691-697 | never rejected; posts to `/chat/presence` exactly `phone` and `state` `composing` |
| ChatService.StopTyping | src/Services/ChatService.php:702-708 | never rejected; posts to `/chat/presence` exactly `phone` and `state` `paused` |
| ChatService.SetRecordingAudio | src/Services/ChatService.php:713-720 | never rejected; posts to `/chat/presence` exactly `phone`, `state` `composing` and `media` `audio` |
| ChatService.StopRecordingAudio | src/Services/ChatService.php:725-732 | never rejected; posts to `/chat/presence` exactly `phone`, `state` `paused` and `media` `audio` |
| ChatService.Send | src/Services/ChatService.php:287-299 | a builder sends its fixed fields, then each optional argument only when it is truthy |
| ChatService.SendSimpleText | src/Services/ChatService.php:287-299 | `phone` and `body`, then `id` when truthy, to `/chat/send/text` |
| ChatService.SimpleTextFields | src/Services/ChatService.php:287-299 | `phone` and `body` always read back; `id` is present exactly when it is truthy |
| ChatService.SendTextReply | src/Services/ChatService.php:304-320 | the reply nests `stanzaId` and `participant` under `contextInfo` |
| ChatService.SendImageFromBase64 | src/Services/ChatService.php:394-410 | `phone` and `image`, then `caption` and `id` when truthy |
| ChatService.ImageFields | src/Services/ChatService.php:394-410 | `image` always reads back; `caption` and `id` are present exactly when truthy |
| ChatService.SendImageFromUrl | src/Services/ChatService.php:415-431 | like the base64 image, with `imageUrl` |
| ChatService.SendDocumentFromBase64 | src/Services/ChatService.php:436-449 | `phone`, `document` and `filename`, then `id` when truthy |
| ChatService.SendVideoFromBase64 | src/Services/ChatService.php:454-470 | `phone` and `video`, then `caption` and `id` when truthy |
| ChatService.SendAudioFromBase64 | src/Services/ChatService.php:475-487 | `phone` and `audio`, then `id` when truthy |
| ChatService.SendStickerFromBase64 | src/Services/ChatService.php:492-504 | `phone` and `sticker`, then `id` when truthy |
| ChatService.SendSimpleTemplate | src/Services/ChatService.php:535-552 | `phone`, `text` and `buttons`, then `footer` and `id` when truthy |
| ChatService.SendContactVCard | src/Services/ChatService.php:557-569 | `phone` and `vcard`, then `id` when truthy |
| ChatService.SendButtonsMessage | src/Services/ChatService.php:590-607 | `phone`, `text` and `buttons`, then `footer` and `id` when truthy |
| ChatService.SendListMessage | src/Services/ChatService.php:612-634 | `phone`, `text`, `sections` and `buttonText`, then `footer`, `title` and `id` when truthy |
| ChatService.SendPollToGroup | src/Services/ChatService.php:639-653 | `group`, `question`, `options` and `allowMultipleAnswers`, then `id` when truthy; the question, options and flag read back |
| ChatService.SendMultipleChoicePoll | src/Services/ChatService.php:850-853 | the same poll request as `sendPollToGroup` with the choices as `options`: the four fixed fields, then `id` when truthy, and nothing else |
| ChatService.SendYesNoPoll | src/Services/ChatService.php:842-845 | the options are `["Yes", "No"]` and multiple answers are not allowed |
| ChatService.ReactToMessage | src/Services/ChatService.php:370-377 | a POST to `/chat/react` of `phone`, `id` and `body` |
| ChatService.ReactToOwnMessage | src/Services/ChatService.php:382-389 | the reaction with `phone` set to `me:` plus the number |
| ChatService.OwnReactionDiffersOnlyInPhone | src/Services/ChatService.php:370-389 | an own reaction differs from a plain one only in its first field |
| ChatService.VCardTailJoin | src/Services/ChatService.php:578-582 | the card's tail is the email line when the email is truthy, then `END:VCARD` |
| ChatService.VCardIsLines | src/Services/ChatService.php:576-582 | the card is its lines joined with newlines: begin, version 3.0, FN, TEL, an EMAIL line only for a truthy email, end |
| ChatService.VCardRoundTrip | src/Services/ChatService.php:574-585 | when no value contains a newline, splitting the card at newlines gives back exactly its lines |
| ChatService.SendSimpleContact | src/Services/ChatService.php:574-585 | posts to `/chat/send/contact` exactly `phone` and the card under `vcard`, then `id` when it is truthy, and nothing else |
| ChatService.VCard | src/Services/ChatService.php:575-581 | the card opens with `BEGIN:VCARD`, `VERSION:3.0`, the `FN` and `TEL` lines, closes with a newline and `END:VCARD`, and is longer by an `EMAIL` line exactly when the email is truthy |
| ChatService.MakeButton | src/Services/ChatService.php:739-770 | the keys are `type` and the kind's two argument names, in that order, holding the kind's type name and the arguments |
| ChatService.CreateQuickReplyButton | src/Services/ChatService.php:739-746 | the keys `type`, `id`, `text` in that order, holding `quickReply` and the two arguments |
| ChatService.CreateUrlButton | src/Services/ChatService.php:751-758 | the keys `type`, `text`, `url` in that order, holding `url` and the two arguments |
| ChatService.CreateCallButton | src/Services/ChatService.php:763-770 | the keys `type`, `text`, `phoneNumber` in that order, holding `call` and the two arguments |
| ChatService.CreateListSection | src/Services/ChatService.php:775-781 | `title` and `rows` read back |
| ChatService.CreateListRow | src/Services/ChatService.php:786-798 | `id` and `title`, with `description` present exactly when truthy |
| ChatService.ItemArg | src/Services/ChatService.php:807 | a string field of an array item is read as it is, an integer becomes its decimal text and a boolean `"1"` or `""`; a missing, null or array field, or an item that is not an array, raises a TypeError |
| ChatService.ItemButton | src/Services/ChatService.php:805-808 | an item becomes the kind's button of its two fields in order, and fails with a TypeError exactly when one of them does not convert |
| ChatService.ItemButtonsError | src/Services/ChatService.php:805-808 | a failing conversion of the items reports a TypeError |
| ChatService.CollectError | src/Services/ChatService.php:805-808 | the failure reported for the items is the failure of one of them |
| ChatService.Collect | src/Services/ChatService.php:805-808 | a mapped sequence succeeds exactly when every element does, and then keeps length, order and values |
| ChatService.ItemButtons | src/Services/ChatService.php:805-808 | the buttons succeed exactly when every item converts, with one button per item in order |
| ChatService.ItemButtonsTyped | src/Services/ChatService.php:803-837 | every converted button is an array tagged with the kind's `type` |
| ChatService.SendButtonTemplate | src/Services/ChatService.php:803-837 | the template holds, in the items' order, the button each item converts to, each tagged with the kind's `type`; it fails with a TypeError exactly when some item does not convert |
| ChatService.SendQuickReplyTemplate | src/Services/ChatService.php:803-811 | succeeds exactly when every reply's `id` and `text` read as strings, and then sends, in order, the quick-reply button of each; otherwise a TypeError |
| ChatService.SendUrlButtonTemplate | src/Services/ChatService.php:816-824 | succeeds exactly when every item's `text` and `url` read as strings, and then sends, in order, the URL button of each; otherwise a TypeError |
| ChatService.SendCallButtonTemplate | src/Services/ChatService.php:829-837 | succeeds exactly when every item's `text` and `phoneNumber` read as strings, and then sends, in order, the call button of each; otherwise a TypeError |
| ChatService.QuickReplyFromStrings | src/Services/ChatService.php:739-746 | a reply with string `id` and `text` becomes the quick-reply button of those strings |
| ChatService.IsResponseSuccessful | src/Services/ChatService.php:890-893 | true exactly when `success` is the boolean true and `code` is the integer 200 |
| ChatService.ResponseSuccessAgrees | src/Services/ChatService.php:890-893 | this agrees with `ResponseFormatter::isSuccessful` combined with a status code of 200 |
| SessionService.Subscriptions | src/Services/SessionService.php:44 | the `Subscribe` option, exactly when it is set and is an array |
| SessionService.Connect | src/Services/SessionService.php:41-54 | without an array `Subscribe` it always passes; with one it fails exactly when some value is not loosely an event, and reports the first such value |
| SessionService.ConnectWithoutSubscriptionPasses | src/Services/SessionService.php:44-53 | options without an array under `Subscribe` are sent unchanged |
| SessionService.ConnectWithEvents | src/Services/SessionService.php:59-65 | passes exactly when every event is valid, and sends the events and the flag |
| SessionService.ConnectImmediate | src/Services/SessionService.php:70-76 | `Immediate` is forced to true |
| SessionService.ConnectAndWait | src/Services/SessionService.php:81-87 | `Immediate` is forced to false |
| SessionService.DefaultEventsPass | src/Services/SessionService.php:59-87 | the default `["All"]` passes the check |
| SessionService.SetProxy | src/Services/SessionService.php:153-159 | `proxy_url` and `enable` read back |
| SessionService.EnableProxy | src/Services/SessionService.php:164-167 | `enable` is true |
| SessionService.DisableProxy | src/Services/SessionService.php:172-177 | the only field is `enable`, false; no `proxy_url` is sent |
| SessionService.S3PayloadFields | src/Services/SessionService.php:238-249 | `enabled` is true, and `endpoint` and `path_style` read back |
| SessionService.S3PathStyle | src/Services/SessionService.php:245 | `path_style` reads back |
| SessionService.ConfigureS3 | src/Services/SessionService.php:185-188 | the configuration is posted unchanged |
| SessionService.ConfigureAWS | src/Services/SessionService.php:228-250 | the payload of the settings at the fixed Amazon endpoint |
| SessionService.ConfigureMinIO | src/Services/SessionService.php:255-278 | the payload of the settings at the caller's endpoint |
| SessionService.ConfigureBackblazeB2 | src/Services/SessionService.php:283-304 | the payload at the region's B2 endpoint, without path-style addressing |
| SessionService.AwsIsMinIOAtAmazon | src/Services/SessionService.php:228-278 | the AWS helper is the MinIO helper pointed at the Amazon endpoint |
| SessionService.BackblazeEndpointInjective | src/Services/SessionService.php:294 | different regions give different B2 endpoints |
| SessionService.ConfigureHelpersEnable | src/Services/SessionService.php:228-304 | B2 sends `enabled` true, `path_style` false and its endpoint; AWS sends `enabled` true and the Amazon endpoint |
| SessionService.DisableS3 | src/Services/SessionService.php:431-434 | the configuration sent is `{enabled: false}` |
| SessionService.StatusFlag | src/Services/SessionService.php:311-332 | an exception from the request gives false; a missing field gives false; a present field is coerced to bool, and an array raises a TypeError |
| SessionService.IsConnected | src/Services/SessionService.php:311-319 | true exactly when `data.Connected` is a truthy scalar; a TypeError exactly when it is an array |
| SessionService.IsLoggedIn | src/Services/SessionService.php:324-332 | true exactly when `data.LoggedIn` is a truthy scalar; a TypeError exactly when it is an array |
| SessionService.IsS3Enabled | src/Services/SessionService.php:418-426 | true exactly when `data.enabled` is a truthy scalar |
| SessionService.FlagDefaultsToFalse | src/Services/SessionService.php:311-332 | a failed request or a missing field gives false |
| SessionService.IsReady | src/Services/SessionService.php:337-340 | true exactly when connected and logged in; not connected gives false without consulting the second request |
| SessionService.FailedStatusNotReady | src/Services/SessionService.php:337-340 | a failed first status request makes the session not ready |
| SessionService.Guarded | src/Services/SessionService.php:345-379 | an exception from the request gives null; otherwise the read of the answer |
| SessionService.GetSessionDetails | src/Services/SessionService.php:345-353 | `data` as an array, or null |
| SessionService.GetQRCodeData | src/Services/SessionService.php:358-366 | `data.QRCode` as text, or null |
| SessionService.GetPairingCode | src/Services/SessionService.php:371-379 | `data.LinkingCode` as text, or null |
| NewsletterService.Newsletters | src/Services/NewsletterService.php:33 | `data.Newsletter`, exactly when it is set and is an array |
| NewsletterService.GetNewsletter | src/Services/NewsletterService.php:29-44 | null without a list; otherwise the first newsletter whose `id` is strictly the given one |
| NewsletterService.GetActiveNewsletters | src/Services/NewsletterService.php:49-60 | `[]` without a list; otherwise a key-preserving subsequence holding exactly the newsletters whose `state.type` is strictly `active` |
| NewsletterService.GetVerifiedNewsletters | src/Services/NewsletterService.php:65-77 | `[]` without a list; otherwise exactly the newsletters whose `thread_metadata.verification` is strictly `verified` |
| NewsletterService.ActiveFilterIdempotent | src/Services/NewsletterService.php:57-59 | filtering the active newsletters again keeps them all |
| NewsletterService.GetNewsletterMetadata | src/Services/NewsletterService.php:82-87 | null when the newsletter is not found; otherwise its `thread_metadata` as an array or null |
| NewsletterService.MetadataText | src/Services/NewsletterService.php:92-117 | null when the metadata is missing, null or empty; otherwise the text at the path within the metadata; a TypeError from the metadata read becomes the result |
| NewsletterService.GetNewsletterName | src/Services/NewsletterService.php:92-97 | null when the metadata is missing, null or empty; otherwise `name.text` of the metadata, a TypeError when it is an array |
| NewsletterService.GetNewsletterDescription | src/Services/NewsletterService.php:102-107 | null when the metadata is missing, null or empty; otherwise `description.text` of the metadata, a TypeError when it is an array |
| NewsletterService.GetSubscriberCount | src/Services/NewsletterService.php:112-117 | null when the metadata is missing, null or empty; otherwise `subscribers_count` as text, an integer count giving its decimal digits |
| NewsletterService.IsVerified | src/Services/NewsletterService.php:122-129 | true exactly when the metadata is found and its `verification` is strictly `verified` |
| NewsletterService.IsMuted | src/Services/NewsletterService.php:134-141 | true exactly when the newsletter is found and `viewer_metadata.mute` is strictly `on` |
| NewsletterService.GetUserRole | src/Services/NewsletterService.php:146-151 | null when the newsletter is not found; otherwise `viewer_metadata.role` as text |
| NewsletterService.IsSubscriber | src/Services/NewsletterService.php:156-159 | true exactly when the role is `subscriber`; a missing newsletter gives false |
| NewsletterService.VerifiedIsListed | src/Services/NewsletterService.php:65-129 | a newsletter `isVerified` reports is among those `getVerifiedNewsletters` keeps |
| NewsletterService.FlagsNeedNewsletter | src/Services/NewsletterService.php:134-159 | muted or subscribed implies the newsletter was found |
| AdminService.CreateUser | src/Services/AdminService.php:24-27 | the user data is posted unchanged with the admin credential |
| AdminService.CreateSimpleUser | src/Services/AdminService.php:32-44 | `name` and `events` are always sent; `webhook` is present exactly when truthy |
| AdminService.CreateUserWithProxy | src/Services/AdminService.php:49-65 | an admin `POST /admin/users` with exactly the keys `name`, `webhook`, `events`, `proxy_config` in that order; the first three read back, and `proxy_config` nests `enabled` and `proxy_url` |
| AdminService.CreateUserWithS3 | src/Services/AdminService.php:70-82 | a POST of exactly `name`, `webhook`, `events` and `s3_config`, in that order, each reading back its argument, the S3 settings nested unchanged |
| AdminService.DeleteUser | src/Services/AdminService.php:90-93 | DELETE on `/admin/users/` plus the id, without data |
| AdminService.DeleteUserFull | src/Services/AdminService.php:102-105 | DELETE on the same path plus `/full`, without data |
| AdminService.DeletePathsDistinct | src/Services/AdminService.php:90-105 | the two deletions reach different paths, and different users get different paths |
| AdminService.AdminCallsNeedAdminToken | src/Services/AdminService.php:13-27 | every admin call fails exactly when the admin token is falsy, whatever the user token |
| AdminService.GetUser | src/Services/AdminService.php:110-125 | null without a `data` array; otherwise the first user whose `id` is strictly the given one |
| AdminService.UserExists | src/Services/AdminService.php:130-133 | true exactly when `getUser` finds the user, that is, when some entry of `data` has that `id` |
| MessageService.Filtered | src/Services/MessageService.php:12-17 | the payload is a subsequence of the literal holding exactly its truthy fields |
| MessageService.SendText | src/Services/MessageService.php:10-18 | each of `Phone`, `Body`, `Id`, `ContextInfo` is present exactly when truthy, in literal order |
| MessageService.SendImage | src/Services/MessageService.php:23-31 | `Phone`, `Image`, `Caption`, `Id`, each exactly when truthy, in literal order |
| MessageService.SendAudio | src/Services/MessageService.php:36-43 | `Phone`, `Audio`, `Id`, each exactly when truthy |
| MessageService.SendVideo | src/Services/MessageService.php:48-56 | `Phone`, `Video`, `Caption`, `Id`, each exactly when truthy |
| MessageService.SendDocument | src/Services/MessageService.php:61-69 | `Phone`, `Document`, `FileName`, `Id`, each exactly when truthy |
| MessageService.SendContact | src/Services/MessageService.php:87-94 | `Phone`, `Contact`, `Id`, each exactly when truthy; an empty contact is dropped |
| MessageService.SendButtons | src/Services/MessageService.php:99-107 | `Phone`, `Text`, `Buttons`, `Id`, each exactly when truthy |
| MessageService.SendList | src/Services/MessageService.php:112-121 | `ButtonText` has no default and is present exactly when truthy |
| MessageService.SendReaction | src/Services/MessageService.php:126-134 | `/chat/send/reaction` with `Phone`, `MessageId`, `Emoji`, `Id`, each exactly when truthy |
| MessageService.FalsyValuesDropped | src/Services/MessageService.php:10-18 | an empty body, an `Id` of `"0"` and a null context are all omitted |
| MessageService.AllTruthyKeepsLiteral | src/Services/MessageService.php:10-18 | when every value is truthy the payload is the literal itself |
| PhpString.StripNonDigits | src/Utils/PhoneFormatter.php:14 | the result is all digits, no longer than the input, and an all-digit input is kept |
| PhpString.StripNonDigitsAppend | src/Utils/PhoneFormatter.php:14 | stripping distributes over concatenation |
| PhpString.StripNonDigitsMembers | src/Utils/PhoneFormatter.php:14 | a character survives exactly when it is a digit of the input |
| PhpString.StripNonDigitsNone | src/Utils/PhoneFormatter.php:14 | a string without digits strips to empty |
| PhpString.TrimLeft | src/WAGClient.php:194 | removes exactly the leading run of the character, keeping the rest as a suffix |
| PhpString.TrimRight | src/WAGClient.php:36 | removes exactly the trailing run of the character, keeping the rest as a prefix |
| PhpString.Lower | src/WAGClient.php:292 | each character is lower-cased on its own, keeping the length |
| PhpString.Upper | src/WAGClient.php:209 | each character is upper-cased on its own, keeping the length |
| PhpString.LowerIdempotent | src/Services/UserService.php:255 | lower-casing twice is lower-casing once |
| PhpString.ContainsNeedsFirstChar | src/Utils/PhoneFormatter.php:40 | a string lacking the needle's first character does not contain the needle |
| PhpString.ReplaceStep | src/Services/UserService.php:411 | a leading character that cannot start the search string is kept |
| PhpString.ReplaceWhole | src/Services/UserService.php:411 | replacing a string in itself by nothing gives empty |
| PhpString.ReplaceSkipsPrefix | src/Services/UserService.php:411 | a prefix lacking the search string's first character passes through unchanged |
| PhpString.ReplaceKeepsText | src/Services/UserService.php:411 | a text lacking the search string's first character is left as it is |
| PhpString.Join | src/Services/WebhookService.php:241 | joining nothing gives empty, and joining one piece gives that piece |
| PhpString.SplitJoin | src/Services/ChatService.php:576-582 | splitting a join at a separator no piece contains gives back the pieces |
| PhpArray.Get | src/Utils/ResponseFormatter.php:12 | a key is absent exactly when no entry has it; a value found is that of an entry with the key |
| PhpArray.GetFirst | src/Utils/ResponseFormatter.php:12 | the first entry with the key is the one read |
| PhpArray.ObjField | src/Services/AdminService.php:56-64 | a field of an array literal reads back when no earlier field has its name |
| PhpArray.AppendIfTruthy | src/Services/ChatService.php:294-296 | appends the named value exactly when the argument is truthy |
| PhpArray.Present | src/Services/ChatService.php:294-296 | the optional fields kept are exactly the truthy ones |
| PhpArray.WithOptionalsIsLiteral | src/Services/ChatService.php:289-296 | a literal followed by conditional assignments equals the literal extended by its truthy optionals |
| PhpArray.FixedField | src/Services/ChatService.php:289-292 | a fixed field of a builder always reads back |
| PhpArray.OptionalFieldIffTruthy | src/Services/ChatService.php:294-296 | an optional field is present exactly when truthy, and then holds its value |
| PhpArray.At | src/Utils/ResponseFormatter.php:12 | `$a[k] ??` reads the entry under the key unless it is null; non-arrays give nothing |
| PhpArray.Lookup | src/Services/SessionService.php:315 | a nested `??` path never yields null |
| PhpArray.Coalesce | src/Services/SessionService.php:315 | the default exactly when the path is absent, otherwise the value found |
| PhpArray.FilterEntries | src/Services/NewsletterService.php:57-59 | `array_filter` keeps exactly the entries whose value passes, keys and order kept |
| PhpArray.FilterEntriesAppend | src/Services/NewsletterService.php:57-59 | filtering distributes over concatenation |
| PhpArray.FilterEntriesKeepsAll | src/Services/NewsletterService.php:57-59 | filtering an array whose values all pass changes nothing |
| PhpArray.FilterTruthy | src/Services/MessageService.php:12-17 | `array_filter` without a callback keeps exactly the truthy entries |
| PhpArray.FilterTruthyField | src/Services/MessageService.php:12-17 | after filtering a literal with distinct names, a field is present, unchanged, exactly when truthy |
| PhpArray.ArrayValues | src/Services/WebhookService.php:262 | `array_values` re-keys 0, 1, … and keeps the values |
| PhpArray.NextIndex | src/Services/WebhookService.php:248 | the index `$a[] = v` uses is not a key of the array |
| PhpArray.NextIndexOfList | src/Services/WebhookService.php:248 | for a list, that index is its length |
| PhpArray.Push | src/Services/WebhookService.php:248 | appends the value, keeping keys unique and lists lists |
| PhpArray.FindFirst | src/Services/SessionService.php:46-50 | the first value that matches, and nothing exactly when none does |
| PhpArray.FirstWithField | src/Services/NewsletterService.php:37-41 | the first array whose field is strictly the string, and nothing exactly when none is |
| PhpArray.AsBool | src/Services/SessionService.php:315 | a scalar at a `bool` return is its truthiness; an array raises a TypeError |
| PhpArray.AsText | src/Services/UserService.php:266 | a value used as text: a string is kept; an array raises a TypeError |
| PhpArray.AsOptText | src/Utils/ResponseFormatter.php:20 | a value at a `?string` return: absent gives null; a string is kept; an array raises a TypeError |
| PhpArray.AsOptArray | src/Utils/ResponseFormatter.php:36 | a value at a `?array` return: absent gives null; an array is kept; any other value raises a TypeError |
| PhpArray.LooseInWords | src/Services/WebhookService.php:240 | loose `in_array` over words: a string matches only itself, `true` matches a non-empty list, other scalars and arrays match nothing |
| PhpArray.LooseInWordsAgrees | src/Services/WebhookService.php:240 | that rule agrees with PHP 8's loose `==` applied element by element |
| PhpArray.LooseEqualsWord | src/Services/WebhookService.php:231 | a word is loosely equal only to itself and to `true` |
| PhpArray.TrimLeadingSpace | src/Services/WebhookService.php:231 | the result is a suffix of the string that does not start with whitespace |
| PhpArray.TrimTrailingSpace | src/Services/WebhookService.php:231 | the result is a prefix of the string that does not end with whitespace |
| PhpArray.DropLeadingSpace | src/Services/WebhookService.php:231 | whitespace before a string does not change where the number starts |
| PhpArray.DropTrailingSpace | src/Services/WebhookService.php:231 | whitespace after a string does not change where the number ends |
| PhpArray.SignedDigitsEnds | src/Services/WebhookService.php:231 | signed digits neither start nor end with whitespace |
| PhpArray.NumericCoreOfTrimmed | src/Services/WebhookService.php:231 | a string without surrounding whitespace is read as a number as it is |
| PhpArray.PaddedIntText | src/Services/WebhookService.php:231 | signed digits with whitespace before and after are an integer numeric string of the same value |
| PhpArray.TrailingSpaceComparesAsNumber | src/Services/WebhookService.php:231 | `"1 " == 1` holds |
| PhpArray.LooseContainsWord | src/Services/WebhookService.php:231 | a list loosely holds a word exactly when it holds that string or `true` |
| PhpArray.ArrayKey | src/Services/UserService.php:244 | a string used as an array key stays a string unless it is a canonical 64-bit decimal integer |

## Left out

- The Guzzle transport and JSON decoding are not modelled. The transport outcome is an input: a decoded body, or a failed request with an optional response. Exceptions other than `RequestException` are not modelled.
- The log writes of `logRequest`, `logResponse` and `logError` are I/O and are left out. What logging changes in the outcome is modelled: `logResponse` accepts only an array (`WagClient.Complete`), and the redaction `sanitizeData` is modelled.
- The constructor's log channel and `http` configuration (timeouts) are left out; `logging.enabled` is the client's `logging` flag, taken as a boolean. The HTTP client's resolution of the path against the base URI (RFC 3986, section 5) is also left out; the descriptor keeps base URL and path apart.
- `waitForConnection` and `waitForLogin` are left out: they poll with `time()` and `sleep()`.
- Floating-point values are left out. This removes `sendLocationCoordinates` and `MessageService::sendLocation`.
- Framework glue is not part of this model: `UserTokenService`, `ManagesUserTokens`, `WAGServiceProvider`, the facade, `config/wag.php`, `BaseService` and `ClientInterface`. The service provider reads `wag.api_key` while the configuration defines `admin_api_key`; that wiring is not part of this model.
- Pass-through services are left out: `GroupService`, `ContactService`, `AuthService`, `DeviceService` and `MediaService`. They send a fixed path and a literal payload.
- Of `ChatService`, the raw request methods are left out: `sendX(array)`, `react`, `editMessage`, `deleteMessage`, `markRead` and the downloads. They send the given array to a fixed path. Also left out are the wrappers that only hand a literal array to one of them: `editMessageContent`, `deleteMessageById`, `markMessageRead`, `markMessagesRead` and the `download…ById` helpers. So are the response getters other than `isResponseSuccessful`, which read one field with `?? null`.
- Of `UserService`, only `setPresence`, the JID helpers, `checkSingleNumber`, the contact reads, search, display name and business filter, `getSingleUserInfo`, `getUserDevices` and `userHasMultipleDevices` are modelled. The other methods are fixed requests or `?? null` reads of one field of the same answers.
- Requests with a fixed path and no payload are left out, since there is nothing to state beyond the path: `AdminService::listUsers`, `NewsletterService::list` and its alias `getAll`, `WebhookService::get` and `delete`, and `SessionService::disconnect`, `logout`, `status`, `getQRCode`, `getS3Config`, `deleteS3Config` and `testS3Connection`. `SessionService::pairPhone` is left out too: it sends the given array to a fixed path. The helpers that read these answers, such as `isConnected` or `getQRCodeData`, take the answer as input.
- ResponseFormatter.GetStatusCode: the `int` return type's coercion is not modelled. A numeric string or a float is returned as the stored value, not converted.
- NewsletterService.GetSubscriberCount: the count is read as text, because PHP converts an integer to its decimal string at the `?string` return. A float count is not modelled, as floats are not part of the value model.
- PhpArray.LooseInWords: it requires a list of alphabetic words, the only lists the source validates against.
- WebhookService.IsEventSubscribed: loose `==` (`LooseEqualsText`) compares integer numeric strings by their exact integer value, of any size, with the whitespace PHP 8 allows before and after them. PHP reads an integer string beyond 64 bits as a float, so two such strings that round to the same float, like `"99999999999999999999"` and `"99999999999999999998"`, are equal in PHP but not in the model. Float-like numeric strings such as `"1.0"`, `"1e3"` or `".5"` are compared as text. Floating point is outside this model.
- ChatService.ItemArg: a float field is not modelled, as floats are not part of the value model.
- ChatService.VCardIsLines: vCard 3.0 values are not escaped, as in the source (RFC 2426, section 4). The round trip `VCardRoundTrip` therefore needs values without newlines.
- UserService.SearchContacts: when some name field of some contact is an array, the model reports a TypeError for the whole search. It does not state which contacts were read before the error.
- SessionService.S3PayloadFields: it states only `enabled`, `endpoint` and `path_style`. The other seven settings go into the same literal, in the order of the source.
- AdminService.CreateUserWithProxy: it states the nested `proxy_config` as a whole array, not each nested field.
- PhoneFormatter.Validate: it states that validity implies at least ten characters, and the converse only for all-digit input. Validation of arbitrary input is related to the formatted number through `ValidateFormatted`.
- `Exceptions` models a `WAGException` only as a message and an integer code; the previous-exception chain is left out.

=== FILE: admin_service.dfy ===
/**
 * `WAG\LaravelSDK\Services\AdminService`: user administration, every call made with the
 * admin token. `getUser` and `userExists` look through the answer of `listUsers`, which
 * they receive as a parameter.
 */
module AdminService {
  import opened Wrappers
  import opened Exceptions
  import opened PhpArray
  import opened WagClient

  /** The event list a new user gets when none is named. */
  const DefaultEvents: string := "All"

  /** `createUser`: the given fields, sent as they are. */
  function CreateUser(userData: Arr): (c: Call)
    ensures c.auth == AsAdmin && c.verb == "POST" && c.endpoint == "/admin/users" && c.data == userData
  {
    Call(AsAdmin, "POST", "/admin/users", userData)
  }

  /**
   * `createSimpleUser`: `name` and `events` always (a null `events` is sent as null), then
   * `webhook` only when it is truthy.
   */
  function CreateSimpleUser(name: string, webhook: Option<string>, events: Option<string>): (c: Call)
    ensures c == CreateUser(Obj([("name", JStr(name)), ("events", OptText(events))] + Present([("webhook", webhook)])))
    ensures Field(c.data, "name") == Some(JStr(name)) && Field(c.data, "events") == Some(OptText(events))
    ensures Field(c.data, "webhook").Some? <==> TruthyOpt(webhook)
    ensures TruthyOpt(webhook) ==> Field(c.data, "webhook") == Some(JStr(webhook.value))
  {
    var fixed := [("name", JStr(name)), ("events", OptText(events))];
    WithOptionalsIsLiteral(fixed, [("webhook", webhook)]);
    FixedField(fixed, [("webhook", webhook)], 0);
    FixedField(fixed, [("webhook", webhook)], 1);
    OptionalFieldIffTruthy(fixed, [("webhook", webhook)], 0);
    CreateUser(WithOptionals(Obj(fixed), [("webhook", webhook)]))
  }

  /** `createUserWithProxy`: the proxy settings nested under `proxy_config`. */
  function CreateUserWithProxy(name: string, webhook: string, proxyUrl: string, proxyEnabled: bool, events: string): (c: Call)
    ensures c.auth == AsAdmin && c.verb == "POST" && c.endpoint == "/admin/users"
    ensures Field(c.data, "webhook") == Some(JStr(webhook)) && Field(c.data, "events") == Some(JStr(events))
    ensures Field(c.data, "proxy_config") == Some(JArr(Obj([("enabled", JBool(proxyEnabled)), ("proxy_url", JStr(proxyUrl))])))
    ensures Field(c.data, "name") == Some(JStr(name))
    ensures KeysOf(c.data) == [KStr("name"), KStr("webhook"), KStr("events"), KStr("proxy_config")]
  {
    var proxy := [("enabled", JBool(proxyEnabled)), ("proxy_url", JStr(proxyUrl))];
    var fields := [("name", JStr(name)), ("webhook", JStr(webhook)), ("events", JStr(events)), ("proxy_config", JArr(Obj(proxy)))];
    assert fields[1].0[0] != fields[0].0[0];
    assert fields[2].0[0] != fields[0].0[0] && fields[2].0[0] != fields[1].0[0];
    assert fields[3].0[0] != fields[0].0[0] && fields[3].0[0] != fields[1].0[0] && fields[3].0[0] != fields[2].0[0];
    ObjField(fields, 1);
    ObjField(fields, 2);
    ObjField(fields, 3);
    ObjField(fields, 0);
    CreateUser(Obj(fields))
  }

  /** `createUserWithS3`: the S3 settings nested under `s3_config`, as given. */
  function CreateUserWithS3(name: string, webhook: string, s3Config: Arr, events: string): (c: Call)
    ensures c.auth == AsAdmin && c.verb == "POST" && c.endpoint == "/admin/users"
    ensures Field(c.data, "webhook") == Some(JStr(webhook)) && Field(c.data, "events") == Some(JStr(events))
    ensures Field(c.data, "s3_config") == Some(JArr(s3Config)) && Field(c.data, "name") == Some(JStr(name))
    ensures KeysOf(c.data) == [KStr("name"), KStr("webhook"), KStr("events"), KStr("s3_config")]
  {
    var fields := [("name", JStr(name)), ("webhook", JStr(webhook)), ("events", JStr(events)), ("s3_config", JArr(s3Config))];
    assert fields[1].0[0] != fields[0].0[0];
    assert fields[2].0[0] != fields[0].0[0] && fields[2].0[0] != fields[1].0[0];
    assert fields[3].0[0] != fields[0].0[0] && fields[3].0[0] != fields[1].0[0] && fields[3].0[0] != fields[2].0[0];
    ObjField(fields, 0);
    ObjField(fields, 1);
    ObjField(fields, 2);
    ObjField(fields, 3);
    CreateUser(Obj(fields))
  }

  /** `deleteUser`: DELETE on the user's path, without payload. */
  function DeleteUser(userId: string): (c: Call)
    ensures c.auth == AsAdmin && c.verb == "DELETE" && c.data == []
    ensures c.endpoint == "/admin/users/" + userId
  {
    Call(AsAdmin, "DELETE", "/admin/users/" + userId, [])
  }

  /** `deleteUserFull`: DELETE on the user's path followed by `/full`, without payload. */
  function DeleteUserFull(userId: string): (c: Call)
    ensures c.auth == AsAdmin && c.verb == "DELETE" && c.data == []
    ensures c.endpoint == DeleteUser(userId).endpoint + "/full"
  {
    Call(AsAdmin, "DELETE", "/admin/users/" + userId + "/full", [])
  }

  /** The two deletions reach different paths for every user, and different users get different paths. */
  lemma DeletePathsDistinct(u1: string, u2: string)
    ensures DeleteUser(u1).endpoint != DeleteUserFull(u1).endpoint
    ensures DeleteUser(u1).endpoint == DeleteUser(u2).endpoint ==> u1 == u2
  {
    var pre := "/admin/users/";
    assert |DeleteUserFull(u1).endpoint| == |DeleteUser(u1).endpoint| + 5;
    if DeleteUser(u1).endpoint == DeleteUser(u2).endpoint {
      assert u1 == DeleteUser(u1).endpoint[|pre|..];
      assert u2 == DeleteUser(u2).endpoint[|pre|..];
    }
  }

  /** Every administration call needs a truthy admin token, whatever the user token. */
  lemma AdminCallsNeedAdminToken(c: Client, call: Call)
    requires call.auth == AsAdmin
    ensures Send(c, call).Err? <==> !TruthyOpt(c.adminToken)
    ensures Send(c, call).Err? ==> Send(c, call).error == MissingCredential(AsAdmin)
  {
  }

  /** `getUser`: the first entry of `data` whose `id` is strictly the user's, if `data` is an array. */
  function GetUser(userId: string, users: Arr): (r: Option<Arr>)
    ensures (forall list: Arr :: Lookup(JArr(users), ["data"]) != Some(JArr(list))) ==> r.None?
    ensures forall list: Arr :: Lookup(JArr(users), ["data"]) == Some(JArr(list)) ==> r == FirstWithField(list, "id", userId)
    ensures r.Some? ==> Field(r.value, "id") == Some(JStr(userId))
  {
    match Lookup(JArr(users), ["data"])
    case Some(JArr(list)) => FirstWithField(list, "id", userId)
    case _ => None
  }

  /** `userExists`: some entry of `data` has exactly that `id`. */
  function UserExists(userId: string, users: Arr): (r: bool)
    ensures r <==> GetUser(userId, users).Some?
    ensures r <==>
              exists list: Arr ::
                Lookup(JArr(users), ["data"]) == Some(JArr(list))
                && exists i :: 0 <= i < |list| && FieldIs(list[i].value, "id", userId)
  {
    GetUser(userId, users).Some?
  }
}

=== FILE: chat_service.dfy ===
/**
 * `WAG\LaravelSDK\Services\ChatService`: the chat presence check, the helpers that build
 * message payloads from a few arguments (fixed fields always, optional ones only when
 * truthy), the vCard text of `sendSimpleContact`, the button and list-row records, the
 * button templates, and the success test on a response.
 */
module ChatService {
  import opened Wrappers
  import opened Exceptions
  import opened PhpString
  import opened PhpArray
  import opened WagClient
  import ResponseFormatter

  const PresenceStates: seq<string> := ["composing", "paused"]

  const MediaAudio: string := "audio"

  lemma StatesAreWords()
    ensures forall i :: 0 <= i < |PresenceStates| ==> IsWord(PresenceStates[i])
  {
    assert IsWord("composing") && IsWord("paused");
  }

  /** The exception for a presence state outside the list. */
  function InvalidState(state: J): Error {
    WAGException("Invalid presence state: " + Interpolate(state) + ". Valid states are: " + Join(", ", PresenceStates), 0)
  }

  /**
   * `setPresence`: a `state` that is set and not loosely one of the two states is rejected;
   * a payload without `state` (or with `state` null) is sent unchecked.
   */
  function SetPresence(presenceData: Arr): (r: Result<Call, Error>)
    ensures r.Err? <==> exists v :: Lookup(JArr(presenceData), ["state"]) == Some(v) && !LooseInWords(v, PresenceStates)
    ensures r.Err? ==> r.error == InvalidState(Lookup(JArr(presenceData), ["state"]).value)
    ensures r.Ok? ==> r.value == Call(AsUser, "POST", "/chat/presence", presenceData)
  {
    StatesAreWords();
    match Lookup(JArr(presenceData), ["state"])
    case Some(v) =>
      if !LooseInWords(v, PresenceStates) then Err(InvalidState(v))
      else Ok(Call(AsUser, "POST", "/chat/presence", presenceData))
    case None => Ok(Call(AsUser, "POST", "/chat/presence", presenceData))
  }

  /** The payload of the typing and recording helpers. */
  function PresencePayload(phone: string, state: string, audio: bool): Arr {
    Obj([("phone", JStr(phone)), ("state", JStr(state))] + (if audio then [("media", JStr(MediaAudio))] else []))
  }

  /** The typing and recording helpers always name a valid state, so they never fail the check. */
  lemma PresenceHelpersPass(phone: string, state: string, audio: bool)
    requires state in PresenceStates
    ensures SetPresence(PresencePayload(phone, state, audio)).Ok?
    ensures SetPresence(PresencePayload(phone, state, audio)).value.data == PresencePayload(phone, state, audio)
  {
    var fields := [("phone", JStr(phone)), ("state", JStr(state))] + (if audio then [("media", JStr(MediaAudio))] else []);
    ObjField(fields, 1);
    StatesAreWords();
  }

  /** The keys of that payload, in order, and what each holds. */
  lemma PresencePayloadFields(phone: string, state: string, audio: bool)
    ensures KeysOf(PresencePayload(phone, state, audio)) ==
              [KStr("phone"), KStr("state")] + (if audio then [KStr("media")] else [])
    ensures Field(PresencePayload(phone, state, audio), "phone") == Some(JStr(phone))
    ensures Field(PresencePayload(phone, state, audio), "state") == Some(JStr(state))
    ensures audio ==> Field(PresencePayload(phone, state, audio), "media") == Some(JStr(MediaAudio))
  {
    var fields := [("phone", JStr(phone)), ("state", JStr(state))] + (if audio then [("media", JStr(MediaAudio))] else []);
    ObjField(fields, 0);
    ObjField(fields, 1);
    if audio {
      assert fields[2].0[0] != fields[0].0[0] && fields[2].0[0] != fields[1].0[0];
      ObjField(fields, 2);
    }
  }

  /** `setTyping`: the phone in state `composing`, always accepted. */
  function SetTyping(phone: string): (r: Result<Call, Error>)
    ensures r.Ok? && r.value.auth == AsUser && r.value.verb == "POST" && r.value.endpoint == "/chat/presence"
    ensures KeysOf(r.value.data) == [KStr("phone"), KStr("state")]
    ensures Field(r.value.data, "phone") == Some(JStr(phone)) && Field(r.value.data, "state") == Some(JStr("composing"))
  {
    PresenceHelpersPass(phone, "composing", false);
    PresencePayloadFields(phone, "composing", false);
    SetPresence(PresencePayload(phone, "composing", false))
  }

  /** `stopTyping`: the phone in state `paused`, always accepted. */
  function StopTyping(phone: string): (r: Result<Call, Error>)
    ensures r.Ok? && r.value.auth == AsUser && r.value.verb == "POST" && r.value.endpoint == "/chat/presence"
    ensures KeysOf(r.value.data) == [KStr("phone"), KStr("state")]
    ensures Field(r.value.data, "phone") == Some(JStr(phone)) && Field(r.value.data, "state") == Some(JStr("paused"))
  {
    PresenceHelpersPass(phone, "paused", false);
    PresencePayloadFields(phone, "paused", false);
    SetPresence(PresencePayload(phone, "paused", false))
  }

  /** `setRecordingAudio`: state `composing` with `media` set to `audio`, always accepted. */
  function SetRecordingAudio(phone: string): (r: Result<Call, Error>)
    ensures r.Ok? && r.value.auth == AsUser && r.value.verb == "POST" && r.value.endpoint == "/chat/presence"
    ensures KeysOf(r.value.data) == [KStr("phone"), KStr("state"), KStr("media")]
    ensures Field(r.value.data, "phone") == Some(JStr(phone)) && Field(r.value.data, "state") == Some(JStr("composing"))
    ensures Field(r.value.data, "media") == Some(JStr("audio"))
  {
    PresenceHelpersPass(phone, "composing", true);
    PresencePayloadFields(phone, "composing", true);
    SetPresence(PresencePayload(phone, "composing", true))
  }

  /** `stopRecordingAudio`: state `paused` with `media` set to `audio`, always accepted. */
  function StopRecordingAudio(phone: string): (r: Result<Call, Error>)
    ensures r.Ok? && r.value.auth == AsUser && r.value.verb == "POST" && r.value.endpoint == "/chat/presence"
    ensures KeysOf(r.value.data) == [KStr("phone"), KStr("state"), KStr("media")]
    ensures Field(r.value.data, "phone") == Some(JStr(phone)) && Field(r.value.data, "state") == Some(JStr("paused"))
    ensures Field(r.value.data, "media") == Some(JStr("audio"))
  {
    PresenceHelpersPass(phone, "paused", true);
    PresencePayloadFields(phone, "paused", true);
    SetPresence(PresencePayload(phone, "paused", true))
  }

  // ---------------------------------------------------------------------------------------
  // Message helpers: fixed fields, then the truthy optional ones

  /** A user-token POST whose payload is the fixed fields followed by the optional ones that are truthy. */
  function Send(endpoint: string, fixed: seq<(string, J)>, opts: seq<(string, Option<string>)>): (c: Call)
    ensures c.auth == AsUser && c.verb == "POST" && c.endpoint == endpoint
    ensures c.data == Obj(fixed + Present(opts))
  {
    WithOptionalsIsLiteral(fixed, opts);
    Call(AsUser, "POST", endpoint, WithOptionals(Obj(fixed), opts))
  }

  function SendSimpleText(phone: string, message: string, id: Option<string>): (c: Call)
    ensures c.endpoint == "/chat/send/text"
    ensures c.data == Obj([("phone", JStr(phone)), ("body", JStr(message))] + Present([("id", id)]))
  {
    Send("/chat/send/text", [("phone", JStr(phone)), ("body", JStr(message))], [("id", id)])
  }

  /** The `id` of `sendSimpleText` is sent exactly when it is truthy; `phone` and `body` always are. */
  lemma SimpleTextFields(phone: string, message: string, id: Option<string>)
    ensures Field(SendSimpleText(phone, message, id).data, "phone") == Some(JStr(phone))
    ensures Field(SendSimpleText(phone, message, id).data, "body") == Some(JStr(message))
    ensures Field(SendSimpleText(phone, message, id).data, "id").Some? <==> TruthyOpt(id)
  {
    var fixed := [("phone", JStr(phone)), ("body", JStr(message))];
    FixedField(fixed, [("id", id)], 0);
    FixedField(fixed, [("id", id)], 1);
    OptionalFieldIffTruthy(fixed, [("id", id)], 0);
  }

  function SendTextReply(phone: string, message: string, replyToId: string, replyToParticipant: string, id: Option<string>): (c: Call)
    ensures c.endpoint == "/chat/send/text"
    ensures c.data == Obj([("phone", JStr(phone)), ("body", JStr(message)),
                           ("contextInfo", JArr(Obj([("stanzaId", JStr(replyToId)), ("participant", JStr(replyToParticipant))])))]
                          + Present([("id", id)]))
  {
    Send("/chat/send/text",
         [("phone", JStr(phone)), ("body", JStr(message)),
          ("contextInfo", JArr(Obj([("stanzaId", JStr(replyToId)), ("participant", JStr(replyToParticipant))])))],
         [("id", id)])
  }

  function SendImageFromBase64(phone: string, base64Image: string, caption: Option<string>, id: Option<string>): (c: Call)
    ensures c.endpoint == "/chat/send/image"
    ensures c.data == Obj([("phone", JStr(phone)), ("image", JStr(base64Image))] + Present([("caption", caption), ("id", id)]))
  {
    Send("/chat/send/image", [("phone", JStr(phone)), ("image", JStr(base64Image))], [("caption", caption), ("id", id)])
  }

  /** Caption and id of an image are each sent exactly when truthy, independently of each other. */
  lemma ImageFields(phone: string, base64Image: string, caption: Option<string>, id: Option<string>)
    ensures Field(SendImageFromBase64(phone, base64Image, caption, id).data, "image") == Some(JStr(base64Image))
    ensures Field(SendImageFromBase64(phone, base64Image, caption, id).data, "caption").Some? <==> TruthyOpt(caption)
    ensures Field(SendImageFromBase64(phone, base64Image, caption, id).data, "id").Some? <==> TruthyOpt(id)
  {
    var fixed := [("phone", JStr(phone)), ("image", JStr(base64Image))];
    var opts := [("caption", caption), ("id", id)];
    FixedField(fixed, opts, 1);
    OptionalFieldIffTruthy(fixed, opts, 0);
    OptionalFieldIffTruthy(fixed, opts, 1);
  }

  function SendImageFromUrl(phone: string, imageUrl: string, caption: Option<string>, id: Option<string>): (c: Call)
    ensures c.endpoint == "/chat/send/image"
    ensures c.data == Obj([("phone", JStr(phone)), ("imageUrl", JStr(imageUrl))] + Present([("caption", caption), ("id", id)]))
  {
    Send("/chat/send/image", [("phone", JStr(phone)), ("imageUrl", JStr(imageUrl))], [("caption", caption), ("id", id)])
  }

  function SendDocumentFromBase64(phone: string, base64Document: string, filename: string, id: Option<string>): (c: Call)
    ensures c.endpoint == "/chat/send/document"
    ensures c.data == Obj([("phone", JStr(phone)), ("document", JStr(base64Document)), ("filename", JStr(filename))]
                          + Present([("id", id)]))
  {
    Send("/chat/send/document", [("phone", JStr(phone)), ("document", JStr(base64Document)), ("filename", JStr(filename))], [("id", id)])
  }

  function SendVideoFromBase64(phone: string, base64Video: string, caption: Option<string>, id: Option<string>): (c: Call)
    ensures c.endpoint == "/chat/send/video"
    ensures c.data == Obj([("phone", JStr(phone)), ("video", JStr(base64Video))] + Present([("caption", caption), ("id", id)]))
  {
    Send("/chat/send/video", [("phone", JStr(phone)), ("video", JStr(base64Video))], [("caption", caption), ("id", id)])
  }

  function SendAudioFromBase64(phone: string, base64Audio: string, id: Option<string>): (c: Call)
    ensures c.endpoint == "/chat/send/audio"
    ensures c.data == Obj([("phone", JStr(phone)), ("audio", JStr(base64Audio))] + Present([("id", id)]))
  {
    Send("/chat/send/audio", [("phone", JStr(phone)), ("audio", JStr(base64Audio))], [("id", id)])
  }

  function SendStickerFromBase64(phone: string, base64Sticker: string, id: Option<string>): (c: Call)
    ensures c.endpoint == "/chat/send/sticker"
    ensures c.data == Obj([("phone", JStr(phone)), ("sticker", JStr(base64Sticker))] + Present([("id", id)]))
  {
    Send("/chat/send/sticker", [("phone", JStr(phone)), ("sticker", JStr(base64Sticker))], [("id", id)])
  }

  function SendSimpleTemplate(phone: string, text: string, buttons: Arr, footer: Option<string>, id: Option<string>): (c: Call)
    ensures c.endpoint == "/chat/send/template"
    ensures c.data == Obj([("phone", JStr(phone)), ("text", JStr(text)), ("buttons", JArr(buttons))]
                          + Present([("footer", footer), ("id", id)]))
  {
    Send("/chat/send/template", [("phone", JStr(phone)), ("text", JStr(text)), ("buttons", JArr(buttons))], [("footer", footer), ("id", id)])
  }

  function SendContactVCard(phone: string, vcard: string, id: Option<string>): (c: Call)
    ensures c.endpoint == "/chat/send/contact"
    ensures c.data == Obj([("phone", JStr(phone)), ("vcard", JStr(vcard))] + Present([("id", id)]))
  {
    Send("/chat/send/contact", [("phone", JStr(phone)), ("vcard", JStr(vcard))], [("id", id)])
  }

  function SendButtonsMessage(phone: string, text: string, buttons: Arr, footer: Option<string>, id: Option<string>): (c: Call)
    ensures c.endpoint == "/chat/send/buttons"
    ensures c.data == Obj([("phone", JStr(phone)), ("text", JStr(text)), ("buttons", JArr(buttons))]
                          + Present([("footer", footer), ("id", id)]))
  {
    Send("/chat/send/buttons", [("phone", JStr(phone)), ("text", JStr(text)), ("buttons", JArr(buttons))], [("footer", footer), ("id", id)])
  }

  /** `sendListMessage`: the button text is always sent (callers that omit it get `Select Option`). */
  function SendListMessage(phone: string, text: string, sections: Arr, buttonText: string,
                           footer: Option<string>, title: Option<string>, id: Option<string>): (c: Call)
    ensures c.endpoint == "/chat/send/list"
    ensures c.data == Obj([("phone", JStr(phone)), ("text", JStr(text)), ("sections", JArr(sections)), ("buttonText", JStr(buttonText))]
                          + Present([("footer", footer), ("title", title), ("id", id)]))
  {
    Send("/chat/send/list",
         [("phone", JStr(phone)), ("text", JStr(text)), ("sections", JArr(sections)), ("buttonText", JStr(buttonText))],
         [("footer", footer), ("title", title), ("id", id)])
  }

  function SendPollToGroup(groupJid: string, question: string, options: Arr, allowMultipleAnswers: bool, id: Option<string>): (c: Call)
    ensures c.endpoint == "/chat/send/poll"
    ensures c.data == Obj([("group", JStr(groupJid)), ("question", JStr(question)), ("options", JArr(options)),
                           ("allowMultipleAnswers", JBool(allowMultipleAnswers))] + Present([("id", id)]))
    ensures Field(c.data, "question") == Some(JStr(question)) && Field(c.data, "options") == Some(JArr(options))
    ensures Field(c.data, "allowMultipleAnswers") == Some(JBool(allowMultipleAnswers))
  {
    FourFields("group", "question", "options", "allowMultipleAnswers",
               JStr(groupJid), JStr(question), JArr(options), JBool(allowMultipleAnswers), Present([("id", id)]));
    Send("/chat/send/poll",
         [("group", JStr(groupJid)), ("question", JStr(question)), ("options", JArr(options)), ("allowMultipleAnswers", JBool(allowMultipleAnswers))],
         [("id", id)])
  }

  /** `sendYesNoPoll`: a single-answer poll with the options `Yes` and `No`, in that order. */
  function SendYesNoPoll(groupJid: string, question: string, id: Option<string>): (c: Call)
    ensures c.endpoint == "/chat/send/poll"
    ensures Field(c.data, "options") == Some(JArr([Pair(KInt(0), JStr("Yes")), Pair(KInt(1), JStr("No"))]))
    ensures Field(c.data, "allowMultipleAnswers") == Some(JBool(false))
    ensures Field(c.data, "question") == Some(JStr(question))
  {
    var options := [Pair(KInt(0), JStr("Yes")), Pair(KInt(1), JStr("No"))];
    SendPollToGroup(groupJid, question, options, false, id)
  }

  /** `sendMultipleChoicePoll` is `sendPollToGroup` under another name. */
  function SendMultipleChoicePoll(groupJid: string, question: string, choices: Arr, allowMultipleAnswers: bool, id: Option<string>): (c: Call)
    ensures c.auth == AsUser && c.verb == "POST" && c.endpoint == "/chat/send/poll"
    ensures c.data == Obj([("group", JStr(groupJid)), ("question", JStr(question)), ("options", JArr(choices)),
                           ("allowMultipleAnswers", JBool(allowMultipleAnswers))] + Present([("id", id)]))
  {
    SendPollToGroup(groupJid, question, choices, allowMultipleAnswers, id)
  }

  /** `react`, the request both reaction helpers go through. */
  function ReactToMessage(phone: string, messageId: string, emoji: string): (c: Call)
    ensures c.auth == AsUser && c.verb == "POST" && c.endpoint == "/chat/react"
    ensures c.data == Obj([("phone", JStr(phone)), ("id", JStr(messageId)), ("body", JStr(emoji))])
  {
    Call(AsUser, "POST", "/chat/react", Obj([("phone", JStr(phone)), ("id", JStr(messageId)), ("body", JStr(emoji))]))
  }

  /** `reactToOwnMessage`: the reaction to a message of one's own, addressed as `me:` followed by the phone. */
  function ReactToOwnMessage(phone: string, messageId: string, emoji: string): (c: Call)
    ensures c == ReactToMessage("me:" + phone, messageId, emoji)
    ensures Field(c.data, "phone") == Some(JStr("me:" + phone))
  {
    ObjField([("phone", JStr("me:" + phone)), ("id", JStr(messageId)), ("body", JStr(emoji))], 0);
    Call(AsUser, "POST", "/chat/react", Obj([("phone", JStr("me:" + phone)), ("id", JStr(messageId)), ("body", JStr(emoji))]))
  }

  /** The two reactions differ only in the phone field. */
  lemma OwnReactionDiffersOnlyInPhone(phone: string, messageId: string, emoji: string)
    ensures ReactToOwnMessage(phone, messageId, emoji).data[1..] == ReactToMessage(phone, messageId, emoji).data[1..]
    ensures ReactToOwnMessage(phone, messageId, emoji).endpoint == ReactToMessage(phone, messageId, emoji).endpoint
  {
  }

  // ---------------------------------------------------------------------------------------
  // vCard

  const VCardBegin: string := "BEGIN:VCARD"
  const VCardVersion: string := "VERSION:3.0"
  const VCardEnd: string := "END:VCARD"

  /** The text `sendSimpleContact` builds; its values are inserted without vCard escaping. */
  function VCard(name: string, contactPhone: string, email: Option<string>): (r: string)
    ensures var head := VCardBegin + "\n" + VCardVersion + "\n" + "FN:" + name + "\n" + "TEL:" + contactPhone;
            |head| <= |r| && r[..|head|] == head
    ensures |r| > |VCardEnd| && r[|r| - |VCardEnd| - 1..] == "\n" + VCardEnd
    ensures var head := VCardBegin + "\n" + VCardVersion + "\n" + "FN:" + name + "\n" + "TEL:" + contactPhone;
            |r| == |head| + (if TruthyOpt(email) then |"\nEMAIL:"| + |email.value| else 0) + 1 + |VCardEnd|
  {
    var card := VCardBegin + "\n" + (VCardVersion + "\n" + ("FN:" + name + "\n" + ("TEL:" + contactPhone)));
    assert card == VCardBegin + "\n" + VCardVersion + "\n" + "FN:" + name + "\n" + "TEL:" + contactPhone;
    var card' := if TruthyOpt(email) then card + "\n" + ("EMAIL:" + email.value) else card;
    assert |card'| == |card| + (if TruthyOpt(email) then |"\nEMAIL:"| + |email.value| else 0);
    assert card'[..|card|] == card;
    var r := card' + "\n" + VCardEnd;
    assert r == card' + ("\n" + VCardEnd);
    assert r[..|card|] == card'[..|card|];
    r
  }

  /** The lines of that card: the version 3.0 envelope around the name, the phone and a truthy email. */
  function VCardLines(name: string, contactPhone: string, email: Option<string>): seq<string> {
    [VCardBegin, VCardVersion, "FN:" + name, "TEL:" + contactPhone] + VCardTail(email)
  }

  /** The lines after the phone: the email when it is truthy, then the closing line. */
  function VCardTail(email: Option<string>): seq<string> {
    (if TruthyOpt(email) then ["EMAIL:" + email.value] else []) + [VCardEnd]
  }

  lemma VCardTailJoin(email: Option<string>)
    ensures Join("\n", VCardTail(email)) == if TruthyOpt(email) then "EMAIL:" + email.value + "\n" + VCardEnd else VCardEnd
  {
    var tail := VCardTail(email);
    if TruthyOpt(email) {
      assert tail[1..] == [VCardEnd];
    }
  }

  lemma JoinFourThen(sep: string, a: string, b: string, c: string, d: string, tail: seq<string>)
    requires tail != []
    ensures Join(sep, [a, b, c, d] + tail) == a + sep + (b + sep + (c + sep + (d + sep + Join(sep, tail))))
  {
    var l3 := [d] + tail;
    assert l3[1..] == tail;
    assert Join(sep, l3) == d + sep + Join(sep, tail);
    var l2 := [c] + l3;
    assert l2[1..] == l3;
    assert Join(sep, l2) == c + sep + Join(sep, l3);
    var l1 := [b] + l2;
    assert l1[1..] == l2;
    assert Join(sep, l1) == b + sep + Join(sep, l2);
    var l0 := [a] + l1;
    assert l0[1..] == l1;
    assert Join(sep, l0) == a + sep + Join(sep, l1);
    assert l0 == [a, b, c, d] + tail;
  }

  /** The card is its lines joined by newlines. */
  lemma VCardIsLines(name: string, contactPhone: string, email: Option<string>)
    ensures VCard(name, contactPhone, email) == Join("\n", VCardLines(name, contactPhone, email))
  {
    var tail := VCardTail(email);
    JoinFourThen("\n", VCardBegin, VCardVersion, "FN:" + name, "TEL:" + contactPhone, tail);
    VCardTailJoin(email);
  }

  lemma NoNewlineConcat(a: string, b: string)
    requires '\n' !in a && '\n' !in b
    ensures '\n' !in a + b
  {
  }

  /** Read back line by line, a card whose values hold no newline gives exactly those lines. */
  lemma VCardRoundTrip(name: string, contactPhone: string, email: Option<string>)
    requires '\n' !in name && '\n' !in contactPhone
    requires email.Some? ==> '\n' !in email.value
    ensures Split(VCard(name, contactPhone, email), '\n') == VCardLines(name, contactPhone, email)
  {
    VCardIsLines(name, contactPhone, email);
    var lines := VCardLines(name, contactPhone, email);
    assert '\n' !in "FN:" && '\n' !in "TEL:" && '\n' !in "EMAIL:";
    assert '\n' !in VCardBegin && '\n' !in VCardVersion && '\n' !in VCardEnd;
    NoNewlineConcat("FN:", name);
    NoNewlineConcat("TEL:", contactPhone);
    if TruthyOpt(email) {
      NoNewlineConcat("EMAIL:", email.value);
    }
    assert forall i :: 0 <= i < |lines| ==> '\n' !in lines[i];
    SplitJoin(lines, '\n');
  }

  /** `sendSimpleContact`: the card goes out through `sendContactVCard`. */
  function SendSimpleContact(phone: string, name: string, contactPhone: string, email: Option<string>, id: Option<string>): (c: Call)
    ensures c.auth == AsUser && c.verb == "POST" && c.endpoint == "/chat/send/contact"
    ensures Field(c.data, "phone") == Some(JStr(phone))
    ensures Field(c.data, "vcard") == Some(JStr(VCard(name, contactPhone, email)))
    ensures c.data == Obj([("phone", JStr(phone)), ("vcard", JStr(VCard(name, contactPhone, email)))] + Present([("id", id)]))
  {
    var fixed := [("phone", JStr(phone)), ("vcard", JStr(VCard(name, contactPhone, email)))];
    assert fixed[1].0[0] != fixed[0].0[0];
    PrefixField(fixed, Present([("id", id)]), 0);
    PrefixField(fixed, Present([("id", id)]), 1);
    SendContactVCard(phone, VCard(name, contactPhone, email), id)
  }

  // ---------------------------------------------------------------------------------------
  // Buttons, list rows and templates

  /** The three button kinds, with the two argument fields each reads and writes after `type`. */
  datatype ButtonKind = QuickReply | UrlButton | CallButton {

    function TypeName(): string {
      match this
      case QuickReply => "quickReply"
      case UrlButton => "url"
      case CallButton => "call"
    }

    function Fields(): (string, string) {
      match this
      case QuickReply => ("id", "text")
      case UrlButton => ("text", "url")
      case CallButton => ("text", "phoneNumber")
    }
  }

  /** `createQuickReplyButton`, `createUrlButton` and `createCallButton`: `type` first, then the two arguments. */
  function MakeButton(kind: ButtonKind, first: string, second: string): (b: Arr)
    ensures Field(b, "type") == Some(JStr(kind.TypeName()))
    ensures Field(b, kind.Fields().0) == Some(JStr(first))
    ensures Field(b, kind.Fields().1) == Some(JStr(second))
    ensures KeysOf(b) == [KStr("type"), KStr(kind.Fields().0), KStr(kind.Fields().1)]
  {
    var fields := [("type", JStr(kind.TypeName())), (kind.Fields().0, JStr(first)), (kind.Fields().1, JStr(second))];
    ObjField(fields, 0);
    ObjField(fields, 1);
    ObjField(fields, 2);
    Obj(fields)
  }

  /** `createQuickReplyButton`: `type` `quickReply`, then `id` and `text`. */
  function CreateQuickReplyButton(id: string, text: string): (b: Arr)
    ensures KeysOf(b) == [KStr("type"), KStr("id"), KStr("text")]
    ensures Field(b, "type") == Some(JStr("quickReply"))
    ensures Field(b, "id") == Some(JStr(id)) && Field(b, "text") == Some(JStr(text))
  {
    MakeButton(QuickReply, id, text)
  }

  /** `createUrlButton`: `type` `url`, then `text` and `url`. */
  function CreateUrlButton(text: string, url: string): (b: Arr)
    ensures KeysOf(b) == [KStr("type"), KStr("text"), KStr("url")]
    ensures Field(b, "type") == Some(JStr("url"))
    ensures Field(b, "text") == Some(JStr(text)) && Field(b, "url") == Some(JStr(url))
  {
    MakeButton(UrlButton, text, url)
  }

  /** `createCallButton`: `type` `call`, then `text` and `phoneNumber`. */
  function CreateCallButton(text: string, phoneNumber: string): (b: Arr)
    ensures KeysOf(b) == [KStr("type"), KStr("text"), KStr("phoneNumber")]
    ensures Field(b, "type") == Some(JStr("call"))
    ensures Field(b, "text") == Some(JStr(text)) && Field(b, "phoneNumber") == Some(JStr(phoneNumber))
  {
    MakeButton(CallButton, text, phoneNumber)
  }

  /** `createListSection`. */
  function CreateListSection(title: string, rows: Arr): (s: Arr)
    ensures Field(s, "title") == Some(JStr(title)) && Field(s, "rows") == Some(JArr(rows))
  {
    ObjField([("title", JStr(title)), ("rows", JArr(rows))], 1);
    Obj([("title", JStr(title)), ("rows", JArr(rows))])
  }

  /** `createListRow`: `id` and `title`, and `description` only when truthy. */
  function CreateListRow(id: string, title: string, description: Option<string>): (row: Arr)
    ensures row == Obj([("id", JStr(id)), ("title", JStr(title))] + Present([("description", description)]))
    ensures Field(row, "description").Some? <==> TruthyOpt(description)
  {
    var fixed := [("id", JStr(id)), ("title", JStr(title))];
    WithOptionalsIsLiteral(fixed, [("description", description)]);
    OptionalFieldIffTruthy(fixed, [("description", description)], 0);
    WithOptionals(Obj(fixed), [("description", description)])
  }

  /**
   * `$item[field]` passed to a `string` parameter: a missing or `null` field, an array, or an
   * item that is not an array raises a TypeError (a string item already at the offset read,
   * the others at the parameter, as they read `null`); scalars are converted.
   */
  function ItemArg(item: J, field: string): (r: Result<string, Error>)
    ensures r.Err? ==> r.error == TypeError
    ensures !item.JArr? ==> r == Err(TypeError)
    ensures item.JArr? ==>
              (r.Err? <==> Get(item.entries, KStr(field)).None? || Get(item.entries, KStr(field)).value.JNull?
                             || Get(item.entries, KStr(field)).value.JArr?)
    ensures item.JArr? && Get(item.entries, KStr(field)).Some? && Get(item.entries, KStr(field)).value.JStr? ==>
              r == Ok(Get(item.entries, KStr(field)).value.s)
    ensures item.JArr? && Get(item.entries, KStr(field)).Some? && Get(item.entries, KStr(field)).value.JInt? ==>
              r == Ok(IntToString(Get(item.entries, KStr(field)).value.i))
    ensures item.JArr? && Get(item.entries, KStr(field)).Some? && Get(item.entries, KStr(field)).value.JBool? ==>
              r == Ok(if Get(item.entries, KStr(field)).value.b then "1" else "")
  {
    match item
    case JArr(es) =>
      (match Get(es, KStr(field))
       case Some(v) => if v.JNull? then Err(TypeError) else AsText(v)
       case None => Err(TypeError))
    case _ => Err(TypeError)
  }

  /** The button an item of a template's list turns into: the kind's two fields, in order, passed to its `create…Button`. */
  function ItemButton(kind: ButtonKind, item: J): (r: Result<J, Error>)
    ensures r.Ok? <==> ItemArg(item, kind.Fields().0).Ok? && ItemArg(item, kind.Fields().1).Ok?
    ensures r.Ok? ==> r.value == JArr(MakeButton(kind, ItemArg(item, kind.Fields().0).value, ItemArg(item, kind.Fields().1).value))
    ensures r.Err? ==> r.error == TypeError
  {
    var first :- ItemArg(item, kind.Fields().0);
    var second :- ItemArg(item, kind.Fields().1);
    Ok(JArr(MakeButton(kind, first, second)))
  }

  /** Every item that converts becomes a button array tagged with the kind's `type`. */
  lemma ItemButtonsTyped(kind: ButtonKind, items: Arr)
    requires ItemButtons(kind, items).Ok?
    ensures forall i :: 0 <= i < |items| ==> ItemButtons(kind, items).value[i].JArr?
    ensures forall i :: 0 <= i < |items| ==> Field(ItemButtons(kind, items).value[i].entries, "type") == Some(JStr(kind.TypeName()))
  {
    var bs := ItemButtons(kind, items).value;
    forall i | 0 <= i < |items|
      ensures bs[i].JArr? && Field(bs[i].entries, "type") == Some(JStr(kind.TypeName()))
    {
      var item := items[i].value;
      var first := ItemArg(item, kind.Fields().0).value;
      var second := ItemArg(item, kind.Fields().1).value;
      assert bs[i] == JArr(MakeButton(kind, first, second));
    }
  }

  /** The first error among `rs`, or every value in order when there is none. */
  function Collect(rs: seq<Result<J, Error>>): (r: Result<seq<J>, Error>)
    ensures r.Ok? <==> forall i :: 0 <= i < |rs| ==> rs[i].Ok?
    ensures r.Ok? ==> |r.value| == |rs|
    ensures r.Ok? ==> forall i :: 0 <= i < |rs| ==> r.value[i] == rs[i].value
  {
    if rs == [] then Ok([])
    else
      var tail := rs[1..];
      assert forall i :: 1 <= i < |rs| ==> tail[i - 1] == rs[i];
      match rs[0]
      case Err(e) => Err(e)
      case Ok(b) =>
        match Collect(tail)
        case Err(e) => Err(e)
        case Ok(bs) => Ok([b] + bs)
  }

  /** The first failing item's error is a TypeError, like every error of `ItemArg`. */
  lemma ItemButtonsError(kind: ButtonKind, items: Arr)
    requires ItemButtons(kind, items).Err?
    ensures ItemButtons(kind, items).error == TypeError
  {
    var rs := seq(|items|, i requires 0 <= i < |items| => ItemButton(kind, items[i].value));
    CollectError(rs);
  }

  /** The error `Collect` reports is one of the inputs' errors. */
  lemma {:induction false} CollectError(rs: seq<Result<J, Error>>)
    requires Collect(rs).Err?
    ensures exists i :: 0 <= i < |rs| && rs[i].Err? && rs[i].error == Collect(rs).error
  {
    if rs[0].Ok? {
      var tail := rs[1..];
      CollectError(tail);
      var i :| 0 <= i < |tail| && tail[i].Err? && tail[i].error == Collect(tail).error;
      assert rs[i + 1] == tail[i];
    }
  }

  /** The `foreach` of the button templates: one button per item, in order. */
  function ItemButtons(kind: ButtonKind, items: Arr): (r: Result<seq<J>, Error>)
    ensures r.Ok? <==> forall i :: 0 <= i < |items| ==> ItemButton(kind, items[i].value).Ok?
    ensures r.Ok? ==> |r.value| == |items|
    ensures r.Ok? ==> forall i :: 0 <= i < |items| ==> r.value[i] == ItemButton(kind, items[i].value).value
  {
    var rs := seq(|items|, i requires 0 <= i < |items| => ItemButton(kind, items[i].value));
    assert |rs| == |items| && forall i :: 0 <= i < |items| ==> rs[i] == ItemButton(kind, items[i].value);
    Collect(rs)
  }

  /**
   * `sendQuickReplyTemplate`, `sendUrlButtonTemplate` and `sendCallButtonTemplate`: the
   * items become buttons of the kind, same number and order, keyed 0, 1, …, sent through
   * `sendSimpleTemplate`.
   */
  function SendButtonTemplate(kind: ButtonKind, phone: string, text: string, items: Arr,
                              footer: Option<string>, id: Option<string>): (r: Result<Call, Error>)
    ensures r.Ok? <==> forall i :: 0 <= i < |items| ==> ItemButton(kind, items[i].value).Ok?
    ensures r.Err? ==> r.error == TypeError
    ensures r.Ok? ==> exists bs: seq<J> :: |bs| == |items| && r.value == SendSimpleTemplate(phone, text, ListOf(bs), footer, id)
                                          && (forall i :: 0 <= i < |bs| ==> bs[i] == ItemButton(kind, items[i].value).value)
                                          && forall i :: 0 <= i < |bs| ==> bs[i].JArr? && Field(bs[i].entries, "type") == Some(JStr(kind.TypeName()))
  {
    match ItemButtons(kind, items)
    case Err(e) =>
      ItemButtonsError(kind, items);
      Err(e)
    case Ok(bs) =>
      ItemButtonsTyped(kind, items);
      Ok(SendSimpleTemplate(phone, text, ListOf(bs), footer, id))
  }

  /** `sendQuickReplyTemplate`: each item's `id` and `text`, read as strings, go through `createQuickReplyButton`, in order. */
  function SendQuickReplyTemplate(phone: string, text: string, quickReplies: Arr, footer: Option<string>, id: Option<string>): (r: Result<Call, Error>)
    ensures r.Ok? <==> forall i :: 0 <= i < |quickReplies| ==>
                         ItemArg(quickReplies[i].value, "id").Ok? && ItemArg(quickReplies[i].value, "text").Ok?
    ensures r.Err? ==> r.error == TypeError
    ensures r.Ok? ==> exists bs: seq<J> :: |bs| == |quickReplies| && r.value == SendSimpleTemplate(phone, text, ListOf(bs), footer, id)
                        && forall i :: 0 <= i < |bs| ==>
                             bs[i] == JArr(CreateQuickReplyButton(ItemArg(quickReplies[i].value, "id").value, ItemArg(quickReplies[i].value, "text").value))
  {
    assert QuickReply.Fields() == ("id", "text");
    SendButtonTemplate(QuickReply, phone, text, quickReplies, footer, id)
  }

  /** `sendUrlButtonTemplate`: each item's `text` and `url`, read as strings, go through `createUrlButton`, in order. */
  function SendUrlButtonTemplate(phone: string, text: string, urlButtons: Arr, footer: Option<string>, id: Option<string>): (r: Result<Call, Error>)
    ensures r.Ok? <==> forall i :: 0 <= i < |urlButtons| ==>
                         ItemArg(urlButtons[i].value, "text").Ok? && ItemArg(urlButtons[i].value, "url").Ok?
    ensures r.Err? ==> r.error == TypeError
    ensures r.Ok? ==> exists bs: seq<J> :: |bs| == |urlButtons| && r.value == SendSimpleTemplate(phone, text, ListOf(bs), footer, id)
                        && forall i :: 0 <= i < |bs| ==>
                             bs[i] == JArr(CreateUrlButton(ItemArg(urlButtons[i].value, "text").value, ItemArg(urlButtons[i].value, "url").value))
  {
    assert UrlButton.Fields() == ("text", "url");
    SendButtonTemplate(UrlButton, phone, text, urlButtons, footer, id)
  }

  /** `sendCallButtonTemplate`: each item's `text` and `phoneNumber`, read as strings, go through `createCallButton`, in order. */
  function SendCallButtonTemplate(phone: string, text: string, callButtons: Arr, footer: Option<string>, id: Option<string>): (r: Result<Call, Error>)
    ensures r.Ok? <==> forall i :: 0 <= i < |callButtons| ==>
                         ItemArg(callButtons[i].value, "text").Ok? && ItemArg(callButtons[i].value, "phoneNumber").Ok?
    ensures r.Err? ==> r.error == TypeError
    ensures r.Ok? ==> exists bs: seq<J> :: |bs| == |callButtons| && r.value == SendSimpleTemplate(phone, text, ListOf(bs), footer, id)
                        && forall i :: 0 <= i < |bs| ==>
                             bs[i] == JArr(CreateCallButton(ItemArg(callButtons[i].value, "text").value, ItemArg(callButtons[i].value, "phoneNumber").value))
  {
    assert CallButton.Fields() == ("text", "phoneNumber");
    SendButtonTemplate(CallButton, phone, text, callButtons, footer, id)
  }

  /** A reply with string `id` and `text` becomes the quick-reply button of those two strings. */
  lemma QuickReplyFromStrings(replyId: string, replyText: string)
    ensures ItemButton(QuickReply, JArr(Obj([("id", JStr(replyId)), ("text", JStr(replyText))])))
         == Ok(JArr(CreateQuickReplyButton(replyId, replyText)))
  {
    var fields := [("id", JStr(replyId)), ("text", JStr(replyText))];
    ObjField(fields, 0);
    ObjField(fields, 1);
  }

  // ---------------------------------------------------------------------------------------
  // Responses

  /** `isResponseSuccessful`: `success` strictly `true` and `code` strictly the integer 200. */
  function IsResponseSuccessful(response: Arr): (ok: bool)
    ensures ok <==> Field(response, "success") == Some(JBool(true)) && Field(response, "code") == Some(JInt(200))
  {
    Coalesce(response, ["success"], JBool(false)) == JBool(true) && Coalesce(response, ["code"], JInt(0)) == JInt(200)
  }

  /** The chat test is the formatter's success test together with status code 200. */
  lemma ResponseSuccessAgrees(response: Arr)
    ensures IsResponseSuccessful(response) <==>
              ResponseFormatter.IsSuccessful(response) && ResponseFormatter.GetStatusCode(response) == JInt(200)
  {
  }
}

=== FILE: message_service.dfy ===
/**
 * src/Services/MessageService.php, which declares a second class named
 * `WAG\LaravelSDK\Services\ChatService`: builders that pass an array literal through
 * `array_filter` before sending it, so every falsy value is dropped, the mandatory
 * `Phone` or `Body` included when it is `""` or `"0"`.
 */
module MessageService {
  import opened Wrappers
  import opened Exceptions
  import opened PhpArray
  import opened WagClient

  /** A nullable array argument as the PHP value it denotes. */
  function OptArr(o: Option<Arr>): J {
    match o
    case Some(a) => JArr(a)
    case None => JNull
  }

  /** A POST of the literal `fields` after `array_filter`: the truthy fields, in literal order. */
  function Filtered(endpoint: string, fields: seq<(string, J)>): (c: Call)
    ensures c.auth == AsUser && c.verb == "POST" && c.endpoint == endpoint
    ensures forall p :: p in c.data <==> p in Obj(fields) && Truthy(p.value)
    ensures Subsequence(c.data, Obj(fields))
  {
    Call(AsUser, "POST", endpoint, FilterTruthy(Obj(fields)))
  }

  /** The value a field of a filtered literal reads back: itself when truthy, nothing otherwise. */
  function Kept(v: J): Option<J> {
    if Truthy(v) then Some(v) else None
  }

  function TextFields(phone: string, body: string, id: Option<string>, contextInfo: Option<Arr>): seq<(string, J)> {
    [("Phone", JStr(phone)), ("Body", JStr(body)), ("Id", OptText(id)), ("ContextInfo", OptArr(contextInfo))]
  }

  /** `sendText`. */
  function SendText(phone: string, body: string, id: Option<string>, contextInfo: Option<Arr>): (c: Call)
    ensures c.endpoint == "/chat/send/text"
    ensures Field(c.data, "Phone") == Kept(JStr(phone)) && Field(c.data, "Body") == Kept(JStr(body))
    ensures Field(c.data, "Id") == Kept(OptText(id)) && Field(c.data, "ContextInfo") == Kept(OptArr(contextInfo))
    ensures Subsequence(c.data, Obj(TextFields(phone, body, id, contextInfo)))
  {
    var fields := TextFields(phone, body, id, contextInfo);
    assert forall i, j :: 0 <= i < j < |fields| ==> fields[i].0[0] != fields[j].0[0];
    assert DistinctNames(fields);
    FilterTruthyField(fields, 0);
    FilterTruthyField(fields, 1);
    FilterTruthyField(fields, 2);
    FilterTruthyField(fields, 3);
    Filtered("/chat/send/text", fields)
  }

  function ImageFields(phone: string, image: string, caption: Option<string>, id: Option<string>): seq<(string, J)> {
    [("Phone", JStr(phone)), ("Image", JStr(image)), ("Caption", OptText(caption)), ("Id", OptText(id))]
  }

  /** `sendImage`. */
  function SendImage(phone: string, image: string, caption: Option<string>, id: Option<string>): (c: Call)
    ensures c.endpoint == "/chat/send/image"
    ensures Field(c.data, "Phone") == Kept(JStr(phone)) && Field(c.data, "Image") == Kept(JStr(image))
    ensures Field(c.data, "Caption") == Kept(OptText(caption)) && Field(c.data, "Id") == Kept(OptText(id))
    ensures Subsequence(c.data, Obj(ImageFields(phone, image, caption, id)))
  {
    var fields := ImageFields(phone, image, caption, id);
    assert forall i, j :: 0 <= i < j < |fields| ==> fields[i].0[0] != fields[j].0[0] || |fields[i].0| != |fields[j].0|;
    assert DistinctNames(fields);
    FilterTruthyField(fields, 0);
    FilterTruthyField(fields, 1);
    FilterTruthyField(fields, 2);
    FilterTruthyField(fields, 3);
    Filtered("/chat/send/image", fields)
  }

  function AudioFields(phone: string, audio: string, id: Option<string>): seq<(string, J)> {
    [("Phone", JStr(phone)), ("Audio", JStr(audio)), ("Id", OptText(id))]
  }

  /** `sendAudio`. */
  function SendAudio(phone: string, audio: string, id: Option<string>): (c: Call)
    ensures c.endpoint == "/chat/send/audio"
    ensures Field(c.data, "Phone") == Kept(JStr(phone)) && Field(c.data, "Audio") == Kept(JStr(audio))
    ensures Field(c.data, "Id") == Kept(OptText(id))
    ensures Subsequence(c.data, Obj(AudioFields(phone, audio, id)))
  {
    var fields := AudioFields(phone, audio, id);
    assert forall i, j :: 0 <= i < j < |fields| ==> fields[i].0[0] != fields[j].0[0];
    assert DistinctNames(fields);
    FilterTruthyField(fields, 0);
    FilterTruthyField(fields, 1);
    FilterTruthyField(fields, 2);
    Filtered("/chat/send/audio", fields)
  }

  function VideoFields(phone: string, video: string, caption: Option<string>, id: Option<string>): seq<(string, J)> {
    [("Phone", JStr(phone)), ("Video", JStr(video)), ("Caption", OptText(caption)), ("Id", OptText(id))]
  }

  /** `sendVideo`. */
  function SendVideo(phone: string, video: string, caption: Option<string>, id: Option<string>): (c: Call)
    ensures c.endpoint == "/chat/send/video"
    ensures Field(c.data, "Phone") == Kept(JStr(phone)) && Field(c.data, "Video") == Kept(JStr(video))
    ensures Field(c.data, "Caption") == Kept(OptText(caption)) && Field(c.data, "Id") == Kept(OptText(id))
    ensures Subsequence(c.data, Obj(VideoFields(phone, video, caption, id)))
  {
    var fields := VideoFields(phone, video, caption, id);
    assert forall i, j :: 0 <= i < j < |fields| ==> fields[i].0[0] != fields[j].0[0];
    assert DistinctNames(fields);
    FilterTruthyField(fields, 0);
    FilterTruthyField(fields, 1);
    FilterTruthyField(fields, 2);
    FilterTruthyField(fields, 3);
    Filtered("/chat/send/video", fields)
  }

  function DocumentFields(phone: string, document: string, fileName: Option<string>, id: Option<string>): seq<(string, J)> {
    [("Phone", JStr(phone)), ("Document", JStr(document)), ("FileName", OptText(fileName)), ("Id", OptText(id))]
  }

  /** `sendDocument`. */
  function SendDocument(phone: string, document: string, fileName: Option<string>, id: Option<string>): (c: Call)
    ensures c.endpoint == "/chat/send/document"
    ensures Field(c.data, "Phone") == Kept(JStr(phone)) && Field(c.data, "Document") == Kept(JStr(document))
    ensures Field(c.data, "FileName") == Kept(OptText(fileName)) && Field(c.data, "Id") == Kept(OptText(id))
    ensures Subsequence(c.data, Obj(DocumentFields(phone, document, fileName, id)))
  {
    var fields := DocumentFields(phone, document, fileName, id);
    assert forall i, j :: 0 <= i < j < |fields| ==> fields[i].0[0] != fields[j].0[0];
    assert DistinctNames(fields);
    FilterTruthyField(fields, 0);
    FilterTruthyField(fields, 1);
    FilterTruthyField(fields, 2);
    FilterTruthyField(fields, 3);
    Filtered("/chat/send/document", fields)
  }

  function ContactFields(phone: string, contact: Arr, id: Option<string>): seq<(string, J)> {
    [("Phone", JStr(phone)), ("Contact", JArr(contact)), ("Id", OptText(id))]
  }

  /** `sendContact`: an empty contact array is dropped like any other falsy value. */
  function SendContact(phone: string, contact: Arr, id: Option<string>): (c: Call)
    ensures c.endpoint == "/chat/send/contact"
    ensures Field(c.data, "Phone") == Kept(JStr(phone)) && Field(c.data, "Contact") == Kept(JArr(contact))
    ensures Field(c.data, "Id") == Kept(OptText(id))
    ensures Subsequence(c.data, Obj(ContactFields(phone, contact, id)))
  {
    var fields := ContactFields(phone, contact, id);
    assert forall i, j :: 0 <= i < j < |fields| ==> fields[i].0[0] != fields[j].0[0];
    assert DistinctNames(fields);
    FilterTruthyField(fields, 0);
    FilterTruthyField(fields, 1);
    FilterTruthyField(fields, 2);
    Filtered("/chat/send/contact", fields)
  }

  function ButtonsFields(phone: string, text: string, buttons: Arr, id: Option<string>): seq<(string, J)> {
    [("Phone", JStr(phone)), ("Text", JStr(text)), ("Buttons", JArr(buttons)), ("Id", OptText(id))]
  }

  /** `sendButtons`. */
  function SendButtons(phone: string, text: string, buttons: Arr, id: Option<string>): (c: Call)
    ensures c.endpoint == "/chat/send/buttons"
    ensures Field(c.data, "Phone") == Kept(JStr(phone)) && Field(c.data, "Text") == Kept(JStr(text))
    ensures Field(c.data, "Buttons") == Kept(JArr(buttons)) && Field(c.data, "Id") == Kept(OptText(id))
    ensures Subsequence(c.data, Obj(ButtonsFields(phone, text, buttons, id)))
  {
    var fields := ButtonsFields(phone, text, buttons, id);
    assert forall i, j :: 0 <= i < j < |fields| ==> fields[i].0[0] != fields[j].0[0];
    assert DistinctNames(fields);
    FilterTruthyField(fields, 0);
    FilterTruthyField(fields, 1);
    FilterTruthyField(fields, 2);
    FilterTruthyField(fields, 3);
    Filtered("/chat/send/buttons", fields)
  }

  function ListFields(phone: string, text: string, sections: Arr, buttonText: Option<string>, id: Option<string>): seq<(string, J)> {
    [("Phone", JStr(phone)), ("Text", JStr(text)), ("Sections", JArr(sections)), ("ButtonText", OptText(buttonText)), ("Id", OptText(id))]
  }

  /** `sendList`: `ButtonText` has no default here and is sent only when truthy. */
  function SendList(phone: string, text: string, sections: Arr, buttonText: Option<string>, id: Option<string>): (c: Call)
    ensures c.endpoint == "/chat/send/list"
    ensures Field(c.data, "Phone") == Kept(JStr(phone)) && Field(c.data, "Text") == Kept(JStr(text))
    ensures Field(c.data, "Sections") == Kept(JArr(sections)) && Field(c.data, "Id") == Kept(OptText(id))
    ensures Field(c.data, "ButtonText").Some? <==> TruthyOpt(buttonText)
    ensures Subsequence(c.data, Obj(ListFields(phone, text, sections, buttonText, id)))
  {
    var fields := ListFields(phone, text, sections, buttonText, id);
    assert forall i, j :: 0 <= i < j < |fields| ==> fields[i].0[0] != fields[j].0[0];
    assert DistinctNames(fields);
    FilterTruthyField(fields, 0);
    FilterTruthyField(fields, 1);
    FilterTruthyField(fields, 2);
    FilterTruthyField(fields, 3);
    FilterTruthyField(fields, 4);
    Filtered("/chat/send/list", fields)
  }

  function ReactionFields(phone: string, messageId: string, emoji: string, id: Option<string>): seq<(string, J)> {
    [("Phone", JStr(phone)), ("MessageId", JStr(messageId)), ("Emoji", JStr(emoji)), ("Id", OptText(id))]
  }

  /** `sendReaction`. */
  function SendReaction(phone: string, messageId: string, emoji: string, id: Option<string>): (c: Call)
    ensures c.endpoint == "/chat/send/reaction"
    ensures Field(c.data, "Phone") == Kept(JStr(phone)) && Field(c.data, "MessageId") == Kept(JStr(messageId))
    ensures Field(c.data, "Emoji") == Kept(JStr(emoji)) && Field(c.data, "Id") == Kept(OptText(id))
    ensures Subsequence(c.data, Obj(ReactionFields(phone, messageId, emoji, id)))
  {
    var fields := ReactionFields(phone, messageId, emoji, id);
    assert forall i, j :: 0 <= i < j < |fields| ==> fields[i].0[0] != fields[j].0[0];
    assert DistinctNames(fields);
    FilterTruthyField(fields, 0);
    FilterTruthyField(fields, 1);
    FilterTruthyField(fields, 2);
    FilterTruthyField(fields, 3);
    Filtered("/chat/send/reaction", fields)
  }

  /** An `Id` of `"0"` is dropped, and so is an empty `Body`: `array_filter` cannot tell them from null. */
  lemma FalsyValuesDropped(phone: string)
    ensures Field(SendText(phone, "", Some("0"), None).data, "Body").None?
    ensures Field(SendText(phone, "", Some("0"), None).data, "Id").None?
    ensures Field(SendText(phone, "", Some("0"), None).data, "ContextInfo").None?
  {
  }

  /** When every value is truthy nothing is dropped: the payload is the literal itself. */
  lemma AllTruthyKeepsLiteral(phone: string, body: string, id: string, contextInfo: Arr)
    requires TruthyText(phone) && TruthyText(body) && TruthyText(id) && contextInfo != []
    ensures SendText(phone, body, Some(id), Some(contextInfo)).data == Obj(TextFields(phone, body, Some(id), Some(contextInfo)))
  {
    var a := Obj(TextFields(phone, body, Some(id), Some(contextInfo)));
    FilterEntriesKeepsAll(a, v => Truthy(v));
  }
}

=== FILE: newsletter_service.dfy ===
/**
 * `WAG\LaravelSDK\Services\NewsletterService`: the helpers that look through the answer of
 * `GET /newsletter/list`. Each helper issues its own `list()` request and receives that
 * answer as a parameter; an exception raised by the request is not caught and so is not
 * part of these functions.
 */
module NewsletterService {
  import opened Wrappers
  import opened Exceptions
  import PhpString
  import opened PhpArray
  import opened WagClient

  /** `data.Newsletter`, when it is set and is an array. */
  function Newsletters(answer: Arr): (r: Option<Arr>)
    ensures r.Some? <==> exists ns: Arr :: Lookup(JArr(answer), ["data", "Newsletter"]) == Some(JArr(ns))
    ensures r.Some? ==> Lookup(JArr(answer), ["data", "Newsletter"]) == Some(JArr(r.value))
  {
    match Lookup(JArr(answer), ["data", "Newsletter"])
    case Some(JArr(ns)) => Some(ns)
    case _ => None
  }

  /** `getNewsletter`: the first newsletter whose `id` is strictly the given one. */
  function GetNewsletter(newsletterId: string, answer: Arr): (r: Option<Arr>)
    ensures Newsletters(answer).None? ==> r.None?
    ensures Newsletters(answer).Some? ==> r == FirstWithField(Newsletters(answer).value, "id", newsletterId)
    ensures r.Some? ==> Field(r.value, "id") == Some(JStr(newsletterId))
  {
    match Newsletters(answer)
    case Some(ns) => FirstWithField(ns, "id", newsletterId)
    case None => None
  }

  predicate IsActive(newsletter: J) {
    Lookup(newsletter, ["state", "type"]) == Some(JStr("active"))
  }

  predicate IsVerifiedEntry(newsletter: J) {
    Lookup(newsletter, ["thread_metadata", "verification"]) == Some(JStr("verified"))
  }

  /** `getActiveNewsletters`: the newsletters whose `state.type` is strictly `active`, keys kept. */
  function GetActiveNewsletters(answer: Arr): (r: Arr)
    ensures Newsletters(answer).None? ==> r == []
    ensures Newsletters(answer).Some? ==> forall p :: p in r <==> p in Newsletters(answer).value && IsActive(p.value)
    ensures Newsletters(answer).Some? ==> Subsequence(r, Newsletters(answer).value)
  {
    match Newsletters(answer)
    case Some(ns) => FilterEntries(ns, IsActive)
    case None => []
  }

  /** `getVerifiedNewsletters`: the newsletters whose `thread_metadata.verification` is strictly `verified`, keys kept. */
  function GetVerifiedNewsletters(answer: Arr): (r: Arr)
    ensures Newsletters(answer).None? ==> r == []
    ensures Newsletters(answer).Some? ==> forall p :: p in r <==> p in Newsletters(answer).value && IsVerifiedEntry(p.value)
    ensures Newsletters(answer).Some? ==> Subsequence(r, Newsletters(answer).value)
  {
    match Newsletters(answer)
    case Some(ns) => FilterEntries(ns, IsVerifiedEntry)
    case None => []
  }

  /** Filtering the active newsletters once more keeps them all. */
  lemma ActiveFilterIdempotent(answer: Arr)
    requires Newsletters(answer).Some?
    ensures FilterEntries(GetActiveNewsletters(answer), IsActive) == GetActiveNewsletters(answer)
  {
    var r := GetActiveNewsletters(answer);
    assert forall i :: 0 <= i < |r| ==> r[i] in r;
    FilterEntriesKeepsAll(r, IsActive);
  }

  /** `getNewsletterMetadata`: `thread_metadata` of the newsletter, or null. */
  function GetNewsletterMetadata(newsletterId: string, answer: Arr): (r: Result<Option<Arr>, Error>)
    ensures GetNewsletter(newsletterId, answer).None? ==> r == Ok(None)
    ensures GetNewsletter(newsletterId, answer).Some? ==>
              r == AsOptArray(Lookup(JArr(GetNewsletter(newsletterId, answer).value), ["thread_metadata"]))
  {
    match GetNewsletter(newsletterId, answer)
    case None => Ok(None)
    case Some(n) => if !Truthy(JArr(n)) then Ok(None) else AsOptArray(Lookup(JArr(n), ["thread_metadata"]))
  }

  /** `$metadata ? $metadata[…] ?? null : null` at a `?string` return. */
  function MetadataText(newsletterId: string, answer: Arr, path: seq<string>): (r: Result<Option<string>, Error>)
    ensures GetNewsletterMetadata(newsletterId, answer).Err? ==> r == Err(TypeError)
    ensures GetNewsletterMetadata(newsletterId, answer) == Ok(None) ==> r == Ok(None)
    ensures GetNewsletterMetadata(newsletterId, answer) == Ok(Some([])) ==> r == Ok(None)
    ensures forall md :: GetNewsletterMetadata(newsletterId, answer) == Ok(Some(md)) && md != [] ==>
              r == AsOptText(Lookup(JArr(md), path))
  {
    var metadata :- GetNewsletterMetadata(newsletterId, answer);
    match metadata
    case None => Ok(None)
    case Some(md) => if !Truthy(JArr(md)) then Ok(None) else AsOptText(Lookup(JArr(md), path))
  }

  /** `getNewsletterName`: `name.text` of the metadata. */
  function GetNewsletterName(newsletterId: string, answer: Arr): (r: Result<Option<string>, Error>)
    ensures GetNewsletterMetadata(newsletterId, answer).Err? ==> r == Err(TypeError)
    ensures GetNewsletterMetadata(newsletterId, answer) == Ok(None) ==> r == Ok(None)
    ensures forall md :: GetNewsletterMetadata(newsletterId, answer) == Ok(Some(md)) ==>
              r == AsOptText(Lookup(JArr(md), ["name", "text"]))
  {
    MetadataText(newsletterId, answer, ["name", "text"])
  }

  /** `getNewsletterDescription`: `description.text` of the metadata. */
  function GetNewsletterDescription(newsletterId: string, answer: Arr): (r: Result<Option<string>, Error>)
    ensures GetNewsletterMetadata(newsletterId, answer).Err? ==> r == Err(TypeError)
    ensures GetNewsletterMetadata(newsletterId, answer) == Ok(None) ==> r == Ok(None)
    ensures forall md :: GetNewsletterMetadata(newsletterId, answer) == Ok(Some(md)) ==>
              r == AsOptText(Lookup(JArr(md), ["description", "text"]))
  {
    MetadataText(newsletterId, answer, ["description", "text"])
  }

  /** `getSubscriberCount`: `subscribers_count` of the metadata, an integer count coming back as its decimal text. */
  function GetSubscriberCount(newsletterId: string, answer: Arr): (r: Result<Option<string>, Error>)
    ensures GetNewsletterMetadata(newsletterId, answer).Err? ==> r == Err(TypeError)
    ensures GetNewsletterMetadata(newsletterId, answer) == Ok(None) ==> r == Ok(None)
    ensures forall md :: GetNewsletterMetadata(newsletterId, answer) == Ok(Some(md)) ==>
              r == AsOptText(Lookup(JArr(md), ["subscribers_count"]))
    ensures forall md, n ::
              (GetNewsletterMetadata(newsletterId, answer) == Ok(Some(md)) &&
               Get(md, KStr("subscribers_count")) == Some(JInt(n))) ==> r == Ok(Some(PhpString.IntToString(n)))
  {
    MetadataText(newsletterId, answer, ["subscribers_count"])
  }

  /** `isVerified`: the metadata is a non-empty array whose `verification` is strictly `verified`. */
  function IsVerified(newsletterId: string, answer: Arr): (r: Result<bool, Error>)
    ensures r.Err? <==> GetNewsletterMetadata(newsletterId, answer).Err?
    ensures r == Ok(true) <==>
              exists md: Arr :: GetNewsletterMetadata(newsletterId, answer) == Ok(Some(md))
                && Lookup(JArr(md), ["verification"]) == Some(JStr("verified"))
  {
    var metadata :- GetNewsletterMetadata(newsletterId, answer);
    Ok(metadata.Some? && Truthy(JArr(metadata.value)) && Lookup(JArr(metadata.value), ["verification"]) == Some(JStr("verified")))
  }

  /** `isMuted`: the newsletter is found and its `viewer_metadata.mute` is strictly `on`. */
  function IsMuted(newsletterId: string, answer: Arr): (r: bool)
    ensures r <==> GetNewsletter(newsletterId, answer).Some?
                   && Lookup(JArr(GetNewsletter(newsletterId, answer).value), ["viewer_metadata", "mute"]) == Some(JStr("on"))
  {
    var n := GetNewsletter(newsletterId, answer);
    n.Some? && Truthy(JArr(n.value)) && Lookup(JArr(n.value), ["viewer_metadata", "mute"]) == Some(JStr("on"))
  }

  /** `getUserRole`: `viewer_metadata.role` of the newsletter, or null. */
  function GetUserRole(newsletterId: string, answer: Arr): (r: Result<Option<string>, Error>)
    ensures GetNewsletter(newsletterId, answer).None? ==> r == Ok(None)
    ensures GetNewsletter(newsletterId, answer).Some? ==>
              r == AsOptText(Lookup(JArr(GetNewsletter(newsletterId, answer).value), ["viewer_metadata", "role"]))
  {
    match GetNewsletter(newsletterId, answer)
    case None => Ok(None)
    case Some(n) => if !Truthy(JArr(n)) then Ok(None) else AsOptText(Lookup(JArr(n), ["viewer_metadata", "role"]))
  }

  /** `isSubscriber`: the role is strictly `subscriber`; a missing newsletter is no subscriber. */
  function IsSubscriber(newsletterId: string, answer: Arr): (r: Result<bool, Error>)
    ensures r.Err? <==> GetUserRole(newsletterId, answer).Err?
    ensures r == Ok(true) <==> GetUserRole(newsletterId, answer) == Ok(Some("subscriber"))
    ensures GetNewsletter(newsletterId, answer).None? ==> r == Ok(false)
  {
    var role :- GetUserRole(newsletterId, answer);
    Ok(role == Some("subscriber"))
  }

  /** A newsletter `isVerified` reports is one of the newsletters `getVerifiedNewsletters` keeps. */
  lemma VerifiedIsListed(newsletterId: string, answer: Arr)
    requires IsVerified(newsletterId, answer) == Ok(true)
    ensures exists p :: p in GetVerifiedNewsletters(answer) && p.value == JArr(GetNewsletter(newsletterId, answer).value)
  {
    var ns := Newsletters(answer).value;
    var n := GetNewsletter(newsletterId, answer).value;
    var i :| 0 <= i < |ns| && ns[i].value == JArr(n) && FieldIs(ns[i].value, "id", newsletterId);
    var md :| GetNewsletterMetadata(newsletterId, answer) == Ok(Some(md))
              && Lookup(JArr(md), ["verification"]) == Some(JStr("verified"));
    assert Lookup(JArr(n), ["thread_metadata"]) == Some(JArr(md));
    assert ["thread_metadata", "verification"][1..] == ["verification"];
    assert IsVerifiedEntry(ns[i].value);
    assert ns[i] in GetVerifiedNewsletters(answer);
  }

  /** A muted or subscribed newsletter is always one that was found. */
  lemma FlagsNeedNewsletter(newsletterId: string, answer: Arr)
    ensures IsMuted(newsletterId, answer) ==> GetNewsletter(newsletterId, answer).Some?
    ensures IsSubscriber(newsletterId, answer) == Ok(true) ==> GetNewsletter(newsletterId, answer).Some?
  {
  }
}

=== FILE: phone_formatter.dfy ===
/**
 * `WAG\LaravelSDK\Utils\PhoneFormatter`: phone numbers reduced to their digits (country
 * code first, no `+`) and turned into WhatsApp user identifiers (JIDs).
 */
module PhoneFormatter {
  import opened PhpString

  /** The domain part of a WhatsApp user JID. */
  const JidSuffix: string := "@s.whatsapp.net"

  /** The fewest digits a number must have to pass `validate`. */
  const MinDigits: nat := 10

  /** `format`: every non-digit removed, then leading `+` trimmed. */
  function Format(phone: string): (r: string)
    ensures AllDigits(r)
    ensures forall c :: c in r <==> c in phone && IsDigit(c)
    ensures AllDigits(phone) ==> r == phone
  {
    var digits := StripNonDigits(phone);
    StripNonDigitsMembers(phone, '+');
    assert digits == [] || digits[0] != '+';
    var r := TrimLeft(digits, '+');
    assert r == digits;
    forall c ensures c in r <==> c in phone && IsDigit(c) {
      StripNonDigitsMembers(phone, c);
    }
    r
  }

  /** The trim of `+` never removes anything: the result is the digits of the input, in order. */
  lemma FormatIsDigits(phone: string)
    ensures Format(phone) == StripNonDigits(phone)
  {
  }

  /** Formatting works character by character, so it distributes over concatenation. */
  lemma FormatAppend(a: string, b: string)
    ensures Format(a + b) == Format(a) + Format(b)
  {
    StripNonDigitsAppend(a, b);
  }

  /** A formatted number is a fixed point of `format`. */
  lemma FormatIdempotent(phone: string)
    ensures Format(Format(phone)) == Format(phone)
  {
  }

  /** `validate`: at least ten digits once formatted. */
  function Validate(phone: string): (ok: bool)
    ensures ok ==> |phone| >= MinDigits
    ensures AllDigits(phone) ==> (ok <==> |phone| >= MinDigits)
  {
    |Format(phone)| >= MinDigits
  }

  /** Validation depends only on the digits, so formatting first changes nothing. */
  lemma ValidateFormatted(phone: string)
    ensures Validate(Format(phone)) == Validate(phone)
  {
    FormatIdempotent(phone);
  }

  /** `toJID`: the formatted number with the JID suffix appended unless already present. */
  function ToJid(phone: string): (r: string)
    ensures r == Format(phone) + JidSuffix
  {
    FormatLacksSuffix(phone);
    var p := Format(phone);
    if !Contains(p, JidSuffix) then p + JidSuffix else p
  }

  /** The suffix check of `toJID` can never succeed: `format` has already removed the `@`. */
  lemma FormatLacksSuffix(phone: string)
    ensures !Contains(Format(phone), JidSuffix)
  {
    assert JidSuffix[0] == '@';
    ContainsNeedsFirstChar(Format(phone), JidSuffix);
  }

  /** The suffix carries no digit, so formatting erases it completely. */
  lemma SuffixHasNoDigits()
    ensures StripNonDigits(JidSuffix) == []
  {
    assert forall c :: c in "@s.whatsapp.net" ==> !IsDigit(c);
    StripNonDigitsNone(JidSuffix);
  }

  /** Converting an identifier again yields the same identifier. */
  lemma ToJidIdempotent(phone: string)
    ensures ToJid(ToJid(phone)) == ToJid(phone)
  {
    var p := Format(phone);
    FormatAppend(p, JidSuffix);
    FormatIsDigits(JidSuffix);
    SuffixHasNoDigits();
    FormatIdempotent(phone);
    assert Format(p + JidSuffix) == p;
  }

  /** A number that is already bare digits, as in the package's unit test, only gains the suffix. */
  lemma ToJidOfDigits(phone: string)
    requires AllDigits(phone)
    ensures Format(phone) == phone
    ensures ToJid(phone) == phone + JidSuffix
  {
  }

  /** Formatting four pieces gives the digits of each piece, in order. */
  lemma FormatOfPieces(a: string, b: string, c: string, d: string)
    ensures Format(a + b + c + d) == StripNonDigits(a) + StripNonDigits(b) + StripNonDigits(c) + StripNonDigits(d)
  {
    StripNonDigitsAppend(a + b + c, d);
    StripNonDigitsAppend(a + b, c);
    StripNonDigitsAppend(a, b);
    FormatIsDigits(a + b + c + d);
  }

  /** The digits of the pieces of the number in the package's unit test, one piece each. */
  lemma PieceCountry()
    ensures StripNonDigits("+1 (") == "1"
  {
    var s := "+1 (";
    assert StripNonDigits(s[3..]) == [];
    assert StripNonDigits(s[2..]) == [];
    assert StripNonDigits(s[1..]) == "1";
  }

  lemma PieceArea()
    ensures StripNonDigits("234) ") == "234"
  {
    var s := "234) ";
    assert StripNonDigits(s[3..]) == [];
    assert StripNonDigits(s[2..]) == "4";
    assert StripNonDigits(s[1..]) == "34";
  }

  lemma PieceExchange()
    ensures StripNonDigits("567-") == "567"
  {
    var s := "567-";
    assert StripNonDigits(s[3..]) == [];
    assert StripNonDigits(s[2..]) == "7";
    assert StripNonDigits(s[1..]) == "67";
  }

  lemma PieceLine()
    ensures StripNonDigits("8901") == "8901"
  {
    assert AllDigits("8901");
  }

  lemma ExampleTexts()
    ensures "+1 (" + "234) " + "567-" + "8901" == "+1 (234) 567-8901"
    ensures "1" + "234" + "567" + "8901" == "12345678901"
    ensures "12345678901" + JidSuffix == "12345678901@s.whatsapp.net"
  {
  }

  /** The unit test's formatting example: punctuation, spaces and `+` go, the eleven digits stay. */
  lemma FormatExample()
    ensures Format("+1 (234) 567-8901") == "12345678901"
  {
    PieceCountry();
    PieceArea();
    PieceExchange();
    PieceLine();
    FormatOfPieces("+1 (", "234) ", "567-", "8901");
    ExampleTexts();
  }

  /** The unit test's identifier example. */
  lemma ToJidExample()
    ensures ToJid("12345678901") == "12345678901@s.whatsapp.net"
  {
    assert AllDigits("12345678901");
    ToJidOfDigits("12345678901");
    ExampleTexts();
  }
}

=== FILE: php_array.dfy ===
/**
 * PHP values as the package sees them after `json_decode($body, true)`: scalars and
 * ordered arrays whose keys are integers or strings. Floats are not part of the model.
 * This module also fixes the PHP semantics the services lean on: truthiness, `isset`/`??`
 * lookups, `array_filter`, loose `in_array` against word lists, string conversion, and the
 * coercions PHP applies at typed returns.
 */
module PhpArray {
  import opened Wrappers
  import opened Exceptions
  import opened PhpString

  datatype Key = KInt(n: int) | KStr(s: string)

  datatype J =
    | JNull
    | JBool(b: bool)
    | JInt(i: int)
    | JStr(s: string)
    | JArr(entries: seq<Pair>)

  datatype Pair = Pair(key: Key, value: J)

  /** The entries of a PHP array, in insertion order. */
  type Arr = seq<Pair>

  const PhpIntMax: int := 0x7fff_ffff_ffff_ffff

  predicate TruthyText(s: string) {
    s != "" && s != "0"
  }

  /** PHP truthiness: `null`, `false`, `0`, `""`, `"0"` and `[]` are falsy, everything else is truthy. */
  predicate Truthy(v: J) {
    match v
    case JNull => false
    case JBool(b) => b
    case JInt(i) => i != 0
    case JStr(s) => TruthyText(s)
    case JArr(es) => es != []
  }

  /** Truthiness of a nullable string argument, as in `if ($id) { … }`. */
  predicate TruthyOpt(o: Option<string>) {
    o.Some? && TruthyText(o.value)
  }

  /** A nullable string argument as the PHP value it denotes. */
  function OptText(o: Option<string>): J {
    match o
    case Some(s) => JStr(s)
    case None => JNull
  }

  /** PHP arrays never hold a key twice. */
  predicate UniqueKeys(a: Arr) {
    forall i, j :: 0 <= i < j < |a| ==> a[i].key != a[j].key
  }

  function KeysOf(a: Arr): (r: seq<Key>)
    ensures |r| == |a|
    ensures forall i :: 0 <= i < |a| ==> r[i] == a[i].key
  {
    seq(|a|, i requires 0 <= i < |a| => a[i].key)
  }

  function ValuesOf(a: Arr): (r: seq<J>)
    ensures |r| == |a|
    ensures forall i :: 0 <= i < |a| ==> r[i] == a[i].value
  {
    seq(|a|, i requires 0 <= i < |a| => a[i].value)
  }

  /** The value stored under `k`, if the key is present. */
  function Get(a: Arr, k: Key): (r: Option<J>)
    ensures r.None? <==> forall i :: 0 <= i < |a| ==> a[i].key != k
    ensures r.Some? ==> exists i :: 0 <= i < |a| && a[i] == Pair(k, r.value)
  {
    if a == [] then None
    else if a[0].key == k then Some(a[0].value)
    else Get(a[1..], k)
  }

  /** In an array with unique keys, the value under a key is the one stored with it. */
  lemma {:induction false} GetUnique(a: Arr, i: int)
    requires UniqueKeys(a) && 0 <= i < |a|
    ensures Get(a, a[i].key) == Some(a[i].value)
  {
    if i > 0 {
      assert a[0].key != a[i].key;
      assert UniqueKeys(a[1..]) by {
        forall x, y | 0 <= x < y < |a[1..]| ensures a[1..][x].key != a[1..][y].key {
          assert a[1..][x] == a[x + 1] && a[1..][y] == a[y + 1];
        }
      }
      GetUnique(a[1..], i - 1);
      assert a[1..][i - 1] == a[i];
    }
  }

  /** The value under a key is the one stored with its first occurrence. */
  lemma {:induction false} GetFirst(a: Arr, i: int, k: Key)
    requires 0 <= i < |a| && a[i].key == k
    requires forall j :: 0 <= j < i ==> a[j].key != k
    ensures Get(a, k) == Some(a[i].value)
  {
    if i > 0 {
      assert forall j :: 0 <= j < i - 1 ==> a[1..][j] == a[j + 1];
      GetFirst(a[1..], i - 1, k);
    }
  }

  function Field(a: Arr, name: string): Option<J> {
    Get(a, KStr(name))
  }

  /** A string-keyed array literal `['k1' => v1, 'k2' => v2, …]`. */
  function Obj(fields: seq<(string, J)>): (r: Arr)
    ensures |r| == |fields|
    ensures forall i :: 0 <= i < |fields| ==> r[i] == Pair(KStr(fields[i].0), fields[i].1)
  {
    seq(|fields|, i requires 0 <= i < |fields| => Pair(KStr(fields[i].0), fields[i].1))
  }

  /** When every entry under `k` holds `v`, and there is one exactly when `present`, the read gives `v` or nothing. */
  lemma GetFromEntries(a: Arr, k: Key, present: bool, v: J)
    requires forall j :: 0 <= j < |a| && a[j].key == k ==> present && a[j].value == v
    requires present ==> exists j :: 0 <= j < |a| && a[j].key == k
    ensures Get(a, k) == if present then Some(v) else None
  {
  }

  /** A field of an array literal reads back the value written for it, unless an earlier field has its name. */
  lemma ObjField(fields: seq<(string, J)>, i: int)
    requires 0 <= i < |fields|
    requires forall j :: 0 <= j < i ==> fields[j].0 != fields[i].0
    ensures Field(Obj(fields), fields[i].0) == Some(fields[i].1)
  {
    GetFirst(Obj(fields), i, KStr(fields[i].0));
  }

  /** A list literal `[v0, v1, …]`, keyed 0, 1, …. */
  function ListOf(vs: seq<J>): (r: Arr)
    ensures |r| == |vs|
    ensures forall i :: 0 <= i < |vs| ==> r[i] == Pair(KInt(i), vs[i])
  {
    seq(|vs|, i requires 0 <= i < |vs| => Pair(KInt(i), vs[i]))
  }

  function TextList(ss: seq<string>): (r: seq<J>)
    ensures |r| == |ss|
    ensures forall i :: 0 <= i < |ss| ==> r[i] == JStr(ss[i])
  {
    seq(|ss|, i requires 0 <= i < |ss| => JStr(ss[i]))
  }

  /** `$a[name] = v` for a key `a` does not hold yet. */
  function Append(a: Arr, name: string, v: J): Arr {
    a + [Pair(KStr(name), v)]
  }

  /** `if ($o) { $a[name] = $o; }` for a nullable string argument. */
  function AppendIfTruthy(a: Arr, name: string, o: Option<string>): (r: Arr)
    ensures TruthyOpt(o) ==> r == a + [Pair(KStr(name), JStr(o.value))]
    ensures !TruthyOpt(o) ==> r == a
  {
    if TruthyOpt(o) then Append(a, name, JStr(o.value)) else a
  }

  /** The optional fields a builder includes: exactly those whose value is truthy, in order. */
  function Present(opts: seq<(string, Option<string>)>): (r: seq<(string, J)>)
    ensures |r| <= |opts|
    ensures forall i :: 0 <= i < |opts| && TruthyOpt(opts[i].1) ==> (opts[i].0, JStr(opts[i].1.value)) in r
    ensures forall f :: f in r ==> exists i :: 0 <= i < |opts| && TruthyOpt(opts[i].1) && f == (opts[i].0, JStr(opts[i].1.value))
  {
    if opts == [] then []
    else
      var rest := Present(opts[1..]);
      assert forall i :: 1 <= i < |opts| ==> opts[1..][i - 1] == opts[i];
      OptHead(opts[0]) + rest
  }

  /** The field one optional argument contributes: itself when truthy, nothing otherwise. */
  function OptHead(o: (string, Option<string>)): seq<(string, J)> {
    if TruthyOpt(o.1) then [(o.0, JStr(o.1.value))] else []
  }

  /** The `if ($o) { $a[name] = $o; }` statements of a builder, one after another. */
  function WithOptionals(a: Arr, opts: seq<(string, Option<string>)>): Arr
    decreases |opts|
  {
    if opts == [] then a else WithOptionals(AppendIfTruthy(a, opts[0].0, opts[0].1), opts[1..])
  }

  /** Concatenating literals concatenates their arrays. */
  lemma ObjAppend(x: seq<(string, J)>, y: seq<(string, J)>)
    ensures Obj(x + y) == Obj(x) + Obj(y)
  {
    assert forall i :: 0 <= i < |x + y| ==> Obj(x + y)[i] == (Obj(x) + Obj(y))[i];
  }

  /** One conditional append extends the literal by the argument's field, if any. */
  lemma AppendIfTruthyLiteral(fixed: seq<(string, J)>, o: (string, Option<string>))
    ensures AppendIfTruthy(Obj(fixed), o.0, o.1) == Obj(fixed + OptHead(o))
  {
    ObjAppend(fixed, OptHead(o));
    assert Obj(OptHead(o)) == if TruthyOpt(o.1) then [Pair(KStr(o.0), JStr(o.1.value))] else [];
  }

  /** The conditional appends build the literal holding the fixed fields and then the truthy optional ones. */
  lemma {:induction false} WithOptionalsIsLiteral(fixed: seq<(string, J)>, opts: seq<(string, Option<string>)>)
    ensures WithOptionals(Obj(fixed), opts) == Obj(fixed + Present(opts))
    decreases |opts|
  {
    if opts == [] {
      assert fixed + [] == fixed;
    } else {
      var next := fixed + OptHead(opts[0]);
      calc {
        WithOptionals(Obj(fixed), opts);
        WithOptionals(AppendIfTruthy(Obj(fixed), opts[0].0, opts[0].1), opts[1..]);
        { AppendIfTruthyLiteral(fixed, opts[0]); }
        WithOptionals(Obj(next), opts[1..]);
        { WithOptionalsIsLiteral(next, opts[1..]); }
        Obj(next + Present(opts[1..]));
        { assert next + Present(opts[1..]) == fixed + (OptHead(opts[0]) + Present(opts[1..])); }
        Obj(fixed + Present(opts));
      }
    }
  }

  /** A field of a literal reads back the same when more fields follow it. */
  lemma PrefixField(fixed: seq<(string, J)>, extra: seq<(string, J)>, i: int)
    requires 0 <= i < |fixed|
    requires forall j :: 0 <= j < i ==> fixed[j].0 != fixed[i].0
    ensures Field(Obj(fixed + extra), fixed[i].0) == Some(fixed[i].1)
  {
    var all := fixed + extra;
    assert forall j :: 0 <= j <= i ==> all[j] == fixed[j];
    ObjField(all, i);
  }

  /** The four fields of a literal whose names start with four different characters all read back. */
  lemma FourFields(n0: string, n1: string, n2: string, n3: string, v0: J, v1: J, v2: J, v3: J, extra: seq<(string, J)>)
    requires n0 != [] && n1 != [] && n2 != [] && n3 != []
    requires n0[0] != n1[0] && n0[0] != n2[0] && n0[0] != n3[0]
    requires n1[0] != n2[0] && n1[0] != n3[0] && n2[0] != n3[0]
    ensures Field(Obj([(n0, v0), (n1, v1), (n2, v2), (n3, v3)] + extra), n0) == Some(v0)
    ensures Field(Obj([(n0, v0), (n1, v1), (n2, v2), (n3, v3)] + extra), n1) == Some(v1)
    ensures Field(Obj([(n0, v0), (n1, v1), (n2, v2), (n3, v3)] + extra), n2) == Some(v2)
    ensures Field(Obj([(n0, v0), (n1, v1), (n2, v2), (n3, v3)] + extra), n3) == Some(v3)
  {
    var fixed := [(n0, v0), (n1, v1), (n2, v2), (n3, v3)];
    PrefixField(fixed, extra, 0);
    PrefixField(fixed, extra, 1);
    PrefixField(fixed, extra, 2);
    PrefixField(fixed, extra, 3);
  }

  /** A fixed field of a builder reads back its value, whatever the optional fields. */
  lemma FixedField(fixed: seq<(string, J)>, opts: seq<(string, Option<string>)>, i: int)
    requires 0 <= i < |fixed|
    requires forall j :: 0 <= j < i ==> fixed[j].0 != fixed[i].0
    ensures Field(WithOptionals(Obj(fixed), opts), fixed[i].0) == Some(fixed[i].1)
  {
    WithOptionalsIsLiteral(fixed, opts);
    PrefixField(fixed, Present(opts), i);
  }

  /** With distinct names, an included optional field named like argument `i` is that argument's field. */
  lemma PresentEntry(opts: seq<(string, Option<string>)>, f: (string, J), i: int)
    requires 0 <= i < |opts|
    requires forall a, b :: 0 <= a < b < |opts| ==> opts[a].0 != opts[b].0
    requires f in Present(opts) && f.0 == opts[i].0
    ensures TruthyOpt(opts[i].1) && f.1 == JStr(opts[i].1.value)
  {
    var c :| 0 <= c < |opts| && TruthyOpt(opts[c].1) && f == (opts[c].0, JStr(opts[c].1.value));
    assert c == i;
  }

  /**
   * In a builder whose names are all different, an optional field is present exactly when
   * its value is truthy, and then holds that value.
   */
  lemma OptionalFieldIffTruthy(fixed: seq<(string, J)>, opts: seq<(string, Option<string>)>, i: int)
    requires 0 <= i < |opts|
    requires forall a, b :: 0 <= a < b < |opts| ==> opts[a].0 != opts[b].0
    requires forall a, b :: 0 <= a < |fixed| && 0 <= b < |opts| ==> fixed[a].0 != opts[b].0
    ensures TruthyOpt(opts[i].1) ==> Field(WithOptionals(Obj(fixed), opts), opts[i].0) == Some(JStr(opts[i].1.value))
    ensures !TruthyOpt(opts[i].1) ==> Field(WithOptionals(Obj(fixed), opts), opts[i].0) == None
  {
    WithOptionalsIsLiteral(fixed, opts);
    var p := Present(opts);
    var a := Obj(fixed + p);
    var k := KStr(opts[i].0);
    var present := TruthyOpt(opts[i].1);
    var v := if present then JStr(opts[i].1.value) else JNull;
    OptionalEntries(fixed, opts, i);
    if present {
      var b :| 0 <= b < |p| && p[b] == (opts[i].0, v);
      assert a[|fixed| + b].key == k;
    }
    GetFromEntries(a, k, present, v);
  }

  /** Every entry of the built literal named like argument `i` holds that argument's truthy value. */
  lemma OptionalEntries(fixed: seq<(string, J)>, opts: seq<(string, Option<string>)>, i: int)
    requires 0 <= i < |opts|
    requires forall a, b :: 0 <= a < b < |opts| ==> opts[a].0 != opts[b].0
    requires forall a, b :: 0 <= a < |fixed| && 0 <= b < |opts| ==> fixed[a].0 != opts[b].0
    ensures forall j :: 0 <= j < |Obj(fixed + Present(opts))| && Obj(fixed + Present(opts))[j].key == KStr(opts[i].0) ==>
              TruthyOpt(opts[i].1) && Obj(fixed + Present(opts))[j].value == JStr(opts[i].1.value)
  {
    var p := Present(opts);
    var all := fixed + p;
    var a := Obj(all);
    forall j | 0 <= j < |a| && a[j].key == KStr(opts[i].0)
      ensures TruthyOpt(opts[i].1) && a[j].value == JStr(opts[i].1.value)
    {
      assert all[j].0 == opts[i].0;
      assert j >= |fixed|;
      assert all[j] == p[j - |fixed|];
      PresentEntry(opts, p[j - |fixed|], i);
    }
  }

  /**
   * `$v[k]` read under `isset` or `??`: absent when `v` is not an array (or a string with an
   * integer offset in range), when the key is missing, or when the value is `null`.
   */
  function At(v: J, k: Key): (r: Option<J>)
    ensures r.Some? ==> !r.value.JNull?
    ensures v.JArr? ==> (r.Some? <==> Get(v.entries, k).Some? && !Get(v.entries, k).value.JNull?)
    ensures r.Some? && v.JArr? ==> Get(v.entries, k) == r
  {
    match v
    case JArr(es) =>
      (match Get(es, k)
       case Some(x) => if x.JNull? then None else Some(x)
       case None => None)
    case JStr(s) =>
      if k.KInt? && -|s| <= k.n < |s| then Some(JStr([s[if k.n < 0 then |s| + k.n else k.n]])) else None
    case _ => None
  }

  /**
   * `isset($s[$offset])` for a string of length `n` and a string offset: the offset is an
   * integer numeric string within 64 bits, counted from the end when negative, and falls
   * inside the string.
   */
  predicate IsStringOffset(offset: string, n: nat) {
    IsIntText(offset) && -PhpIntMax - 1 <= IntTextValue(offset) <= PhpIntMax && -(n as int) <= IntTextValue(offset) < n
  }

  /** `$v['a']['b']…` read under `isset` or `??`, one literal string key after another. */
  function Lookup(v: J, names: seq<string>): (r: Option<J>)
    ensures r.Some? ==> !r.value.JNull?
    ensures |names| == 1 ==> r == At(v, KStr(names[0]))
    decreases |names|
  {
    if names == [] then (if v.JNull? then None else Some(v))
    else
      match At(v, KStr(names[0]))
      case None => None
      case Some(x) => Lookup(x, names[1..])
  }

  /** `$a['k1']…['kn'] ?? d` on an array. */
  function Coalesce(a: Arr, names: seq<string>, d: J): (r: J)
    ensures Lookup(JArr(a), names).None? ==> r == d
    ensures Lookup(JArr(a), names).Some? ==> r == Lookup(JArr(a), names).value
  {
    Lookup(JArr(a), names).GetOr(d)
  }

  /** `ys` can be obtained from `xs` by deleting elements. */
  predicate Subsequence<T(==)>(ys: seq<T>, xs: seq<T>)
    decreases |xs|
  {
    ys == [] || (xs != [] && ((ys[0] == xs[0] && Subsequence(ys[1..], xs[1..])) || Subsequence(ys, xs[1..])))
  }

  /** `array_filter($a, $keep)`: keeps the entries whose value satisfies `keep`, with their keys, in order. */
  function FilterEntries(a: Arr, keep: J -> bool): (r: Arr)
    ensures forall p :: p in r <==> p in a && keep(p.value)
    ensures Subsequence(r, a)
  {
    if a == [] then []
    else
      var rest := FilterEntries(a[1..], keep);
      if keep(a[0].value) then
        assert ([a[0]] + rest)[1..] == rest;
        [a[0]] + rest
      else rest
  }

  /** Filtering distributes over concatenation. */
  lemma {:induction false} FilterEntriesAppend(a: Arr, b: Arr, keep: J -> bool)
    ensures FilterEntries(a + b, keep) == FilterEntries(a, keep) + FilterEntries(b, keep)
  {
    if a == [] {
      assert a + b == b;
    } else {
      assert (a + b)[0] == a[0];
      assert (a + b)[1..] == a[1..] + b;
      FilterEntriesAppend(a[1..], b, keep);
    }
  }

  /** When every value passes, filtering keeps the whole array. */
  lemma {:induction false} FilterEntriesKeepsAll(a: Arr, keep: J -> bool)
    requires forall i :: 0 <= i < |a| ==> keep(a[i].value)
    ensures FilterEntries(a, keep) == a
  {
    if a != [] {
      assert forall i :: 0 <= i < |a[1..]| ==> a[1..][i] == a[i + 1];
      FilterEntriesKeepsAll(a[1..], keep);
      assert a == [a[0]] + a[1..];
    }
  }

  /** `array_filter($a)` without a callback: drops every falsy value. */
  function FilterTruthy(a: Arr): (r: Arr)
    ensures forall p :: p in r <==> p in a && Truthy(p.value)
    ensures Subsequence(r, a)
  {
    FilterEntries(a, v => Truthy(v))
  }

  /** The names of an array literal are pairwise different. */
  predicate DistinctNames(fields: seq<(string, J)>) {
    forall i, j :: 0 <= i < j < |fields| ==> fields[i].0 != fields[j].0
  }

  /** After `array_filter` on a literal with distinct names, a field is there, unchanged, exactly when its value is truthy. */
  lemma FilterTruthyField(fields: seq<(string, J)>, i: int)
    requires DistinctNames(fields) && 0 <= i < |fields|
    ensures Field(FilterTruthy(Obj(fields)), fields[i].0) == if Truthy(fields[i].1) then Some(fields[i].1) else None
  {
    var a := Obj(fields);
    var r := FilterTruthy(a);
    var k := KStr(fields[i].0);
    var present := Truthy(fields[i].1);
    assert a[i] == Pair(k, fields[i].1);
    forall m | 0 <= m < |r| && r[m].key == k
      ensures present && r[m].value == fields[i].1
    {
      assert r[m] in r;
      var n :| 0 <= n < |a| && a[n] == r[m];
      assert fields[n].0 == fields[i].0;
      assert n == i;
    }
    if present {
      assert a[i] in r;
      var m :| 0 <= m < |r| && r[m] == a[i];
      assert r[m].key == k;
    }
    GetFromEntries(r, k, present, fields[i].1);
  }

  /** An array keyed 0, 1, … in order: a PHP list. */
  predicate IsList(a: Arr) {
    forall i :: 0 <= i < |a| ==> a[i].key == KInt(i)
  }

  /** `array_values`: the values, re-keyed 0, 1, …. */
  function ArrayValues(a: Arr): (r: Arr)
    ensures IsList(r) && ValuesOf(r) == ValuesOf(a)
    ensures IsList(a) ==> r == a
  {
    var r := ListOf(ValuesOf(a));
    assert IsList(a) ==> forall i :: 0 <= i < |a| ==> r[i] == a[i];
    r
  }

  /** The largest integer key, if any. */
  function MaxIntKey(a: Arr): (m: Option<int>)
    ensures m.None? <==> forall i :: 0 <= i < |a| ==> !a[i].key.KInt?
    ensures m.Some? ==> forall i :: 0 <= i < |a| && a[i].key.KInt? ==> a[i].key.n <= m.value
    ensures m.Some? ==> exists i :: 0 <= i < |a| && a[i].key == KInt(m.value)
  {
    if a == [] then None
    else
      var rest := MaxIntKey(a[1..]);
      assert forall i :: 1 <= i < |a| ==> a[i] == a[1..][i - 1];
      if !a[0].key.KInt? then
        if rest.Some? then
          var i :| 0 <= i < |a[1..]| && a[1..][i].key == KInt(rest.value);
          assert a[i + 1].key == KInt(rest.value);
          rest
        else rest
      else if rest.None? || rest.value < a[0].key.n then Some(a[0].key.n)
      else
        var i :| 0 <= i < |a[1..]| && a[1..][i].key == KInt(rest.value);
        assert a[i + 1].key == KInt(rest.value);
        rest
  }

  /**
   * The key `$a[] = v` uses: one past the largest integer key, `0` when there is none
   * (PHP 8.3 and later, where a negative largest key is followed by its successor too).
   */
  function NextIndex(a: Arr): (n: int)
    ensures forall i :: 0 <= i < |a| ==> a[i].key != KInt(n)
  {
    match MaxIntKey(a)
    case None => 0
    case Some(m) => m + 1
  }

  /** The next key of a list is its length. */
  lemma NextIndexOfList(a: Arr)
    requires IsList(a)
    ensures NextIndex(a) == |a|
  {
    if a != [] {
      var m := MaxIntKey(a).value;
      assert a[|a| - 1].key == KInt(|a| - 1);
      var i :| 0 <= i < |a| && a[i].key == KInt(m);
      assert m == i;
    }
  }

  /** `$a[] = v`. */
  function Push(a: Arr, v: J): (r: Arr)
    ensures UniqueKeys(a) ==> UniqueKeys(r)
    ensures IsList(a) ==> IsList(r)
    ensures ValuesOf(r) == ValuesOf(a) + [v]
  {
    var r := a + [Pair(KInt(NextIndex(a)), v)];
    assert IsList(a) ==> NextIndex(a) == |a| by {
      if IsList(a) {
        NextIndexOfList(a);
      }
    }
    assert forall i :: 0 <= i < |a| ==> r[i] == a[i];
    r
  }

  /** `foreach ($a as $v) { if (matches($v)) return $v; } return null;` */
  function FindFirst(a: Arr, matches: J -> bool): (r: Option<J>)
    ensures r.None? <==> forall i :: 0 <= i < |a| ==> !matches(a[i].value)
    ensures r.Some? ==> exists i :: 0 <= i < |a| && r.value == a[i].value && matches(a[i].value)
                                      && forall j :: 0 <= j < i ==> !matches(a[j].value)
  {
    if a == [] then None
    else if matches(a[0].value) then Some(a[0].value)
    else
      var r := FindFirst(a[1..], matches);
      assert forall i :: 1 <= i < |a| ==> a[1..][i - 1] == a[i];
      r
  }

  /** `isset($v[name]) && $v[name] === s`: only an array can pass. */
  predicate FieldIs(v: J, name: string, s: string) {
    At(v, KStr(name)) == Some(JStr(s))
  }

  /** The scans of `getNewsletter` and `getUser`: the first array whose `name` is strictly `s`. */
  function FirstWithField(a: Arr, name: string, s: string): (r: Option<Arr>)
    ensures r.None? <==> forall i :: 0 <= i < |a| ==> !FieldIs(a[i].value, name, s)
    ensures r.Some? ==> exists i :: 0 <= i < |a| && a[i].value == JArr(r.value) && FieldIs(a[i].value, name, s)
                                      && forall j :: 0 <= j < i ==> !FieldIs(a[j].value, name, s)
    ensures r.Some? ==> Get(r.value, KStr(name)) == Some(JStr(s))
  {
    match FindFirst(a, v => FieldIs(v, name, s))
    case Some(v) =>
      assert v.JArr?;
      Some(v.entries)
    case None => None
  }

  /** PHP's conversion of a value to string; an array cannot be passed where a string is expected. */
  function StringValue(v: J): (r: Option<string>)
    ensures r.None? <==> v.JArr?
    ensures v.JStr? ==> r == Some(v.s)
  {
    match v
    case JNull => Some("")
    case JBool(b) => Some(if b then "1" else "")
    case JInt(i) => Some(IntToString(i))
    case JStr(s) => Some(s)
    case JArr(_) => None
  }

  /** A value interpolated into a double-quoted string: arrays become "Array". */
  function Interpolate(v: J): string {
    StringValue(v).GetOr("Array")
  }

  /** The coercion at a `bool` return: scalars by truthiness, arrays raise a TypeError. */
  function AsBool(v: J): (r: Result<bool, Error>)
    ensures r.Err? <==> v.JArr?
    ensures r.Err? ==> r.error == TypeError
    ensures r.Ok? ==> (r.value <==> Truthy(v))
  {
    if v.JArr? then Err(TypeError) else Ok(Truthy(v))
  }

  /** The coercion at a `string` return or parameter. */
  function AsText(v: J): (r: Result<string, Error>)
    ensures r.Err? <==> v.JArr?
    ensures r.Err? ==> r.error == TypeError
    ensures v.JStr? ==> r == Ok(v.s)
  {
    match StringValue(v)
    case Some(s) => Ok(s)
    case None => Err(TypeError)
  }

  /** The check at an `array` return: anything but an array raises a TypeError. */
  function AsArray(v: J): (r: Result<Arr, Error>)
    ensures r.Ok? <==> v.JArr?
    ensures r.Ok? ==> r.value == v.entries
    ensures r.Err? ==> r.error == TypeError
  {
    if v.JArr? then Ok(v.entries) else Err(TypeError)
  }

  /** The coercion at a `?string` return of a `?? null` lookup. */
  function AsOptText(o: Option<J>): (r: Result<Option<string>, Error>)
    ensures o.None? ==> r == Ok(None)
    ensures o.Some? && o.value.JStr? ==> r == Ok(Some(o.value.s))
    ensures r.Err? <==> o.Some? && o.value.JArr?
  {
    match o
    case None => Ok(None)
    case Some(v) =>
      match StringValue(v)
      case Some(s) => Ok(Some(s))
      case None => Err(TypeError)
  }

  /** The check at a `?array` return of a `?? null` lookup. */
  function AsOptArray(o: Option<J>): (r: Result<Option<Arr>, Error>)
    ensures o.None? ==> r == Ok(None)
    ensures o.Some? && o.value.JArr? ==> r == Ok(Some(o.value.entries))
    ensures r.Err? <==> o.Some? && !o.value.JArr?
  {
    match o
    case None => Ok(None)
    case Some(v) => if v.JArr? then Ok(Some(v.entries)) else Err(TypeError)
  }

  /** A non-empty string of ASCII letters: no PHP numeric string, never equal to `""`. */
  predicate IsWord(s: string) {
    s != [] && forall i :: 0 <= i < |s| ==> ('a' <= s[i] <= 'z' || 'A' <= s[i] <= 'Z')
  }

  /**
   * `in_array($v, $words)` with PHP 8's loose `==`, for a list of words: a string matches
   * only itself, `true` equals every non-empty non-"0" string, and `null`, `false`, integers
   * and arrays equal none of them.
   */
  function LooseInWords(v: J, words: seq<string>): (r: bool)
    requires forall i :: 0 <= i < |words| ==> IsWord(words[i])
    ensures v.JStr? ==> (r <==> v.s in words)
    ensures v.JBool? ==> (r <==> v.b && words != [])
    ensures !v.JStr? && !v.JBool? ==> !r
  {
    match v
    case JStr(s) => s in words
    case JBool(b) => b && words != []
    case _ => false
  }

  /** Checking a value against a word list is the loose comparison with each word in turn. */
  lemma LooseInWordsAgrees(v: J, words: seq<string>)
    requires forall i :: 0 <= i < |words| ==> IsWord(words[i])
    ensures LooseInWords(v, words) <==> exists i :: 0 <= i < |words| && LooseEqualsText(words[i], v)
  {
    forall i | 0 <= i < |words| {
      LooseEqualsWord(words[i], v);
    }
    if v.JBool? && v.b && words != [] {
      assert LooseEqualsText(words[0], v);
    }
  }

  /** The whitespace PHP 8 allows before and after a numeric string: space, `\t`, `\n`, `\r`, `\v` and `\f`. */
  predicate IsNumericSpace(c: char) {
    c == ' ' || c == '\t' || c == '\n' || c == '\r' || c as int == 11 || c as int == 12
  }

  /** `s` without its leading whitespace. */
  function TrimLeadingSpace(s: string): (r: string)
    ensures r == [] || !IsNumericSpace(r[0])
    ensures |r| <= |s| && r == s[|s| - |r|..]
    decreases |s|
  {
    if s != [] && IsNumericSpace(s[0]) then TrimLeadingSpace(s[1..]) else s
  }

  /** `s` without its trailing whitespace. */
  function TrimTrailingSpace(s: string): (r: string)
    ensures r == [] || !IsNumericSpace(r[|r| - 1])
    ensures |r| <= |s| && r == s[..|r|]
    decreases |s|
  {
    if s != [] && IsNumericSpace(s[|s| - 1]) then TrimTrailingSpace(s[..|s| - 1]) else s
  }

  /** The part of a string PHP 8 reads as a number: the string without surrounding whitespace. */
  function NumericCore(s: string): string {
    TrimTrailingSpace(TrimLeadingSpace(s))
  }

  /** An optional `+` or `-` followed by at least one decimal digit. */
  predicate IsSignedDigits(s: string) {
    if s != [] && (s[0] == '+' || s[0] == '-') then |s| > 1 && AllDigits(s[1..]) else s != [] && AllDigits(s)
  }

  function SignedDigitsValue(s: string): int
    requires IsSignedDigits(s)
  {
    if s[0] == '-' then -(DecimalValue(s[1..]) as int)
    else if s[0] == '+' then DecimalValue(s[1..])
    else DecimalValue(s)
  }

  /** PHP 8's numeric strings in integer form: signed decimal digits, with whitespace allowed before and after. */
  predicate IsIntText(s: string) {
    IsSignedDigits(NumericCore(s))
  }

  function IntTextValue(s: string): int
    requires IsIntText(s)
  {
    SignedDigitsValue(NumericCore(s))
  }

  /** A string without surrounding whitespace is its own numeric core. */
  lemma NumericCoreOfTrimmed(s: string)
    requires s != [] && !IsNumericSpace(s[0]) && !IsNumericSpace(s[|s| - 1])
    ensures NumericCore(s) == s
  {
    assert TrimLeadingSpace(s) == s;
  }

  /** Leading whitespace is dropped whatever follows it. */
  lemma {:induction false} DropLeadingSpace(lead: string, x: string)
    requires forall i :: 0 <= i < |lead| ==> IsNumericSpace(lead[i])
    ensures TrimLeadingSpace(lead + x) == TrimLeadingSpace(x)
    decreases |lead|
  {
    if lead != [] {
      var p := lead + x;
      assert p[0] == lead[0] && IsNumericSpace(lead[0]);
      assert p[1..] == lead[1..] + x;
      assert TrimLeadingSpace(p) == TrimLeadingSpace(p[1..]);
      DropLeadingSpace(lead[1..], x);
    } else {
      assert lead + x == x;
    }
  }

  /** Trailing whitespace is dropped whatever precedes it. */
  lemma {:induction false} DropTrailingSpace(x: string, trail: string)
    requires forall i :: 0 <= i < |trail| ==> IsNumericSpace(trail[i])
    ensures TrimTrailingSpace(x + trail) == TrimTrailingSpace(x)
    decreases |trail|
  {
    if trail != [] {
      var p := x + trail;
      var t := trail[..|trail| - 1];
      assert p[|p| - 1] == trail[|trail| - 1] && IsNumericSpace(trail[|trail| - 1]);
      assert p[..|p| - 1] == x + t;
      assert TrimTrailingSpace(p) == TrimTrailingSpace(p[..|p| - 1]);
      DropTrailingSpace(x, t);
    } else {
      assert x + trail == x;
    }
  }

  /** Signed digits start and end with something other than whitespace. */
  lemma SignedDigitsEnds(s: string)
    requires IsSignedDigits(s)
    ensures s != [] && !IsNumericSpace(s[0]) && !IsNumericSpace(s[|s| - 1])
  {
    if s[0] == '+' || s[0] == '-' {
      assert s[|s| - 1] == s[1..][|s| - 2];
    }
  }

  /** Whitespace around signed digits leaves an integer text of the same value. */
  lemma PaddedIntText(lead: string, s: string, trail: string)
    requires forall i :: 0 <= i < |lead| ==> IsNumericSpace(lead[i])
    requires forall i :: 0 <= i < |trail| ==> IsNumericSpace(trail[i])
    requires IsSignedDigits(s)
    ensures IsIntText(lead + s + trail) && IntTextValue(lead + s + trail) == SignedDigitsValue(s)
  {
    var p := lead + s + trail;
    SignedDigitsEnds(s);
    assert p == lead + (s + trail);
    DropLeadingSpace(lead, s + trail);
    assert (s + trail)[0] == s[0];
    assert TrimLeadingSpace(p) == s + trail;
    DropTrailingSpace(s, trail);
    assert TrimTrailingSpace(s) == s;
    assert NumericCore(p) == s;
  }

  /** `"1 " == 1` under PHP 8's loose comparison. */
  lemma TrailingSpaceComparesAsNumber()
    ensures LooseEqualsText("1 ", JInt(1))
  {
    var one := "1";
    assert IsSignedDigits(one) && SignedDigitsValue(one) == 1;
    PaddedIntText([], one, " ");
    assert [] + one + " " == "1 ";
  }

  /**
   * `$s == $v` for a string `s` under PHP 8's loose comparison: numeric strings compare by
   * value, a non-numeric string against an integer compares with the integer's decimal text,
   * against a boolean by truthiness, against `null` as the empty string, and never equals an array.
   */
  predicate LooseEqualsText(s: string, v: J) {
    match v
    case JNull => s == ""
    case JBool(b) => TruthyText(s) == b
    case JInt(i) => if IsIntText(s) then IntTextValue(s) == i else s == IntToString(i)
    case JStr(t) => if IsIntText(s) && IsIntText(t) then IntTextValue(s) == IntTextValue(t) else s == t
    case JArr(_) => false
  }

  /** A string is loosely equal to itself. */
  lemma LooseEqualsSelf(s: string)
    ensures LooseEqualsText(s, JStr(s))
  {
  }

  /** `in_array($s, $a)` for a string `s`, loosely. */
  predicate LooseContains(a: Arr, s: string) {
    exists i :: 0 <= i < |a| && LooseEqualsText(s, a[i].value)
  }

  /** A word is loosely equal only to itself and to `true`. */
  lemma LooseEqualsWord(w: string, v: J)
    requires IsWord(w)
    ensures LooseEqualsText(w, v) <==> v == JStr(w) || v == JBool(true)
  {
    NumericCoreOfTrimmed(w);
    assert !IsDigit(w[0]) && w[0] != '+' && w[0] != '-';
    assert !IsIntText(w);
    if v.JInt? {
      var t := IntToString(v.i);
      assert t[0] == '-' || IsDigit(t[0]);
      assert w != t;
    }
  }

  /** A word is loosely contained in an array exactly when the array holds it or `true`. */
  lemma LooseContainsWord(a: Arr, w: string)
    requires IsWord(w)
    ensures LooseContains(a, w) <==> exists i :: 0 <= i < |a| && (a[i].value == JStr(w) || a[i].value == JBool(true))
  {
    forall i | 0 <= i < |a| {
      LooseEqualsWord(w, a[i].value);
    }
  }

  /** Whether a string key is cast to an integer key when used as an array key. */
  predicate IsIntegerKey(s: string) {
    if s == "0" then true
    else if s != [] && s[0] == '-' then
      |s| > 1 && s[1] != '0' && AllDigits(s[1..]) && DecimalValue(s[1..]) <= PhpIntMax + 1
    else
      s != [] && s[0] != '0' && AllDigits(s) && DecimalValue(s) <= PhpIntMax
  }

  /** The key `$a[$s]` uses: canonical decimal integers within 64 bits become integer keys. */
  function ArrayKey(s: string): (k: Key)
    ensures k.KStr? <==> !IsIntegerKey(s)
    ensures k.KStr? ==> k.s == s
  {
    if !IsIntegerKey(s) then KStr(s)
    else if s[0] == '-' then KInt(-(DecimalValue(s[1..]) as int))
    else KInt(DecimalValue(s))
  }
}

=== FILE: php_string.dfy ===
/**
 * The few functions of PHP's string library the package relies on, over `string` as a
 * sequence of single-byte characters. Case mapping is ASCII-only, as `strtolower` and
 * `strtoupper` are from PHP 8.2 on.
 */
module PhpString {

  predicate IsDigit(c: char) {
    '0' <= c <= '9'
  }

  predicate AllDigits(s: string) {
    forall i :: 0 <= i < |s| ==> IsDigit(s[i])
  }

  /** `preg_replace('/[^0-9]/', '', s)`: the decimal digits of `s`, in their original order. */
  function StripNonDigits(s: string): (r: string)
    ensures AllDigits(r)
    ensures |r| <= |s|
    ensures AllDigits(s) ==> r == s
  {
    if s == [] then []
    else (if IsDigit(s[0]) then [s[0]] else []) + StripNonDigits(s[1..])
  }

  /** Stripping distributes over concatenation: each character is kept or dropped on its own. */
  lemma {:induction false} StripNonDigitsAppend(a: string, b: string)
    ensures StripNonDigits(a + b) == StripNonDigits(a) + StripNonDigits(b)
  {
    if a == [] {
      assert a + b == b;
    } else {
      assert (a + b)[0] == a[0];
      assert (a + b)[1..] == a[1..] + b;
      StripNonDigitsAppend(a[1..], b);
    }
  }

  /** A character survives stripping exactly when it is a digit of the input. */
  lemma {:induction false} StripNonDigitsMembers(s: string, c: char)
    ensures c in StripNonDigits(s) <==> c in s && IsDigit(c)
  {
    if s != [] {
      StripNonDigitsMembers(s[1..], c);
      assert s == [s[0]] + s[1..];
    }
  }

  /** A string without digits strips to nothing. */
  lemma {:induction false} StripNonDigitsNone(s: string)
    requires forall c :: c in s ==> !IsDigit(c)
    ensures StripNonDigits(s) == []
  {
    if s != [] {
      assert s[0] in s;
      assert forall c :: c in s[1..] ==> c in s;
      StripNonDigitsNone(s[1..]);
    }
  }

  /** `ltrim(s, c)` for a single character: the longest suffix of `s` that does not start with `c`. */
  function TrimLeft(s: string, c: char): (r: string)
    ensures r == [] || r[0] != c
    ensures |r| <= |s| && s[|s| - |r|..] == r
    ensures forall i :: 0 <= i < |s| - |r| ==> s[i] == c
    ensures s == [] || s[0] != c ==> r == s
  {
    if s != [] && s[0] == c then TrimLeft(s[1..], c) else s
  }

  /** `rtrim(s, c)` for a single character: the longest prefix of `s` that does not end with `c`. */
  function TrimRight(s: string, c: char): (r: string)
    ensures r == [] || r[|r| - 1] != c
    ensures |r| <= |s| && s[..|r|] == r
    ensures forall i :: |r| <= i < |s| ==> s[i] == c
    ensures s == [] || s[|s| - 1] != c ==> r == s
  {
    if s != [] && s[|s| - 1] == c then TrimRight(s[..|s| - 1], c) else s
  }

  /** ASCII `strtolower` of one character. */
  function LowerChar(c: char): char {
    if 'A' <= c <= 'Z' then (c as int + 32) as char else c
  }

  /** ASCII `strtoupper` of one character. */
  function UpperChar(c: char): char {
    if 'a' <= c <= 'z' then (c as int - 32) as char else c
  }

  /** `strtolower`: each character mapped on its own. */
  function Lower(s: string): (r: string)
    ensures |r| == |s|
    ensures forall i :: 0 <= i < |s| ==> r[i] == LowerChar(s[i])
  {
    seq(|s|, i requires 0 <= i < |s| => LowerChar(s[i]))
  }

  /** `strtoupper`: each character mapped on its own. */
  function Upper(s: string): (r: string)
    ensures |r| == |s|
    ensures forall i :: 0 <= i < |s| ==> r[i] == UpperChar(s[i])
  {
    seq(|s|, i requires 0 <= i < |s| => UpperChar(s[i]))
  }

  /** Lower-casing twice is lower-casing once. */
  lemma LowerIdempotent(s: string)
    ensures Lower(Lower(s)) == Lower(s)
  {
  }

  /** `str_starts_with(s, prefix)`. */
  predicate StartsWith(s: string, prefix: string) {
    |prefix| <= |s| && s[..|prefix|] == prefix
  }

  /** `str_contains(hay, needle)`, equivalently `strpos(hay, needle) !== false`; true for an empty needle. */
  predicate Contains(hay: string, needle: string) {
    exists i :: 0 <= i <= |hay| && StartsWith(hay[i..], needle)
  }

  /** A string holding no copy of the needle's first character does not contain the needle. */
  lemma ContainsNeedsFirstChar(hay: string, needle: string)
    requires needle != [] && needle[0] !in hay
    ensures !Contains(hay, needle)
  {
    forall i | 0 <= i <= |hay| && |needle| <= |hay[i..]|
      ensures hay[i..][..|needle|] != needle
    {
      assert hay[i..][..|needle|][0] == hay[i];
      assert hay[i] in hay;
    }
  }

  /**
   * `str_replace(search, rep, s)` for one search string: scans left to right and replaces
   * every non-overlapping occurrence; an empty search string leaves `s` unchanged.
   */
  function Replace(s: string, search: string, rep: string): (r: string)
    decreases |s|
  {
    if search == [] then s
    else if StartsWith(s, search) then rep + Replace(s[|search|..], search, rep)
    else if s == [] then []
    else [s[0]] + Replace(s[1..], search, rep)
  }

  /** A string that does not begin with the search string's first character keeps that character. */
  lemma ReplaceStep(s: string, search: string, rep: string)
    requires search != [] && s != [] && s[0] != search[0]
    ensures Replace(s, search, rep) == [s[0]] + Replace(s[1..], search, rep)
  {
    assert !StartsWith(s, search) by {
      if |search| <= |s| {
        assert s[..|search|][0] == s[0];
      }
    }
  }

  /** Removing a string from itself leaves nothing. */
  lemma ReplaceWhole(s: string)
    requires s != []
    ensures Replace(s, s, "") == []
  {
    assert StartsWith(s, s);
    assert s[|s|..] == [];
  }

  /** A prefix that holds no first character of the search string passes through untouched. */
  lemma {:induction false} ReplaceSkipsPrefix(a: string, b: string, search: string, rep: string)
    requires search != [] && search[0] !in a
    ensures Replace(a + b, search, rep) == a + Replace(b, search, rep)
    decreases |a|
  {
    if a == [] {
      assert a + b == b;
    } else {
      var s := a + b;
      assert a[0] in a;
      assert s[0] == a[0];
      assert s[1..] == a[1..] + b;
      assert search[0] !in a[1..] by {
        assert a == [a[0]] + a[1..];
      }
      calc {
        Replace(s, search, rep);
        { ReplaceStep(s, search, rep); }
        [a[0]] + Replace(a[1..] + b, search, rep);
        { ReplaceSkipsPrefix(a[1..], b, search, rep); }
        [a[0]] + (a[1..] + Replace(b, search, rep));
        { assert a == [a[0]] + a[1..]; }
        a + Replace(b, search, rep);
      }
    }
  }
  /** A text without the search string's first character has nothing to replace. */
  lemma ReplaceKeepsText(s: string, search: string, rep: string)
    requires search != []
    ensures search[0] !in s ==> Replace(s, search, rep) == s
  {
    if search[0] !in s {
      ReplaceSkipsPrefix(s, [], search, rep);
      assert s + [] == s;
    }
  }


  /** `implode(sep, parts)`. */
  function Join(sep: string, parts: seq<string>): (r: string)
    ensures parts == [] ==> r == []
    ensures |parts| == 1 ==> r == parts[0]
  {
    if parts == [] then []
    else if |parts| == 1 then parts[0]
    else parts[0] + sep + Join(sep, parts[1..])
  }

  /** `explode(sep, s)` for a one-character separator: the pieces between separators, never an empty list. */
  function Split(s: string, sep: char): (r: seq<string>)
    ensures r != []
    decreases |s|
  {
    if s == [] then [[]]
    else
      var rest := Split(s[1..], sep);
      if s[0] == sep then [[]] + rest else [[s[0]] + rest[0]] + rest[1..]
  }

  /** A string without the separator is a single piece. */
  lemma {:induction false} SplitWithoutSep(s: string, sep: char)
    requires sep !in s
    ensures Split(s, sep) == [s]
  {
    if s != [] {
      assert s[0] in s;
      assert sep !in s[1..] by {
        forall i | 0 <= i < |s[1..]| ensures s[1..][i] != sep {
          assert s[1..][i] == s[i + 1];
          assert s[i + 1] in s;
        }
      }
      SplitWithoutSep(s[1..], sep);
      assert [s[0]] + s[1..] == s;
    }
  }

  /** A piece without the separator, then the separator, splits off as the first piece. */
  lemma {:induction false} SplitPiece(a: string, sep: char, b: string)
    requires sep !in a
    ensures Split(a + [sep] + b, sep) == [a] + Split(b, sep)
    decreases |a|
  {
    var s := a + [sep] + b;
    if a == [] {
      assert s == [sep] + b;
      assert s[1..] == b;
    } else {
      assert a[0] in a;
      assert s[0] == a[0] && s[1..] == a[1..] + [sep] + b;
      assert sep !in a[1..] by {
        forall i | 0 <= i < |a[1..]| ensures a[1..][i] != sep {
          assert a[1..][i] == a[i + 1];
          assert a[i + 1] in a;
        }
      }
      SplitPiece(a[1..], sep, b);
      assert [a[0]] + a[1..] == a;
    }
  }

  /** Splitting a joined list gives the list back when no piece holds the separator. */
  lemma {:induction false} SplitJoin(parts: seq<string>, sep: char)
    requires parts != []
    requires forall i :: 0 <= i < |parts| ==> sep !in parts[i]
    ensures Split(Join([sep], parts), sep) == parts
  {
    if |parts| == 1 {
      SplitWithoutSep(parts[0], sep);
    } else {
      assert Join([sep], parts) == parts[0] + [sep] + Join([sep], parts[1..]);
      SplitPiece(parts[0], sep, Join([sep], parts[1..]));
      assert forall i :: 0 <= i < |parts[1..]| ==> parts[1..][i] == parts[i + 1];
      SplitJoin(parts[1..], sep);
      assert [parts[0]] + parts[1..] == parts;
    }
  }

  function DigitChar(d: nat): char
    requires d < 10
  {
    ('0' as int + d) as char
  }

  function DigitValue(c: char): nat
    requires IsDigit(c)
  {
    c as int - '0' as int
  }

  /** Decimal text of a natural number, without leading zeros. */
  function NatToString(n: nat): (r: string)
    ensures r != [] && AllDigits(r)
    decreases n
  {
    if n < 10 then [DigitChar(n)] else NatToString(n / 10) + [DigitChar(n % 10)]
  }

  /** PHP's conversion of an integer to a string. */
  function IntToString(i: int): (r: string)
    ensures r != []
  {
    if i < 0 then "-" + NatToString(-i) else NatToString(i)
  }

  /** The value of a string of decimal digits. */
  function DecimalValue(s: string): nat
    requires AllDigits(s)
    decreases |s|
  {
    if s == [] then 0 else DecimalValue(s[..|s| - 1]) * 10 + DigitValue(s[|s| - 1])
  }
}

=== FILE: response_formatter.dfy ===
/**
 * `WAG\LaravelSDK\Utils\ResponseFormatter`: reading the gateway's `{success, code, data, error}`
 * envelope, with the defaults the helpers fall back to when a field is missing or `null`.
 */
module ResponseFormatter {
  import opened Wrappers
  import opened Exceptions
  import opened PhpArray

  /** `isSuccessful`: the `success` field is present and strictly `true`. */
  function IsSuccessful(response: Arr): (ok: bool)
    ensures ok <==> Field(response, "success") == Some(JBool(true))
  {
    Coalesce(response, ["success"], JBool(false)) == JBool(true)
  }

  /** `getErrorMessage`: the `error` field as a string, `null` when missing or `null`. */
  function GetErrorMessage(response: Arr): (r: Result<Option<string>, Error>)
    ensures Field(response, "error").None? || Field(response, "error") == Some(JNull) ==> r == Ok(None)
    ensures Field(response, "error").Some? && Field(response, "error").value.JStr? ==>
              r == Ok(Some(Field(response, "error").value.s))
    ensures r.Err? <==> Field(response, "error").Some? && Field(response, "error").value.JArr?
  {
    AsOptText(Lookup(JArr(response), ["error"]))
  }

  /** `getStatusCode`: the `code` field, `0` when missing or `null`. */
  function GetStatusCode(response: Arr): (code: J)
    ensures Field(response, "code").None? || Field(response, "code") == Some(JNull) ==> code == JInt(0)
    ensures Field(response, "code").Some? && !Field(response, "code").value.JNull? ==>
              code == Field(response, "code").value
  {
    Coalesce(response, ["code"], JInt(0))
  }

  /** `getData`: the `data` field, `null` when missing or `null`. */
  function GetData(response: Arr): (r: Result<Option<Arr>, Error>)
    ensures Field(response, "data").None? || Field(response, "data") == Some(JNull) ==> r == Ok(None)
    ensures Field(response, "data").Some? && Field(response, "data").value.JArr? ==>
              r == Ok(Some(Field(response, "data").value.entries))
    ensures r.Err? <==> Field(response, "data").Some? && !Field(response, "data").value.JArr?
                        && !Field(response, "data").value.JNull?
  {
    AsOptArray(Lookup(JArr(response), ["data"]))
  }
}

=== FILE: session_service.dfy ===
/**
 * `WAG\LaravelSDK\Services\SessionService`: the event check of `connect` and the builders
 * around it, the proxy and S3 payloads, and the status helpers. The helpers that read
 * `status` or the S3 configuration receive the outcome of that request as a parameter.
 * The session class lists the same six event names as the webhook class, so the list and
 * the loose membership test are shared with `WebhookService`.
 */
module SessionService {
  import opened Wrappers
  import opened Exceptions
  import opened PhpString
  import opened PhpArray
  import opened WagClient
  import WebhookService

  /** The exception `connect` raises for the first event outside the list. */
  function InvalidEvent(v: J): Error {
    WAGException("Invalid event type: " + Interpolate(v) + ". Valid events are: " + Join(", ", WebhookService.AvailableEvents), 0)
  }

  /** `options['Subscribe']`, when it is set and is an array. */
  function Subscriptions(options: Arr): (r: Option<Arr>)
    ensures r.Some? <==> exists subs: Arr :: Lookup(JArr(options), ["Subscribe"]) == Some(JArr(subs))
    ensures r.Some? ==> Lookup(JArr(options), ["Subscribe"]) == Some(JArr(r.value))
  {
    match Lookup(JArr(options), ["Subscribe"])
    case Some(JArr(subs)) => Some(subs)
    case _ => None
  }

  /**
   * `connect`: when `Subscribe` is set and is an array, each of its values must loosely be
   * one of the events, and the first that is not is reported; otherwise nothing is checked.
   */
  function Connect(options: Arr): (r: Result<Call, Error>)
    ensures Subscriptions(options).None? ==> r.Ok?
    ensures Subscriptions(options).Some? ==>
              (r.Err? <==> exists i :: 0 <= i < |Subscriptions(options).value| && !WebhookService.IsValidEvent(Subscriptions(options).value[i].value))
    ensures r.Err? ==>
              exists i :: 0 <= i < |Subscriptions(options).value| && r.error == InvalidEvent(Subscriptions(options).value[i].value)
                          && forall j :: 0 <= j < i ==> WebhookService.IsValidEvent(Subscriptions(options).value[j].value)
    ensures r.Ok? ==> r.value == Call(AsUser, "POST", "/session/connect", options)
  {
    match Subscriptions(options)
    case Some(subs) =>
      (match FindFirst(subs, v => !WebhookService.IsValidEvent(v))
       case Some(v) => Err(InvalidEvent(v))
       case None => Ok(Call(AsUser, "POST", "/session/connect", options)))
    case None => Ok(Call(AsUser, "POST", "/session/connect", options))
  }

  /** Options without an array under `Subscribe` are never rejected. */
  lemma ConnectWithoutSubscriptionPasses(options: Arr)
    requires forall subs: Arr :: Lookup(JArr(options), ["Subscribe"]) != Some(JArr(subs))
    ensures Connect(options) == Ok(Call(AsUser, "POST", "/session/connect", options))
  {
  }

  /** The events the `connectWith…` builders subscribe to when none are given. */
  const DefaultEvents: Arr := ListOf([JStr(WebhookService.EventAll)])

  /** `connectWithEvents`: `Subscribe` and `Immediate`, checked by `connect`. */
  function ConnectWithEvents(events: Arr, immediate: bool): (r: Result<Call, Error>)
    ensures r.Ok? <==> forall i :: 0 <= i < |events| ==> WebhookService.IsValidEvent(events[i].value)
    ensures r.Ok? ==> Field(r.value.data, "Subscribe") == Some(JArr(events))
    ensures r.Ok? ==> Field(r.value.data, "Immediate") == Some(JBool(immediate))
  {
    var fields := [("Subscribe", JArr(events)), ("Immediate", JBool(immediate))];
    assert fields[1].0[0] != fields[0].0[0];
    ObjField(fields, 0);
    ObjField(fields, 1);
    assert Subscriptions(Obj(fields)) == Some(events);
    Connect(Obj(fields))
  }

  /** `connectImmediate` forces `Immediate` to true. */
  function ConnectImmediate(events: Arr): (r: Result<Call, Error>)
    ensures r.Ok? <==> forall i :: 0 <= i < |events| ==> WebhookService.IsValidEvent(events[i].value)
    ensures r.Ok? ==> Field(r.value.data, "Immediate") == Some(JBool(true))
    ensures r.Ok? ==> Field(r.value.data, "Subscribe") == Some(JArr(events))
  {
    ConnectWithEvents(events, true)
  }

  /** `connectAndWait` forces `Immediate` to false. */
  function ConnectAndWait(events: Arr): (r: Result<Call, Error>)
    ensures r.Ok? <==> forall i :: 0 <= i < |events| ==> WebhookService.IsValidEvent(events[i].value)
    ensures r.Ok? ==> Field(r.value.data, "Immediate") == Some(JBool(false))
    ensures r.Ok? ==> Field(r.value.data, "Subscribe") == Some(JArr(events))
  {
    ConnectWithEvents(events, false)
  }

  /** With the default events every builder passes the check and subscribes to `All`. */
  lemma DefaultEventsPass(immediate: bool)
    ensures ConnectWithEvents(DefaultEvents, immediate).Ok?
    ensures Field(ConnectWithEvents(DefaultEvents, immediate).value.data, "Subscribe")
         == Some(JArr([Pair(KInt(0), JStr("All"))]))
  {
    assert DefaultEvents == [Pair(KInt(0), JStr("All"))];
    assert WebhookService.IsValidEvent(JStr("All")) by {
      WebhookService.EventsAreWords();
      assert WebhookService.AvailableEvents[5] == "All";
    }
  }

  // ---------------------------------------------------------------------------------------
  // Proxy

  /** `setProxy`. */
  function SetProxy(proxyUrl: string, enable: bool): (c: Call)
    ensures c.auth == AsUser && c.verb == "POST" && c.endpoint == "/session/proxy"
    ensures Field(c.data, "proxy_url") == Some(JStr(proxyUrl)) && Field(c.data, "enable") == Some(JBool(enable))
  {
    var fields := [("proxy_url", JStr(proxyUrl)), ("enable", JBool(enable))];
    ObjField(fields, 0);
    ObjField(fields, 1);
    Call(AsUser, "POST", "/session/proxy", Obj(fields))
  }

  /** `enableProxy` is `setProxy` with `enable` true. */
  function EnableProxy(proxyUrl: string): (c: Call)
    ensures c.endpoint == "/session/proxy" && Field(c.data, "enable") == Some(JBool(true))
    ensures Field(c.data, "proxy_url") == Some(JStr(proxyUrl))
  {
    SetProxy(proxyUrl, true)
  }

  /** `disableProxy`: only `enable`, false, and no `proxy_url`. */
  function DisableProxy(): (c: Call)
    ensures c.endpoint == SetProxy("", false).endpoint
    ensures Field(c.data, "enable") == Some(JBool(false))
    ensures Field(c.data, "proxy_url").None? && |c.data| == 1
  {
    Call(AsUser, "POST", "/session/proxy", Obj([("enable", JBool(false))]))
  }

  // ---------------------------------------------------------------------------------------
  // S3 storage

  const AwsEndpoint: string := "https://s3.amazonaws.com"

  /** The settings an S3 configuration carries besides `enabled`. */
  datatype S3Settings = S3Settings(
    endpoint: string, region: string, bucket: string, accessKey: string, secretKey: string,
    pathStyle: bool, publicUrl: string, mediaDelivery: string, retentionDays: int)

  /** The payload the three `configure…` helpers send, `enabled` true first. */
  function S3Payload(s: S3Settings): Arr {
    Obj([("enabled", JBool(true)), ("endpoint", JStr(s.endpoint)), ("region", JStr(s.region)),
         ("bucket", JStr(s.bucket)), ("access_key", JStr(s.accessKey)), ("secret_key", JStr(s.secretKey)),
         ("path_style", JBool(s.pathStyle)), ("public_url", JStr(s.publicUrl)),
         ("media_delivery", JStr(s.mediaDelivery)), ("retention_days", JInt(s.retentionDays))])
  }

  /** Each setting reads back from the payload under its key. */
  lemma S3PayloadFields(s: S3Settings)
    ensures Field(S3Payload(s), "enabled") == Some(JBool(true))
    ensures Field(S3Payload(s), "endpoint") == Some(JStr(s.endpoint))
    ensures Field(S3Payload(s), "path_style") == Some(JBool(s.pathStyle))
  {
    var a := S3Payload(s);
    assert a[0] == Pair(KStr("enabled"), JBool(true));
    assert a[1] == Pair(KStr("endpoint"), JStr(s.endpoint));
    assert "enabled"[2] != "endpoint"[2];
    GetFirst(a, 0, KStr("enabled"));
    GetFirst(a, 1, KStr("endpoint"));
    S3PathStyle(s);
  }

  lemma S3PathStyle(s: S3Settings)
    ensures Field(S3Payload(s), "path_style") == Some(JBool(s.pathStyle))
  {
    var a := S3Payload(s);
    assert a[6] == Pair(KStr("path_style"), JBool(s.pathStyle));
    assert forall j :: 0 <= j < 6 ==> a[j].key.s[0] != 'p';
    GetFirst(a, 6, KStr("path_style"));
  }

  /** `configureS3`. */
  function ConfigureS3(s3Config: Arr): (c: Call)
    ensures c.auth == AsUser && c.verb == "POST" && c.endpoint == "/session/s3/config" && c.data == s3Config
  {
    Call(AsUser, "POST", "/session/s3/config", s3Config)
  }

  /**
   * `configureAWS`: the fixed Amazon endpoint. The source's parameter defaults (region
   * `us-east-1`, path-style off, no public URL, media delivery `both`, 30 retention days) are
   * values a caller may pass; every setting is a parameter here.
   */
  function ConfigureAWS(bucket: string, accessKey: string, secretKey: string, region: string,
                        pathStyle: bool, publicUrl: string, mediaDelivery: string, retentionDays: int): (c: Call)
    ensures c.endpoint == "/session/s3/config"
    ensures c.data == S3Payload(S3Settings(AwsEndpoint, region, bucket, accessKey, secretKey, pathStyle, publicUrl, mediaDelivery, retentionDays))
  {
    ConfigureS3(S3Payload(S3Settings(AwsEndpoint, region, bucket, accessKey, secretKey, pathStyle, publicUrl, mediaDelivery, retentionDays)))
  }

  /** `configureMinIO`: the caller's endpoint (path-style addressing is its default). */
  function ConfigureMinIO(endpoint: string, bucket: string, accessKey: string, secretKey: string, region: string,
                          pathStyle: bool, publicUrl: string, mediaDelivery: string, retentionDays: int): (c: Call)
    ensures c.endpoint == "/session/s3/config"
    ensures c.data == S3Payload(S3Settings(endpoint, region, bucket, accessKey, secretKey, pathStyle, publicUrl, mediaDelivery, retentionDays))
  {
    ConfigureS3(S3Payload(S3Settings(endpoint, region, bucket, accessKey, secretKey, pathStyle, publicUrl, mediaDelivery, retentionDays)))
  }

  /** The Backblaze B2 endpoint of a region. */
  function BackblazeEndpoint(region: string): string {
    "https://s3." + region + ".backblazeb2.com"
  }

  /** `configureBackblazeB2`: the region's B2 endpoint and virtual-host addressing. */
  function ConfigureBackblazeB2(bucket: string, keyId: string, applicationKey: string, region: string,
                                publicUrl: string, mediaDelivery: string, retentionDays: int): (c: Call)
    ensures c.endpoint == "/session/s3/config"
    ensures c.data == S3Payload(S3Settings(BackblazeEndpoint(region), region, bucket, keyId, applicationKey, false, publicUrl, mediaDelivery, retentionDays))
  {
    ConfigureS3(S3Payload(S3Settings(BackblazeEndpoint(region), region, bucket, keyId, applicationKey, false, publicUrl, mediaDelivery, retentionDays)))
  }

  /** The AWS helper is the MinIO helper pointed at the Amazon endpoint. */
  lemma AwsIsMinIOAtAmazon(bucket: string, accessKey: string, secretKey: string, region: string,
                           pathStyle: bool, publicUrl: string, mediaDelivery: string, retentionDays: int)
    ensures ConfigureAWS(bucket, accessKey, secretKey, region, pathStyle, publicUrl, mediaDelivery, retentionDays)
         == ConfigureMinIO(AwsEndpoint, bucket, accessKey, secretKey, region, pathStyle, publicUrl, mediaDelivery, retentionDays)
  {
  }

  /** Different regions get different B2 endpoints: the region can be read back from the endpoint. */
  lemma {:induction false} BackblazeEndpointInjective(r1: string, r2: string)
    requires BackblazeEndpoint(r1) == BackblazeEndpoint(r2)
    ensures r1 == r2
  {
    var pre := "https://s3.";
    var post := ".backblazeb2.com";
    assert BackblazeEndpoint(r1) == pre + r1 + post;
    assert BackblazeEndpoint(r2) == pre + r2 + post;
    assert |r1| == |r2|;
    assert r1 == BackblazeEndpoint(r1)[|pre|..|pre| + |r1|];
    assert r2 == BackblazeEndpoint(r2)[|pre|..|pre| + |r2|];
  }

  /** Every helper sends `enabled` true and its settings; B2 never uses path-style addressing. */
  lemma ConfigureHelpersEnable(bucket: string, keyId: string, applicationKey: string, region: string,
                               publicUrl: string, mediaDelivery: string, retentionDays: int)
    ensures Field(ConfigureBackblazeB2(bucket, keyId, applicationKey, region, publicUrl, mediaDelivery, retentionDays).data, "enabled") == Some(JBool(true))
    ensures Field(ConfigureBackblazeB2(bucket, keyId, applicationKey, region, publicUrl, mediaDelivery, retentionDays).data, "path_style") == Some(JBool(false))
    ensures Field(ConfigureBackblazeB2(bucket, keyId, applicationKey, region, publicUrl, mediaDelivery, retentionDays).data, "endpoint") == Some(JStr(BackblazeEndpoint(region)))
    ensures Field(ConfigureAWS(bucket, keyId, applicationKey, region, false, publicUrl, mediaDelivery, retentionDays).data, "endpoint") == Some(JStr(AwsEndpoint))
    ensures Field(ConfigureAWS(bucket, keyId, applicationKey, region, false, publicUrl, mediaDelivery, retentionDays).data, "enabled") == Some(JBool(true))
  {
    S3PayloadFields(S3Settings(BackblazeEndpoint(region), region, bucket, keyId, applicationKey, false, publicUrl, mediaDelivery, retentionDays));
    S3PayloadFields(S3Settings(AwsEndpoint, region, bucket, keyId, applicationKey, false, publicUrl, mediaDelivery, retentionDays));
  }

  /** `disableS3`: only `enabled`, false. */
  function DisableS3(): (c: Call)
    ensures c == ConfigureS3(Obj([("enabled", JBool(false))]))
    ensures Field(c.data, "enabled") == Some(JBool(false))
  {
    ConfigureS3(Obj([("enabled", JBool(false))]))
  }

  // ---------------------------------------------------------------------------------------
  // Status helpers

  /**
   * A `bool` helper that reads `data.<name> ?? false` inside `try … catch (\Exception)`: an
   * exception from the request gives false, a TypeError passes through.
   */
  function StatusFlag(outcome: Result<Arr, Error>, name: string): (r: Result<bool, Error>)
    ensures outcome.Err? && IsException(outcome.error) ==> r == Ok(false)
    ensures outcome.Err? && !IsException(outcome.error) ==> r == Err(outcome.error)
    ensures outcome.Ok? && Lookup(JArr(outcome.value), ["data", name]).None? ==> r == Ok(false)
    ensures outcome.Ok? && Lookup(JArr(outcome.value), ["data", name]).Some? ==>
              r == AsBool(Lookup(JArr(outcome.value), ["data", name]).value)
  {
    match outcome
    case Err(e) => if IsException(e) then Ok(false) else Err(e)
    case Ok(status) => AsBool(Coalesce(status, ["data", name], JBool(false)))
  }

  /** `isConnected`. */
  function IsConnected(status: Result<Arr, Error>): (r: Result<bool, Error>)
    ensures r == Ok(true) <==>
              status.Ok? && exists v :: Lookup(JArr(status.value), ["data", "Connected"]) == Some(v) && !v.JArr? && Truthy(v)
    ensures r.Err? <==> (status.Err? && !IsException(status.error)) || (status.Ok? && exists es :: Lookup(JArr(status.value), ["data", "Connected"]) == Some(JArr(es)))
  {
    StatusFlag(status, "Connected")
  }

  /** `isLoggedIn`. */
  function IsLoggedIn(status: Result<Arr, Error>): (r: Result<bool, Error>)
    ensures r == Ok(true) <==>
              status.Ok? && exists v :: Lookup(JArr(status.value), ["data", "LoggedIn"]) == Some(v) && !v.JArr? && Truthy(v)
    ensures r.Err? <==> (status.Err? && !IsException(status.error)) || (status.Ok? && exists es :: Lookup(JArr(status.value), ["data", "LoggedIn"]) == Some(JArr(es)))
  {
    StatusFlag(status, "LoggedIn")
  }

  /** `isS3Enabled`, over the outcome of `getS3Config`. */
  function IsS3Enabled(config: Result<Arr, Error>): (r: Result<bool, Error>)
    ensures r == Ok(true) <==>
              config.Ok? && exists v :: Lookup(JArr(config.value), ["data", "enabled"]) == Some(v) && !v.JArr? && Truthy(v)
    ensures r.Err? <==> (config.Err? && !IsException(config.error)) || (config.Ok? && exists es :: Lookup(JArr(config.value), ["data", "enabled"]) == Some(JArr(es)))
  {
    StatusFlag(config, "enabled")
  }

  /** A status read that failed, or one without the field, never reports the flag. */
  lemma FlagDefaultsToFalse(outcome: Result<Arr, Error>, name: string)
    requires (outcome.Err? && IsException(outcome.error))
             || (outcome.Ok? && Lookup(JArr(outcome.value), ["data", name]).None?)
    ensures StatusFlag(outcome, name) == Ok(false)
  {
  }

  /**
   * `isReady`: `isConnected() && isLoggedIn()`, each over its own `status` request; the
   * second request is made only when the first says connected.
   */
  function IsReady(first: Result<Arr, Error>, second: Result<Arr, Error>): (r: Result<bool, Error>)
    ensures r == Ok(true) <==> IsConnected(first) == Ok(true) && IsLoggedIn(second) == Ok(true)
    ensures IsConnected(first) == Ok(false) ==> r == Ok(false)
    ensures r.Err? ==> r.error == TypeError
  {
    var connected :- IsConnected(first);
    if !connected then Ok(false) else IsLoggedIn(second)
  }

  /** A failed status request makes the session not ready, whatever the other request says. */
  lemma FailedStatusNotReady(first: Result<Arr, Error>, second: Result<Arr, Error>)
    requires first.Err? && IsException(first.error)
    ensures IsReady(first, second) == Ok(false)
  {
  }

  /** A `?…` getter inside `try … catch (\Exception)`: an exception gives null. */
  function Guarded<T>(outcome: Result<Arr, Error>, read: Arr -> Result<Option<T>, Error>): (r: Result<Option<T>, Error>)
    ensures outcome.Err? ==> r == (if IsException(outcome.error) then Ok(None) else Err(outcome.error))
    ensures outcome.Ok? ==> r == read(outcome.value)
  {
    match outcome
    case Err(e) => if IsException(e) then Ok(None) else Err(e)
    case Ok(a) => read(a)
  }

  /** `getSessionDetails`: `data`, or null. */
  function GetSessionDetails(status: Result<Arr, Error>): (r: Result<Option<Arr>, Error>)
    ensures status.Ok? ==> r == AsOptArray(Lookup(JArr(status.value), ["data"]))
    ensures status.Err? && IsException(status.error) ==> r == Ok(None)
  {
    Guarded(status, (a: Arr) => AsOptArray(Lookup(JArr(a), ["data"])))
  }

  /** `getQRCodeData`: `data.QRCode`, or null. */
  function GetQRCodeData(qr: Result<Arr, Error>): (r: Result<Option<string>, Error>)
    ensures qr.Ok? ==> r == AsOptText(Lookup(JArr(qr.value), ["data", "QRCode"]))
    ensures qr.Err? && IsException(qr.error) ==> r == Ok(None)
  {
    Guarded(qr, (a: Arr) => AsOptText(Lookup(JArr(a), ["data", "QRCode"])))
  }

  /** `getPairingCode`: `data.LinkingCode` of the `pairPhone` answer, or null. */
  function GetPairingCode(pairing: Result<Arr, Error>): (r: Result<Option<string>, Error>)
    ensures pairing.Ok? ==> r == AsOptText(Lookup(JArr(pairing.value), ["data", "LinkingCode"]))
    ensures pairing.Err? && IsException(pairing.error) ==> r == Ok(None)
  {
    Guarded(pairing, (a: Arr) => AsOptText(Lookup(JArr(a), ["data", "LinkingCode"])))
  }
}

=== FILE: user_service.dfy ===
/**
 * `WAG\LaravelSDK\Services\UserService`: the presence check, the phone/JID conversions, and
 * the helpers that read the answers of `POST /user/check`, `POST /user/info` and
 * `GET /user/contacts`. Each helper receives the array its request returned; an exception
 * raised by that request propagates unchanged and is not repeated here.
 */
module UserService {
  import opened Wrappers
  import opened Exceptions
  import opened PhpString
  import opened PhpArray
  import opened WagClient
  import PhoneFormatter

  const PresenceTypes: seq<string> := ["available", "unavailable"]

  /** `setPresence`: only the two presence types pass; the payload is just the presence. */
  function SetPresence(presence: string): (r: Result<Call, Error>)
    ensures r.Ok? <==> presence in PresenceTypes
    ensures r.Ok? ==> r.value == Call(AsUser, "POST", "/user/presence", [Pair(KStr("presence"), JStr(presence))])
    ensures r.Err? ==> r.error == WAGException("Invalid presence type: " + presence + ". Valid types are: " + Join(", ", PresenceTypes), 0)
  {
    assert IsWord("available") && IsWord("unavailable");
    if !LooseInWords(JStr(presence), PresenceTypes) then
      Err(WAGException("Invalid presence type: " + presence + ". Valid types are: " + Join(", ", PresenceTypes), 0))
    else
      Ok(Call(AsUser, "POST", "/user/presence", Obj([("presence", JStr(presence))])))
  }

  /** `phoneToJID`: the digits, with the JID suffix appended unless an `@` is already there. */
  function PhoneToJid(phoneNumber: string): (r: string)
    ensures r == StripNonDigits(phoneNumber) + PhoneFormatter.JidSuffix
  {
    var cleaned := StripNonDigits(phoneNumber);
    StripNonDigitsMembers(phoneNumber, '@');
    ContainsNeedsFirstChar(cleaned, "@");
    if !Contains(cleaned, "@") then cleaned + PhoneFormatter.JidSuffix else cleaned
  }

  /** The `@` check always passes, so the JID is the one `PhoneFormatter::toJID` gives. */
  lemma PhoneToJidMatchesToJid(phoneNumber: string)
    ensures PhoneToJid(phoneNumber) == PhoneFormatter.ToJid(phoneNumber)
  {
    PhoneFormatter.FormatIsDigits(phoneNumber);
  }

  /** `jidToPhone`: every occurrence of the suffix removed; a text without `@` holds none and is kept. */
  function JidToPhone(jid: string): (r: string)
    ensures '@' !in jid ==> r == jid
  {
    assert PhoneFormatter.JidSuffix[0] == '@';
    ReplaceKeepsText(jid, PhoneFormatter.JidSuffix, "");
    Replace(jid, PhoneFormatter.JidSuffix, "")
  }

  /** Converting a number to a JID and back gives its digits. */
  lemma JidRoundTrip(phoneNumber: string)
    ensures JidToPhone(PhoneToJid(phoneNumber)) == StripNonDigits(phoneNumber)
  {
    var digits := StripNonDigits(phoneNumber);
    var suffix := PhoneFormatter.JidSuffix;
    calc {
      JidToPhone(PhoneToJid(phoneNumber));
      Replace(digits + suffix, suffix, "");
      { StripNonDigitsMembers(phoneNumber, '@');
        assert suffix[0] == '@';
        ReplaceSkipsPrefix(digits, suffix, suffix, ""); }
      digits + Replace(suffix, suffix, "");
      { ReplaceWhole(suffix); }
      digits + [];
      digits;
    }
  }

  /** A JID of digits loses exactly its suffix. */
  lemma JidToPhoneOfJid(digits: string)
    requires AllDigits(digits)
    ensures JidToPhone(digits + PhoneFormatter.JidSuffix) == digits
    ensures PhoneToJid(JidToPhone(digits + PhoneFormatter.JidSuffix)) == digits + PhoneFormatter.JidSuffix
  {
    JidRoundTrip(digits);
  }

  /** Whether a user record of the check answer is the one for `phoneNumber`: its `Query` is strictly that string. */
  predicate IsQueryFor(user: J, phoneNumber: string) {
    user.JArr? && Get(user.entries, KStr("Query")) == Some(JStr(phoneNumber))
  }

  /**
   * Where the loop of `checkSingleNumber` stops: at the number's record, or at a string
   * record, whose `['Query']` raises a TypeError under PHP 8. Other records read as `null`
   * there and are passed over.
   */
  predicate StopsSearch(user: J, phoneNumber: string) {
    user.JStr? || IsQueryFor(user, phoneNumber)
  }

  /**
   * `checkSingleNumber`, given the answer of `POST /user/check`: the first record of
   * `data.Users` whose `Query` is the number, if `data.Users` is an array.
   */
  function CheckSingleNumber(phoneNumber: string, result: Arr): (r: Result<Option<Arr>, Error>)
    ensures var users := Lookup(JArr(result), ["data", "Users"]);
              !(users.Some? && users.value.JArr?) ==> r == Ok(None)
    ensures var users := Lookup(JArr(result), ["data", "Users"]);
              users.Some? && users.value.JArr? ==>
                (r == Ok(None) <==> forall i :: 0 <= i < |users.value.entries| ==> !StopsSearch(users.value.entries[i].value, phoneNumber))
    ensures r.Ok? && r.value.Some? ==>
              exists users: Arr, i :: Lookup(JArr(result), ["data", "Users"]) == Some(JArr(users))
                && 0 <= i < |users| && users[i].value == JArr(r.value.value) && IsQueryFor(users[i].value, phoneNumber)
                && forall j :: 0 <= j < i ==> !StopsSearch(users[j].value, phoneNumber)
    ensures r.Err? ==> r.error == TypeError
    ensures r.Err? ==>
              exists users: Arr, i :: Lookup(JArr(result), ["data", "Users"]) == Some(JArr(users))
                && 0 <= i < |users| && users[i].value.JStr?
                && forall j :: 0 <= j < i ==> !StopsSearch(users[j].value, phoneNumber)
  {
    match Lookup(JArr(result), ["data", "Users"])
    case Some(JArr(users)) =>
      (match FindFirst(users, u => StopsSearch(u, phoneNumber))
       case Some(u) => if u.JStr? then Err(TypeError) else Ok(Some(u.entries))
       case None => Ok(None))
    case _ => Ok(None)
  }

  /** `getAllContacts`: `data`, or `[]`; anything but an array there breaks the `array` return. */
  function AllContacts(result: Arr): (r: Result<Arr, Error>)
    ensures Lookup(JArr(result), ["data"]).None? ==> r == Ok([])
    ensures Lookup(JArr(result), ["data"]).Some? ==> (r.Ok? <==> Lookup(JArr(result), ["data"]).value.JArr?)
    ensures r.Ok? && Lookup(JArr(result), ["data"]).Some? ==> Lookup(JArr(result), ["data"]) == Some(JArr(r.value))
  {
    AsArray(Coalesce(result, ["data"], JArr([])))
  }

  /** `getContact`: the contact stored under the JID, used as an array key. */
  function GetContact(jid: string, contacts: Arr): (r: Result<Option<Arr>, Error>)
    ensures At(JArr(contacts), ArrayKey(jid)).None? ==> r == Ok(None)
    ensures r.Ok? && r.value.Some? ==> Get(contacts, ArrayKey(jid)) == Some(JArr(r.value.value))
    ensures r.Err? <==> At(JArr(contacts), ArrayKey(jid)).Some? && !At(JArr(contacts), ArrayKey(jid)).value.JArr?
  {
    AsOptArray(At(JArr(contacts), ArrayKey(jid)))
  }

  /** The four names the search looks at, in the order it looks. */
  const SearchFields: seq<string> := ["PushName", "FirstName", "FullName", "BusinessName"]

  /** `$contact[field] ?? ''` passed to `strtolower`, which takes a string. */
  function FieldText(contact: J, field: string): Result<string, Error> {
    AsText(Lookup(contact, [field]).GetOr(JStr("")))
  }

  /**
   * Whether one of `fields`, lower-cased, contains `term`. The fields are tried in order and
   * the first match stops the search, so an array in a later field is then never read.
   */
  function NameMatches(contact: J, fields: seq<string>, term: string): (r: Result<bool, Error>)
    ensures r.Err? ==> r.error == TypeError && exists i :: 0 <= i < |fields| && FieldText(contact, fields[i]).Err?
    ensures (forall i :: 0 <= i < |fields| ==> FieldText(contact, fields[i]).Ok?) ==>
              r.Ok? && (r.value <==> exists i :: 0 <= i < |fields| && Contains(Lower(FieldText(contact, fields[i]).value), term))
    ensures r == Ok(true) ==> exists i :: 0 <= i < |fields| && FieldText(contact, fields[i]).Ok?
                                         && Contains(Lower(FieldText(contact, fields[i]).value), term)
    decreases |fields|
  {
    if fields == [] then Ok(false)
    else
      var name :- FieldText(contact, fields[0]);
      if Contains(Lower(name), term) then Ok(true)
      else
        var r := NameMatches(contact, fields[1..], term);
        assert forall i :: 1 <= i < |fields| ==> fields[1..][i - 1] == fields[i];
        r
  }

  /** The contacts that `searchContactsByName` keeps, for an already lower-cased term. */
  function SearchContacts(contacts: Arr, term: string): (r: Result<Arr, Error>)
    ensures r.Err? <==> exists i :: 0 <= i < |contacts| && NameMatches(contacts[i].value, SearchFields, term).Err?
    ensures r.Err? ==> r.error == TypeError
    ensures r.Ok? ==> forall p :: p in r.value <==> p in contacts && NameMatches(p.value, SearchFields, term) == Ok(true)
    ensures r.Ok? ==> Subsequence(r.value, contacts)
  {
    if exists i :: 0 <= i < |contacts| && NameMatches(contacts[i].value, SearchFields, term).Err? then Err(TypeError)
    else Ok(FilterEntries(contacts, c => NameMatches(c, SearchFields, term) == Ok(true)))
  }

  /**
   * `searchContactsByName`: the contacts, with their keys and in their order, one of whose
   * names contains the term, both compared in lower case.
   */
  function SearchContactsByName(searchTerm: string, result: Arr): (r: Result<Arr, Error>)
    ensures AllContacts(result).Err? ==> r == Err(TypeError)
    ensures AllContacts(result).Ok? ==> r == SearchContacts(AllContacts(result).value, Lower(searchTerm))
  {
    var contacts :- AllContacts(result);
    SearchContacts(contacts, Lower(searchTerm))
  }

  /** The search ignores the case of the term. */
  lemma SearchIgnoresCase(searchTerm: string, result: Arr)
    ensures SearchContactsByName(Lower(searchTerm), result) == SearchContactsByName(searchTerm, result)
  {
    LowerIdempotent(searchTerm);
  }

  /** An empty term is contained in every name, so every contact whose first name field is text is found. */
  lemma EmptyTermMatches(contact: J)
    requires FieldText(contact, SearchFields[0]).Ok?
    ensures NameMatches(contact, SearchFields, "") == Ok(true)
  {
    var name := Lower(FieldText(contact, SearchFields[0]).value);
    assert StartsWith(name[0..], "");
  }

  predicate HasBusinessName(contact: J) {
    var b := Lookup(contact, ["BusinessName"]);
    b.Some? && Truthy(b.value)
  }

  /** `getBusinessContacts`: the contacts with a non-empty `BusinessName`, keys kept. */
  function BusinessContacts(contacts: Arr): (r: Arr)
    ensures forall p :: p in r <==> p in contacts && HasBusinessName(p.value)
    ensures Subsequence(r, contacts)
  {
    FilterEntries(contacts, c => HasBusinessName(c))
  }

  /** The names `getContactDisplayName` tries, by priority. */
  const DisplayFields: seq<string> := ["PushName", "FullName", "FirstName", "BusinessName"]

  predicate NonEmptyField(contact: Arr, field: string) {
    var v := Lookup(JArr(contact), [field]);
    v.Some? && Truthy(v.value)
  }

  /** The value of the first of `fields` that is set and truthy. */
  function FirstNonEmpty(contact: Arr, fields: seq<string>): (r: Option<J>)
    ensures r.None? <==> forall i :: 0 <= i < |fields| ==> !NonEmptyField(contact, fields[i])
    ensures r.Some? ==> exists i :: 0 <= i < |fields| && NonEmptyField(contact, fields[i])
                                    && Lookup(JArr(contact), [fields[i]]) == r
                                    && forall j :: 0 <= j < i ==> !NonEmptyField(contact, fields[j])
    decreases |fields|
  {
    if fields == [] then None
    else if NonEmptyField(contact, fields[0]) then Lookup(JArr(contact), [fields[0]])
    else
      assert forall i :: 1 <= i < |fields| ==> fields[1..][i - 1] == fields[i];
      FirstNonEmpty(contact, fields[1..])
  }

  /**
   * `getContactDisplayName`: `null` for a missing or empty contact, else the first non-empty
   * name by priority, converted to the `?string` return (an array there raises a TypeError).
   */
  function ContactDisplayName(jid: string, result: Arr): (r: Result<Option<string>, Error>)
    ensures AllContacts(result).Err? ==> r == Err(TypeError)
    ensures AllContacts(result).Ok? && GetContact(jid, AllContacts(result).value).Err? ==> r == Err(TypeError)
    ensures AllContacts(result).Ok? && GetContact(jid, AllContacts(result).value) == Ok(None) ==> r == Ok(None)
    ensures forall c :: AllContacts(result).Ok? && GetContact(jid, AllContacts(result).value) == Ok(Some(c)) ==>
              (FirstNonEmpty(c, DisplayFields).None? ==> r == Ok(None)) &&
              r == AsOptText(FirstNonEmpty(c, DisplayFields)) &&
              (r.Err? <==> FirstNonEmpty(c, DisplayFields).Some? && FirstNonEmpty(c, DisplayFields).value.JArr?)
    ensures r.Ok? && r.value.Some? ==> AllContacts(result).Ok? && GetContact(jid, AllContacts(result).value).Ok?
  {
    var contacts :- AllContacts(result);
    var contact :- GetContact(jid, contacts);
    match contact
    case None => Ok(None)
    case Some(c) =>
      match FirstNonEmpty(c, DisplayFields)
      case None => Ok(None)
      case Some(v) => AsOptText(Some(v))
  }

  /**
   * `getSingleUserInfo`, given the answer of `POST /user/info`: `data.Users[userId]` when
   * set. On an array the user id is used as an array key; on a string `Users` it is a
   * character offset, and the one-character string read there breaks the `?array` return.
   */
  function SingleUserInfo(userId: string, result: Arr): (r: Result<Option<Arr>, Error>)
    ensures Lookup(JArr(result), ["data", "Users"]).None? ==> r == Ok(None)
    ensures var users := Lookup(JArr(result), ["data", "Users"]);
              users.Some? && users.value.JArr? ==>
                (var entry := Get(users.value.entries, ArrayKey(userId));
                 (r == Ok(None) <==> entry.None? || entry == Some(JNull))
                 && (r.Ok? && r.value.Some? <==> entry.Some? && entry.value.JArr?)
                 && (r.Ok? && r.value.Some? ==> entry == Some(JArr(r.value.value)))
                 && (r.Err? <==> entry.Some? && !entry.value.JNull? && !entry.value.JArr?))
    ensures var users := Lookup(JArr(result), ["data", "Users"]);
              users.Some? && users.value.JStr? ==>
                (r.Err? <==> IsStringOffset(userId, |users.value.s|)) && (r.Ok? ==> r.value.None?)
    ensures var users := Lookup(JArr(result), ["data", "Users"]);
              users.Some? && !users.value.JArr? && !users.value.JStr? ==> r == Ok(None)
    ensures r.Err? ==> r.error == TypeError
  {
    match Lookup(JArr(result), ["data", "Users"])
    case None => Ok(None)
    case Some(JArr(users)) => AsOptArray(At(JArr(users), ArrayKey(userId)))
    case Some(JStr(s)) => if IsStringOffset(userId, |s|) then Err(TypeError) else Ok(None)
    case Some(_) => Ok(None)
  }

  /** `getUserDevices`: the info's `Devices`, or `[]` for a missing or empty info. */
  function UserDevices(info: Option<Arr>): (r: Result<Arr, Error>)
    ensures info.None? || info == Some([]) ==> r == Ok([])
    ensures forall i :: info == Some(i) && i != [] && Lookup(JArr(i), ["Devices"]).None? ==> r == Ok([])
    ensures forall i :: info == Some(i) && i != [] && Lookup(JArr(i), ["Devices"]).Some? ==>
              (r.Ok? <==> Lookup(JArr(i), ["Devices"]).value.JArr?)
    ensures forall i :: info == Some(i) && i != [] && Lookup(JArr(i), ["Devices"]).Some? && Lookup(JArr(i), ["Devices"]).value.JArr? ==>
              r == Ok(Lookup(JArr(i), ["Devices"]).value.entries)
    ensures r.Err? ==> r.error == TypeError
  {
    match info
    case None => Ok([])
    case Some(i) => if i == [] then Ok([]) else AsArray(Coalesce(i, ["Devices"], JArr([])))
  }

  /** A user record stored under the id, in a `Users` array with unique keys, is the info read back. */
  lemma StoredUserReadsBack(userId: string, result: Arr, users: Arr, k: int)
    requires Lookup(JArr(result), ["data", "Users"]) == Some(JArr(users))
    requires UniqueKeys(users) && 0 <= k < |users| && users[k].key == ArrayKey(userId) && users[k].value.JArr?
    ensures SingleUserInfo(userId, result) == Ok(Some(users[k].value.entries))
  {
    GetUnique(users, k);
  }

  /** When the info read back holds a `Devices` array, the device test counts exactly that array. */
  lemma DevicesAreCounted(userId: string, result: Arr, info: Arr, devices: Arr)
    requires SingleUserInfo(userId, result) == Ok(Some(info))
    requires Lookup(JArr(info), ["Devices"]) == Some(JArr(devices))
    ensures UserDevices(Some(info)) == Ok(devices)
    ensures UserHasMultipleDevices(userId, result) == Ok(|devices| > 1)
  {
    assert info != [];
  }

  /** `userHasMultipleDevices`: more than one entry under the user's `Devices`. */
  function UserHasMultipleDevices(userId: string, result: Arr): (r: Result<bool, Error>)
    ensures r.Ok? <==> SingleUserInfo(userId, result).Ok? && UserDevices(SingleUserInfo(userId, result).value).Ok?
    ensures r.Ok? ==> (r.value <==> |UserDevices(SingleUserInfo(userId, result).value).value| > 1)
    ensures r == Ok(true) ==> exists info :: SingleUserInfo(userId, result) == Ok(Some(info))
                                           && Lookup(JArr(info), ["Devices"]).Some?
  {
    var info :- SingleUserInfo(userId, result);
    var devices :- UserDevices(info);
    Ok(|devices| > 1)
  }
}

=== FILE: wag_client.dfy ===
/**
 * `WAG\LaravelSDK\WAGClient`, the request dispatcher every service goes through: the two
 * credentials it holds, the three call modes that differ only in the header they attach,
 * how a request is laid out (path, headers, JSON body or query string), how the gateway's
 * answer or a transport failure becomes the returned array or a `WAGException`, and the
 * scrubbing applied to payloads before they are logged.
 *
 * The HTTP round trip itself is not modelled: `Transport` is what it produced, supplied by
 * the caller of `Execute`.
 */
module WagClient {
  import opened Wrappers
  import opened Exceptions
  import opened PhpString
  import opened PhpArray

  /** The dispatcher's state: the base URL, the two credentials and whether logging is on. */
  datatype Client = Client(baseUrl: string, userToken: Option<string>, adminToken: Option<string>, logging: bool)

  const UserTokenRequired: string := "User token is required. Use setUserToken() before making requests."
  const AdminTokenRequired: string := "Admin token is required. Set WUZAPI_ADMIN_TOKEN in config."
  const RequestFailedPrefix: string := "API request failed: "

  /**
   * The constructor: trailing slashes are cut from the base URL and no user token is set yet.
   * `logging` is the configuration's `logging.enabled`, false when it is missing.
   */
  function NewClient(baseUrl: string, adminToken: Option<string>, logging: bool): (c: Client)
    ensures c.baseUrl == [] || c.baseUrl[|c.baseUrl| - 1] != '/'
    ensures |c.baseUrl| <= |baseUrl| && baseUrl[..|c.baseUrl|] == c.baseUrl
    ensures forall i :: |c.baseUrl| <= i < |baseUrl| ==> baseUrl[i] == '/'
    ensures c.userToken.None? && c.adminToken == adminToken && c.logging == logging
  {
    Client(TrimRight(baseUrl, '/'), None, adminToken, logging)
  }

  /** `setUserToken`: the token is stored, and `getUserToken`, the field `userToken`, reads it back; the rest of the client is untouched. */
  function SetUserToken(c: Client, token: string): (c': Client)
    ensures c'.userToken == Some(token)
    ensures c'.baseUrl == c.baseUrl && c'.adminToken == c.adminToken && c'.logging == c.logging
  {
    c.(userToken := Some(token))
  }

  /** `clearUserToken`: the token reads back as `null`; the rest of the client is untouched. */
  function ClearUserToken(c: Client): (c': Client)
    ensures c'.userToken.None?
    ensures c'.baseUrl == c.baseUrl && c'.adminToken == c.adminToken && c'.logging == c.logging
  {
    c.(userToken := None)
  }

  /** Setting a token and clearing it again gives back a client without a user token. */
  lemma SetThenClear(c: Client, token: string)
    ensures ClearUserToken(SetUserToken(c, token)) == ClearUserToken(c)
    ensures SetUserToken(ClearUserToken(c), token) == SetUserToken(c, token)
  {
  }

  // ---------------------------------------------------------------------------------------
  // Request layout

  datatype Header = Header(name: string, value: string)

  function HeaderNames(hs: seq<Header>): (r: seq<string>)
    ensures |r| == |hs|
    ensures forall i :: 0 <= i < |hs| ==> r[i] == hs[i].name
  {
    seq(|hs|, i requires 0 <= i < |hs| => hs[i].name)
  }

  /** The value of the first header called `name`. */
  function HeaderValue(hs: seq<Header>, name: string): (r: Option<string>)
    ensures r.None? <==> name !in HeaderNames(hs)
    ensures r.Some? ==> Header(name, r.value) in hs
  {
    if hs == [] then None
    else if hs[0].name == name then Some(hs[0].value)
    else
      assert HeaderNames(hs) == [hs[0].name] + HeaderNames(hs[1..]);
      HeaderValue(hs[1..], name)
  }

  /**
   * `array_merge($hs, [name => value])` for a string key: a header of the same name is
   * overwritten in place, otherwise the header is added at the end.
   */
  function PutHeader(hs: seq<Header>, h: Header): (r: seq<Header>)
    ensures h.name !in HeaderNames(hs) ==> r == hs + [h]
    ensures |r| == if h.name in HeaderNames(hs) then |hs| else |hs| + 1
  {
    if hs == [] then [h]
    else if hs[0].name == h.name then [h] + hs[1..]
    else
      assert HeaderNames(hs) == [hs[0].name] + HeaderNames(hs[1..]);
      [hs[0]] + PutHeader(hs[1..], h)
  }

  /** After the merge the header has the new value, and every other header keeps its old one. */
  lemma {:induction false} PutHeaderLookup(hs: seq<Header>, h: Header, n: string)
    ensures HeaderValue(PutHeader(hs, h), n) == if n == h.name then Some(h.value) else HeaderValue(hs, n)
  {
    if hs != [] && hs[0].name != h.name {
      var rest := PutHeader(hs[1..], h);
      assert PutHeader(hs, h) == [hs[0]] + rest;
      assert ([hs[0]] + rest)[0] == hs[0] && ([hs[0]] + rest)[1..] == rest;
      PutHeaderLookup(hs[1..], h, n);
    }
  }

  /** Looking up a header in the JSON headers with one credential header merged in. */
  lemma JsonHeadersLookup(h: Header, n: string)
    requires n != "Content-Type" && n != "Accept"
    ensures HeaderValue(JsonHeaders + [h], n) == if n == h.name then Some(h.value) else None
  {
    var hs := JsonHeaders + [h];
    assert hs[0].name == "Content-Type" && hs[1].name == "Accept";
    assert HeaderValue(hs, n) == HeaderValue(hs[1..], n);
    assert hs[1..][0].name == "Accept";
    assert HeaderValue(hs[1..], n) == HeaderValue(hs[1..][1..], n);
    assert hs[1..][1..] == [h];
    assert [h][1..] == [];
  }

  /** The headers every request carries before the credential is merged in. */
  const JsonHeaders: seq<Header> := [Header("Content-Type", "application/json"), Header("Accept", "application/json")]

  /** Where the data goes: nowhere, a JSON body (`json` option) or the query string (`query` option). */
  datatype Payload = NoPayload | JsonBody(json: Arr) | QueryString(query: Arr)

  /** The request handed to the HTTP client: the verb as given, a path relative to the base URL. */
  datatype HttpRequest = HttpRequest(verb: string, baseUri: string, path: string, headers: seq<Header>, payload: Payload)

  predicate SendsBody(verb: string) {
    Upper(verb) in ["POST", "PUT", "PATCH"]
  }

  /**
   * Data travels as a JSON body for POST, PUT and PATCH (in any letter case), as the query
   * string for GET, and only when it is non-empty; for every other verb it is dropped.
   */
  function Placement(verb: string, data: Arr): (p: Payload)
    ensures p.JsonBody? <==> SendsBody(verb) && data != []
    ensures p.QueryString? <==> Upper(verb) == "GET" && data != []
    ensures p.JsonBody? ==> p.json == data
    ensures p.QueryString? ==> p.query == data
  {
    if SendsBody(verb) && data != [] then JsonBody(data)
    else if Upper(verb) == "GET" && data != [] then QueryString(data)
    else NoPayload
  }

  /** A verb outside POST, PUT, PATCH and GET, DELETE among them, never transmits its data. */
  lemma OtherVerbsDropData(verb: string, data: Arr)
    requires !SendsBody(verb) && Upper(verb) != "GET"
    ensures Placement(verb, data) == NoPayload
  {
  }

  /** The verb's letter case does not change where the data goes. */
  lemma PlacementIgnoresCase(verb: string, data: Arr)
    ensures Placement(Lower(verb), data) == Placement(verb, data)
  {
    assert Upper(Lower(verb)) == Upper(verb) by {
      forall i | 0 <= i < |verb| ensures Upper(Lower(verb))[i] == Upper(verb)[i] {
        var c := verb[i];
        assert Lower(verb)[i] == LowerChar(c);
      }
    }
  }

  /** A credential merged into the JSON headers is added after them and leaves them as they were. */
  lemma MergedHeaders(auth: Header)
    requires auth.name !in HeaderNames(JsonHeaders)
    ensures PutHeader(JsonHeaders, auth) == JsonHeaders + [auth]
    ensures HeaderValue(JsonHeaders + [auth], auth.name) == Some(auth.value)
    ensures HeaderValue(JsonHeaders + [auth], "Content-Type") == Some("application/json")
    ensures HeaderValue(JsonHeaders + [auth], "Accept") == Some("application/json")
  {
    PutHeaderLookup(JsonHeaders, auth, auth.name);
    PutHeaderLookup(JsonHeaders, auth, "Content-Type");
    PutHeaderLookup(JsonHeaders, auth, "Accept");
    assert HeaderValue(JsonHeaders, "Content-Type") == Some("application/json");
    assert HeaderValue(JsonHeaders, "Accept") == Some("application/json") by {
      assert JsonHeaders[0].name != "Accept";
    }
  }

  /** `makeRequest` up to the transport call, for the given credential header. */
  function MakeRequest(c: Client, verb: string, endpoint: string, data: Arr, auth: Header): (r: HttpRequest)
    requires auth.name !in HeaderNames(JsonHeaders)
    ensures r.verb == verb && r.baseUri == c.baseUrl
    ensures r.path == [] || r.path[0] != '/'
    ensures |r.path| <= |endpoint| && endpoint[|endpoint| - |r.path|..] == r.path
    ensures forall i :: 0 <= i < |endpoint| - |r.path| ==> endpoint[i] == '/'
    ensures r.headers == JsonHeaders + [auth]
    ensures HeaderValue(r.headers, auth.name) == Some(auth.value)
    ensures HeaderValue(r.headers, "Content-Type") == Some("application/json")
    ensures HeaderValue(r.headers, "Accept") == Some("application/json")
    ensures r.payload == Placement(verb, data)
  {
    MergedHeaders(auth);
    HttpRequest(verb, c.baseUrl, TrimLeft(endpoint, '/'), PutHeader(JsonHeaders, auth), Placement(verb, data))
  }

  // ---------------------------------------------------------------------------------------
  // Call modes

  /** Which credential a call uses: `request`, `requestAsAdmin` or `requestWithToken`. */
  datatype Auth = AsUser | AsAdmin | WithToken(token: string)

  /** A service operation's request, before it meets a client. */
  datatype Call = Call(auth: Auth, verb: string, endpoint: string, data: Arr)

  /** The header each call mode attaches; `None` when the required credential is missing or falsy. */
  function AuthHeader(c: Client, auth: Auth): (h: Option<Header>)
    ensures auth.AsUser? ==> (h.Some? <==> TruthyOpt(c.userToken))
    ensures auth.AsAdmin? ==> (h.Some? <==> TruthyOpt(c.adminToken))
    ensures auth.WithToken? ==> h == Some(Header("token", auth.token))
    ensures h.Some? && auth.AsUser? ==> h.value == Header("token", c.userToken.value)
    ensures h.Some? && auth.AsAdmin? ==> h.value == Header("Authorization", c.adminToken.value)
  {
    match auth
    case AsUser => if TruthyOpt(c.userToken) then Some(Header("token", c.userToken.value)) else None
    case AsAdmin => if TruthyOpt(c.adminToken) then Some(Header("Authorization", c.adminToken.value)) else None
    case WithToken(t) => Some(Header("token", t))
  }

  /** The exception a call mode raises when its credential is missing. */
  function MissingCredential(auth: Auth): Error {
    WAGException(if auth.AsAdmin? then AdminTokenRequired else UserTokenRequired, 0)
  }

  /** The request a call sends, or the exception it raises before anything is sent. */
  function Send(c: Client, call: Call): (r: Result<HttpRequest, Error>)
    ensures r.Err? <==> AuthHeader(c, call.auth).None?
    ensures r.Err? ==> r.error == MissingCredential(call.auth)
    ensures r.Ok? ==> r.value.headers == JsonHeaders + [AuthHeader(c, call.auth).value]
    ensures r.Ok? ==> r.value.payload == Placement(call.verb, call.data)
    ensures r.Ok? ==> r.value.verb == call.verb && r.value.baseUri == c.baseUrl
    ensures r.Ok? ==> r.value.path == TrimLeft(call.endpoint, '/')
  {
    match AuthHeader(c, call.auth)
    case None => Err(MissingCredential(call.auth))
    case Some(h) =>
      assert HeaderNames(JsonHeaders) == ["Content-Type", "Accept"];
      assert h.name in ["token", "Authorization"];
      Ok(MakeRequest(c, call.verb, call.endpoint, call.data, h))
  }

  /** `request`: fails unless a truthy user token is set; otherwise sends it in the `token` header. */
  function Request(c: Client, verb: string, endpoint: string, data: Arr): (r: Result<HttpRequest, Error>)
    ensures r.Err? <==> !TruthyOpt(c.userToken)
    ensures r.Err? ==> r.error == WAGException(UserTokenRequired, 0)
    ensures r.Ok? ==> HeaderValue(r.value.headers, "token") == c.userToken
    ensures r.Ok? ==> HeaderValue(r.value.headers, "Authorization").None?
  {
    var r := Send(c, Call(AsUser, verb, endpoint, data));
    if r.Ok? then
      JsonHeadersLookup(Header("token", c.userToken.value), "token");
      JsonHeadersLookup(Header("token", c.userToken.value), "Authorization");
      r
    else r
  }

  /** `requestAsAdmin`: fails unless a truthy admin token is set; otherwise sends it in `Authorization`. */
  function RequestAsAdmin(c: Client, verb: string, endpoint: string, data: Arr): (r: Result<HttpRequest, Error>)
    ensures r.Err? <==> !TruthyOpt(c.adminToken)
    ensures r.Err? ==> r.error == WAGException(AdminTokenRequired, 0)
    ensures r.Ok? ==> HeaderValue(r.value.headers, "Authorization") == c.adminToken
    ensures r.Ok? ==> HeaderValue(r.value.headers, "token").None?
  {
    var r := Send(c, Call(AsAdmin, verb, endpoint, data));
    if r.Ok? then
      JsonHeadersLookup(Header("Authorization", c.adminToken.value), "Authorization");
      JsonHeadersLookup(Header("Authorization", c.adminToken.value), "token");
      r
    else r
  }

  /** `requestWithToken`: never checks the token, not even for emptiness. */
  function RequestWithToken(c: Client, verb: string, endpoint: string, token: string, data: Arr): (r: HttpRequest)
    ensures HeaderValue(r.headers, "token") == Some(token)
    ensures r.payload == Placement(verb, data)
  {
    Send(c, Call(WithToken(token), verb, endpoint, data)).value
  }

  /** The user token decides only the header: the same call is laid out identically under any truthy token. */
  lemma UserTokenOnlyChangesHeader(c: Client, t1: string, t2: string, verb: string, endpoint: string, data: Arr)
    requires TruthyText(t1) && TruthyText(t2)
    ensures Request(SetUserToken(c, t1), verb, endpoint, data).Ok?
    ensures Request(SetUserToken(c, t2), verb, endpoint, data).Ok?
    ensures Request(SetUserToken(c, t1), verb, endpoint, data).value.(headers := [])
         == Request(SetUserToken(c, t2), verb, endpoint, data).value.(headers := [])
  {
  }

  // ---------------------------------------------------------------------------------------
  // Responses and failures

  datatype HttpResponse = HttpResponse(status: int, body: string)

  /**
   * What the HTTP client produced: a decoded body (`json_decode` result, `null` when the body
   * is empty or not JSON), or a `RequestException` with the response it carries, if any, and
   * its message.
   */
  datatype Transport =
    | Received(decoded: J)
    | RequestFailed(response: Option<HttpResponse>, message: string)

  /** The array returned when the gateway answers with nothing usable. */
  const SuccessOnly: Arr := [Pair(KStr("success"), JBool(true))]

  /**
   * The rest of `makeRequest`. With logging on, the decoded body is first passed to
   * `logResponse(array $response)`, so anything but an array raises a TypeError there. Then a
   * truthy decoded array is returned, anything falsy becomes `['success' => true]`, and a
   * truthy non-array breaks the `array` return type. A request failure becomes a
   * `WAGException` carrying the response body (or the exception's message) and the status
   * code (or 0); `logError` accepts those whatever they are.
   */
  function Complete(logging: bool, t: Transport): (r: Result<Arr, Error>)
    ensures r.Ok? ==> r.value != []
    ensures r.Ok? <==> t.Received? && (t.decoded.JArr? || (!logging && !Truthy(t.decoded)))
    ensures t.Received? && !Truthy(t.decoded) && (t.decoded.JArr? || !logging) ==> r == Ok(SuccessOnly)
    ensures t.Received? && Truthy(t.decoded) && t.decoded.JArr? ==> r == Ok(t.decoded.entries)
    ensures t.Received? && logging && !t.decoded.JArr? ==> r == Err(TypeError)
    ensures t.Received? && r.Err? ==> r.error == TypeError
    ensures t.RequestFailed? ==> r.Err? && r.error.WAGException?
    ensures t.RequestFailed? && t.response.Some? ==>
              r.error == WAGException(RequestFailedPrefix + t.response.value.body, t.response.value.status)
    ensures t.RequestFailed? && t.response.None? ==> r.error == WAGException(RequestFailedPrefix + t.message, 0)
  {
    match t
    case Received(v) =>
      if logging && !v.JArr? then Err(TypeError)
      else if !Truthy(v) then Ok(SuccessOnly)
      else if v.JArr? then Ok(v.entries)
      else Err(TypeError)
    case RequestFailed(resp, msg) =>
      match resp
      case Some(rs) => Err(WAGException(RequestFailedPrefix + rs.body, rs.status))
      case None => Err(WAGException(RequestFailedPrefix + msg, 0))
  }

  /**
   * Logging never changes what a call returns or which `WAGException` it raises; it only
   * turns a `null` or scalar body, which would have become `['success' => true]`, into a TypeError.
   */
  lemma LoggingOnlyRejectsNonArrays(t: Transport)
    ensures Complete(true, t).Ok? ==> Complete(false, t) == Complete(true, t)
    ensures t.RequestFailed? ==> Complete(false, t) == Complete(true, t)
    ensures Complete(false, t) != Complete(true, t) <==> t.Received? && !t.decoded.JArr? && !Truthy(t.decoded)
  {
  }

  /**
   * A whole call: the credential check, then the transport's outcome under the client's
   * logging setting. A missing credential fails before any request, so the outcome is then irrelevant.
   */
  function Execute(c: Client, call: Call, t: Transport): (r: Result<Arr, Error>)
    ensures Send(c, call).Err? ==> r == Err(MissingCredential(call.auth))
    ensures Send(c, call).Ok? ==> r == Complete(c.logging, t)
  {
    var _ :- Send(c, call);
    Complete(c.logging, t)
  }

  /** Without its credential a call gives the same exception whatever the gateway would have said. */
  lemma MissingCredentialIgnoresTransport(c: Client, call: Call, t1: Transport, t2: Transport)
    requires AuthHeader(c, call.auth).None?
    ensures Execute(c, call, t1) == Execute(c, call, t2)
    ensures Execute(c, call, t1).Err? && Execute(c, call, t1).error.code == 0
  {
  }

  /** A completed call always returns a non-empty array, so every response has at least one field. */
  lemma ExecuteNeverEmpty(c: Client, call: Call, t: Transport)
    ensures Execute(c, call, t).Ok? ==> Execute(c, call, t).value != []
  {
  }

  // ---------------------------------------------------------------------------------------
  // Log scrubbing

  const Redacted: string := "[REDACTED]"

  /** The keys whose values never reach the log, compared after lower-casing. */
  const SensitiveFields: seq<string> :=
    ["token", "password", "secret", "key", "auth", "authorization", "image", "audio", "video", "document"]

  /** Only string keys are checked: an integer key is never sensitive. */
  predicate IsSensitiveKey(k: Key) {
    k.KStr? && Lower(k.s) in SensitiveFields
  }

  /** `sanitizeData`, applied to a value: arrays are scrubbed key by key, at every depth. */
  function SanitizeValue(v: J): (r: J)
    ensures !v.JArr? ==> r == v
    ensures v.JArr? ==> r.JArr? && |r.entries| == |v.entries|
    decreases v
  {
    match v
    case JArr(es) =>
      JArr(seq(|es|, i requires 0 <= i < |es| =>
        Pair(es[i].key, if IsSensitiveKey(es[i].key) then JStr(Redacted) else SanitizeValue(es[i].value))))
    case _ => v
  }

  /**
   * `sanitizeData`: the same keys in the same order; a sensitive key's value is replaced by
   * `[REDACTED]`, a nested array is scrubbed in turn, any other value is kept.
   */
  function Sanitize(data: Arr): (r: Arr)
    ensures KeysOf(r) == KeysOf(data)
    ensures forall i :: 0 <= i < |data| && IsSensitiveKey(data[i].key) ==> r[i].value == JStr(Redacted)
    ensures forall i :: 0 <= i < |data| && !IsSensitiveKey(data[i].key) && data[i].value.JArr? ==>
              r[i].value == JArr(Sanitize(data[i].value.entries))
    ensures forall i :: 0 <= i < |data| && !IsSensitiveKey(data[i].key) && !data[i].value.JArr? ==>
              r[i].value == data[i].value
  {
    SanitizeValue(JArr(data)).entries
  }

  /** Every sensitive key, at any depth, holds `[REDACTED]`. */
  predicate Scrubbed(v: J)
    decreases v
  {
    match v
    case JArr(es) =>
      forall i :: 0 <= i < |es| ==>
        if IsSensitiveKey(es[i].key) then es[i].value == JStr(Redacted) else Scrubbed(es[i].value)
    case _ => true
  }

  /** Scrubbing leaves no sensitive value behind. */
  lemma {:induction false} SanitizeScrubs(v: J)
    ensures Scrubbed(SanitizeValue(v))
    decreases v
  {
    if v.JArr? {
      var es := v.entries;
      var rs := SanitizeValue(v).entries;
      forall i | 0 <= i < |rs|
        ensures if IsSensitiveKey(rs[i].key) then rs[i].value == JStr(Redacted) else Scrubbed(rs[i].value)
      {
        if !IsSensitiveKey(es[i].key) {
          SanitizeScrubs(es[i].value);
        }
      }
    }
  }

  /** A value is left unchanged by scrubbing exactly when it is already scrubbed. */
  lemma {:induction false} ScrubbedIsFixedPoint(v: J)
    ensures Scrubbed(v) <==> SanitizeValue(v) == v
    decreases v
  {
    if v.JArr? {
      var es := v.entries;
      var rs := SanitizeValue(v).entries;
      forall i | 0 <= i < |es| && !IsSensitiveKey(es[i].key) {
        ScrubbedIsFixedPoint(es[i].value);
      }
      if Scrubbed(v) {
        forall i | 0 <= i < |es| ensures rs[i] == es[i] {
        }
        assert rs == es;
      }
      if SanitizeValue(v) == v {
        forall i | 0 <= i < |es|
          ensures if IsSensitiveKey(es[i].key) then es[i].value == JStr(Redacted) else Scrubbed(es[i].value)
        {
          assert rs[i] == es[i];
        }
      }
    }
  }

  /** Scrubbing twice is scrubbing once. */
  lemma SanitizeIdempotent(data: Arr)
    ensures Sanitize(Sanitize(data)) == Sanitize(data)
  {
    SanitizeScrubs(JArr(data));
    ScrubbedIsFixedPoint(SanitizeValue(JArr(data)));
  }

  /** Key matching ignores case: `Authorization` and `TOKEN` are redacted like `token`. */
  lemma SensitiveKeysIgnoreCase(s: string)
    ensures IsSensitiveKey(KStr(s)) <==> IsSensitiveKey(KStr(Lower(s)))
  {
    LowerIdempotent(s);
  }
}

=== FILE: webhook_service.dfy ===
/**
 * `WAG\LaravelSDK\Services\WebhookService`: the user's webhook at `/webhook`. The event checks
 * happen before any request; `getEvents`, `isEventSubscribed`, `addEvent` and `removeEvent`
 * read the current configuration first, and receive the outcome of that `GET /webhook`
 * (the array it returned or the exception it raised) as a parameter.
 */
module WebhookService {
  import opened Wrappers
  import opened Exceptions
  import opened PhpString
  import opened PhpArray
  import opened WagClient

  const AvailableEvents: seq<string> := ["Message", "ReadReceipt", "Presence", "HistorySync", "ChatPresence", "All"]

  const EventAll: string := "All"

  lemma EventsAreWords()
    ensures forall i :: 0 <= i < |AvailableEvents| ==> IsWord(AvailableEvents[i])
  {
    assert IsWord("Message") by {}
    assert IsWord("ReadReceipt") by {}
    assert IsWord("Presence") by {}
    assert IsWord("HistorySync") by {}
    assert IsWord("ChatPresence") by {}
    assert IsWord("All") by {}
  }

  /** `in_array($event, getAvailableEvents())`, loosely. */
  predicate IsValidEvent(v: J) {
    EventsAreWords();
    LooseInWords(v, AvailableEvents)
  }

  /** The exception raised for the first event that fails the check. */
  function InvalidEvent(v: J): Error {
    InvalidArgument("Invalid event type: " + Interpolate(v) + ". Valid events are: " + Join(", ", AvailableEvents))
  }

  /** The check `setWithEvents`, `updateEvents` and `updateComplete` run over the values of `events`, in order. */
  function ValidateEvents(events: Arr): (r: Result<(), Error>)
    ensures r.Ok? <==> forall i :: 0 <= i < |events| ==> IsValidEvent(events[i].value)
    ensures r.Err? ==> exists i :: 0 <= i < |events| && !IsValidEvent(events[i].value)
                                   && r.error == InvalidEvent(events[i].value)
                                   && forall j :: 0 <= j < i ==> IsValidEvent(events[j].value)
  {
    match FindFirst(events, v => !IsValidEvent(v))
    case None => Ok(())
    case Some(v) => Err(InvalidEvent(v))
  }

  /** Lists of the named events always pass the check. */
  lemma {:induction false} KnownEventsPass(names: seq<string>)
    requires forall i :: 0 <= i < |names| ==> names[i] in AvailableEvents
    ensures ValidateEvents(ListOf(TextList(names))).Ok?
  {
    var a := ListOf(TextList(names));
    forall i | 0 <= i < |a| ensures IsValidEvent(a[i].value) {
      assert a[i].value == JStr(names[i]);
    }
  }

  /** `update`: the given fields, sent as they are. */
  function Update(webhookData: Arr): (c: Call)
    ensures c.auth == AsUser && c.verb == "PUT" && c.endpoint == "/webhook" && c.data == webhookData
  {
    Call(AsUser, "PUT", "/webhook", webhookData)
  }

  /** `set`: the URL and events, `['All']` when no events are given; no check is made. */
  function Set(webhookUrl: string, events: Option<Arr>): (c: Call)
    ensures c.auth == AsUser && c.verb == "POST" && c.endpoint == "/webhook"
    ensures Field(c.data, "webhook") == Some(JStr(webhookUrl))
    ensures events.Some? ==> Field(c.data, "subscribe") == Some(JArr(events.value))
    ensures events.None? ==> Field(c.data, "subscribe") == Some(JArr([Pair(KInt(0), JStr(EventAll))]))
  {
    var subscribe := events.GetOr(ListOf([JStr(EventAll)]));
    assert ListOf([JStr(EventAll)]) == [Pair(KInt(0), JStr(EventAll))];
    var fields := [("webhook", JStr(webhookUrl)), ("subscribe", JArr(subscribe))];
    ObjField(fields, 0);
    ObjField(fields, 1);
    Call(AsUser, "POST", "/webhook", Obj(fields))
  }

  /** `setWithEvents`: `set` once every event passes the check, otherwise the first failure. */
  function SetWithEvents(webhookUrl: string, events: Arr): (r: Result<Call, Error>)
    ensures r.Ok? <==> forall i :: 0 <= i < |events| ==> IsValidEvent(events[i].value)
    ensures r.Ok? ==> r.value == Set(webhookUrl, Some(events))
    ensures r.Err? ==> r.error.InvalidArgument?
  {
    var _ :- ValidateEvents(events);
    Ok(Set(webhookUrl, Some(events)))
  }

  /** `setForAllEvents`: `set` with the list `['All']`. */
  function SetForAllEvents(webhookUrl: string): (c: Call)
    ensures c.auth == AsUser && c.verb == "POST" && c.endpoint == "/webhook"
    ensures Field(c.data, "webhook") == Some(JStr(webhookUrl))
    ensures Field(c.data, "subscribe") == Some(JArr([Pair(KInt(0), JStr("All"))]))
  {
    assert ListOf(TextList([EventAll])) == [Pair(KInt(0), JStr("All"))];
    Set(webhookUrl, Some(ListOf(TextList([EventAll]))))
  }

  /** `setForMessages`: `set` with the list `['Message']`. */
  function SetForMessages(webhookUrl: string): (c: Call)
    ensures c.auth == AsUser && c.verb == "POST" && c.endpoint == "/webhook"
    ensures Field(c.data, "webhook") == Some(JStr(webhookUrl))
    ensures Field(c.data, "subscribe") == Some(JArr([Pair(KInt(0), JStr("Message"))]))
  {
    assert ListOf(TextList(["Message"])) == [Pair(KInt(0), JStr("Message"))];
    Set(webhookUrl, Some(ListOf(TextList(["Message"]))))
  }

  /** `setForMessagesAndReceipts`: `set` with the list `['Message', 'ReadReceipt']`. */
  function SetForMessagesAndReceipts(webhookUrl: string): (c: Call)
    ensures c.auth == AsUser && c.verb == "POST" && c.endpoint == "/webhook"
    ensures Field(c.data, "webhook") == Some(JStr(webhookUrl))
    ensures Field(c.data, "subscribe") == Some(JArr([Pair(KInt(0), JStr("Message")), Pair(KInt(1), JStr("ReadReceipt"))]))
  {
    assert ListOf(TextList(["Message", "ReadReceipt"])) == [Pair(KInt(0), JStr("Message")), Pair(KInt(1), JStr("ReadReceipt"))];
    Set(webhookUrl, Some(ListOf(TextList(["Message", "ReadReceipt"]))))
  }

  /** `setForAllEvents` is `set` with its default event list. */
  lemma SetForAllIsDefault(webhookUrl: string)
    ensures SetForAllEvents(webhookUrl) == Set(webhookUrl, None)
  {
    assert ListOf(TextList([EventAll])) == ListOf([JStr(EventAll)]);
  }

  /** The presets skip the check, but would pass it: each is `setWithEvents` with its list. */
  lemma PresetsPassCheck(webhookUrl: string)
    ensures SetWithEvents(webhookUrl, ListOf(TextList([EventAll]))) == Ok(SetForAllEvents(webhookUrl))
    ensures SetWithEvents(webhookUrl, ListOf(TextList(["Message"]))) == Ok(SetForMessages(webhookUrl))
    ensures SetWithEvents(webhookUrl, ListOf(TextList(["Message", "ReadReceipt"]))) == Ok(SetForMessagesAndReceipts(webhookUrl))
  {
    KnownEventsPass([EventAll]);
    KnownEventsPass(["Message"]);
    KnownEventsPass(["Message", "ReadReceipt"]);
  }

  /** `updateUrl`: only the URL is sent, so the gateway keeps the events. */
  function UpdateUrl(newWebhookUrl: string): (c: Call)
    ensures c == Update(c.data) && KeysOf(c.data) == [KStr("webhook")]
    ensures Field(c.data, "webhook") == Some(JStr(newWebhookUrl))
  {
    Update(Obj([("webhook", JStr(newWebhookUrl))]))
  }

  /** `updateEvents`: only the events are sent, once they pass the check. */
  function UpdateEvents(events: Arr): (r: Result<Call, Error>)
    ensures r.Ok? <==> forall i :: 0 <= i < |events| ==> IsValidEvent(events[i].value)
    ensures r.Ok? ==> r.value == Update(r.value.data) && KeysOf(r.value.data) == [KStr("subscribe")]
    ensures r.Ok? ==> Field(r.value.data, "subscribe") == Some(JArr(events))
    ensures r.Err? ==> r.error.InvalidArgument?
  {
    var _ :- ValidateEvents(events);
    Ok(Update(Obj([("subscribe", JArr(events))])))
  }

  /** `updateStatus`, with `activate` and `deactivate` as its two instances. */
  function UpdateStatus(active: bool): (c: Call)
    ensures c == Update(c.data) && KeysOf(c.data) == [KStr("active")]
    ensures Field(c.data, "active") == Some(JBool(active))
  {
    Update(Obj([("active", JBool(active))]))
  }

  /** `activate`: a `PUT /webhook` whose only field turns the webhook on. */
  function Activate(): (c: Call)
    ensures c.auth == AsUser && c.verb == "PUT" && c.endpoint == "/webhook"
    ensures KeysOf(c.data) == [KStr("active")] && Field(c.data, "active") == Some(JBool(true))
  {
    UpdateStatus(true)
  }

  /** `deactivate`: the same request, turning the webhook off. */
  function Deactivate(): (c: Call)
    ensures c.auth == AsUser && c.verb == "PUT" && c.endpoint == "/webhook"
    ensures KeysOf(c.data) == [KStr("active")] && Field(c.data, "active") == Some(JBool(false))
  {
    UpdateStatus(false)
  }

  /** The fields `updateComplete` sends: URL, events and status, in that order. */
  function CompletePayload(webhookUrl: string, events: Arr, active: bool): (a: Arr)
    ensures KeysOf(a) == [KStr("webhook"), KStr("subscribe"), KStr("active")]
    ensures Field(a, "webhook") == Some(JStr(webhookUrl))
    ensures Field(a, "subscribe") == Some(JArr(events))
    ensures Field(a, "active") == Some(JBool(active))
  {
    var fields := [("webhook", JStr(webhookUrl)), ("subscribe", JArr(events)), ("active", JBool(active))];
    assert fields[1].0[0] != fields[0].0[0];
    assert fields[2].0[0] != fields[0].0[0] && fields[2].0[0] != fields[1].0[0];
    ObjField(fields, 0);
    ObjField(fields, 1);
    ObjField(fields, 2);
    Obj(fields)
  }

  /** `updateComplete`: URL, events and status together (status `true` unless given), once the events pass. */
  function UpdateComplete(webhookUrl: string, events: Arr, active: bool): (r: Result<Call, Error>)
    ensures r.Ok? <==> forall i :: 0 <= i < |events| ==> IsValidEvent(events[i].value)
    ensures r.Ok? ==> r.value == Update(r.value.data)
    ensures r.Ok? ==> KeysOf(r.value.data) == [KStr("webhook"), KStr("subscribe"), KStr("active")]
    ensures r.Ok? ==> Field(r.value.data, "webhook") == Some(JStr(webhookUrl))
    ensures r.Ok? ==> Field(r.value.data, "subscribe") == Some(JArr(events))
    ensures r.Ok? ==> Field(r.value.data, "active") == Some(JBool(active))
    ensures r.Err? ==> r.error.InvalidArgument?
  {
    var _ :- ValidateEvents(events);
    Ok(Update(CompletePayload(webhookUrl, events, active)))
  }

  /** `getUrl`: `data.webhook`, or `null`. */
  function GetUrl(webhook: Arr): (r: Result<Option<string>, Error>)
    ensures Lookup(JArr(webhook), ["data", "webhook"]).None? ==> r == Ok(None)
    ensures forall s :: Lookup(JArr(webhook), ["data", "webhook"]) == Some(JStr(s)) ==> r == Ok(Some(s))
    ensures r.Err? <==> Lookup(JArr(webhook), ["data", "webhook"]).Some? && Lookup(JArr(webhook), ["data", "webhook"]).value.JArr?
  {
    AsOptText(Lookup(JArr(webhook), ["data", "webhook"]))
  }

  /** `getEvents`: `data.subscribe`, or `[]`; anything but an array there breaks the `array` return. */
  function GetEvents(webhook: Arr): (r: Result<Arr, Error>)
    ensures Lookup(JArr(webhook), ["data", "subscribe"]).None? ==> r == Ok([])
    ensures Lookup(JArr(webhook), ["data", "subscribe"]).Some? ==>
              (r.Ok? <==> Lookup(JArr(webhook), ["data", "subscribe"]).value.JArr?)
    ensures r.Ok? && Lookup(JArr(webhook), ["data", "subscribe"]).Some? ==>
              Lookup(JArr(webhook), ["data", "subscribe"]) == Some(JArr(r.value))
    ensures r.Err? ==> r.error == TypeError
  {
    AsArray(Coalesce(webhook, ["data", "subscribe"], JArr([])))
  }

  /** `isConfigured`: `data.webhook` is set and truthy; an exception from the read counts as not configured. */
  function IsConfigured(webhook: Result<Arr, Error>): (r: Result<bool, Error>)
    ensures webhook.Err? && IsException(webhook.error) ==> r == Ok(false)
    ensures webhook.Err? && !IsException(webhook.error) ==> r == webhook.PropagateFailure()
    ensures webhook.Ok? ==> r.Ok? && (r.value <==> exists v :: Lookup(JArr(webhook.value), ["data", "webhook"]) == Some(v) && Truthy(v))
  {
    match webhook
    case Err(e) => if IsException(e) then Ok(false) else Err(e)
    case Ok(w) =>
      var o := Lookup(JArr(w), ["data", "webhook"]);
      Ok(o.Some? && Truthy(o.value))
  }

  /** An event list covers `event` when it holds the event or `All`, compared loosely. */
  predicate Subscribed(events: Arr, event: string) {
    LooseContains(events, event) || LooseContains(events, EventAll)
  }

  /** `isEventSubscribed`. */
  function IsEventSubscribed(event: string, webhook: Arr): (r: Result<bool, Error>)
    ensures r.Ok? <==> GetEvents(webhook).Ok?
    ensures r.Ok? ==> (r.value <==> Subscribed(GetEvents(webhook).value, event))
  {
    var events :- GetEvents(webhook);
    Ok(Subscribed(events, event))
  }

  /** For a named event, being covered means holding the event, `All`, or `true`. */
  lemma SubscribedNamedEvent(events: Arr, event: string)
    requires event in AvailableEvents
    ensures Subscribed(events, event) <==>
              exists i :: 0 <= i < |events| && (events[i].value == JStr(event) || events[i].value == JStr(EventAll) || events[i].value == JBool(true))
  {
    EventsAreWords();
    var k :| 0 <= k < |AvailableEvents| && AvailableEvents[k] == event;
    assert IsWord(event);
    assert IsWord(EventAll) by { assert AvailableEvents[5] == EventAll; }
    LooseContainsWord(events, event);
    LooseContainsWord(events, EventAll);
  }

  /** The list `addEvent` sends: the event is appended unless it, or `All`, is already there. */
  function AddedEvents(current: Arr, event: string): (r: Arr)
    ensures Subscribed(current, event) ==> r == current
    ensures !Subscribed(current, event) ==> ValuesOf(r) == ValuesOf(current) + [JStr(event)]
    ensures UniqueKeys(current) ==> UniqueKeys(r)
    ensures IsList(current) ==> IsList(r)
  {
    if !LooseContains(current, event) && !LooseContains(current, EventAll) then Push(current, JStr(event))
    else current
  }

  /** After `addEvent` the event is covered. */
  lemma AddedIsSubscribed(current: Arr, event: string)
    ensures Subscribed(AddedEvents(current, event), event)
  {
    var r := AddedEvents(current, event);
    if !Subscribed(current, event) {
      assert ValuesOf(r)[|current|] == JStr(event);
      assert LooseEqualsText(event, r[|current|].value);
    }
  }

  /** Adding the same event twice is adding it once. */
  lemma AddEventIdempotent(current: Arr, event: string)
    ensures AddedEvents(AddedEvents(current, event), event) == AddedEvents(current, event)
  {
    AddedIsSubscribed(current, event);
  }

  /** `addEvent`: the event is checked first, then the current list is read, extended and sent through `updateEvents`. */
  function AddEvent(event: string, webhook: Result<Arr, Error>): (r: Result<Call, Error>)
    ensures !IsValidEvent(JStr(event)) ==> r == Err(InvalidEvent(JStr(event)))
    ensures IsValidEvent(JStr(event)) && webhook.Err? ==> r == webhook.PropagateFailure()
    ensures IsValidEvent(JStr(event)) && webhook.Ok? && GetEvents(webhook.value).Ok? ==>
              r == UpdateEvents(AddedEvents(GetEvents(webhook.value).value, event))
    ensures r.Ok? ==> exists events :: Field(r.value.data, "subscribe") == Some(JArr(events)) && Subscribed(events, event)
  {
    if !IsValidEvent(JStr(event)) then Err(InvalidEvent(JStr(event)))
    else
      var w :- webhook;
      var current :- GetEvents(w);
      var added := AddedEvents(current, event);
      AddedIsSubscribed(current, event);
      UpdateEvents(added)
  }

  /** A named event passes the check only by being spelled exactly as one of the six. */
  lemma ValidEventNames(event: string)
    ensures IsValidEvent(JStr(event)) <==> event in AvailableEvents
  {
  }

  /** The `array_filter` callback of `removeEvent`: values not strictly equal to the event. */
  function Other(event: string): J -> bool {
    e => e != JStr(event)
  }

  /** The list `removeEvent` sends: every value strictly equal to the event dropped, the rest re-keyed 0, 1, …. */
  function RemovedEvents(current: Arr, event: string): (r: Arr)
    ensures IsList(r)
    ensures forall v :: v in ValuesOf(r) <==> v in ValuesOf(current) && v != JStr(event)
    ensures Subsequence(ValuesOf(r), ValuesOf(current))
  {
    var kept := FilterEntries(current, Other(event));
    var r := ArrayValues(kept);
    forall v ensures v in ValuesOf(r) <==> v in ValuesOf(current) && v != JStr(event) {
      ValuesMembership(kept, v);
      ValuesMembership(current, v);
    }
    SubsequenceValues(kept, current);
    r
  }

  lemma ValuesMembership(a: Arr, v: J)
    ensures v in ValuesOf(a) <==> exists p :: p in a && p.value == v
  {
    if v in ValuesOf(a) {
      var i :| 0 <= i < |a| && ValuesOf(a)[i] == v;
      assert a[i] in a;
    }
  }

  /** Deleting entries deletes their values. */
  lemma {:induction false} SubsequenceValues(ys: Arr, xs: Arr)
    requires Subsequence(ys, xs)
    ensures Subsequence(ValuesOf(ys), ValuesOf(xs))
    decreases |xs|
  {
    if ys != [] {
      assert ValuesOf(ys)[1..] == ValuesOf(ys[1..]);
      assert ValuesOf(xs)[1..] == ValuesOf(xs[1..]);
      if ys[0] == xs[0] && Subsequence(ys[1..], xs[1..]) {
        SubsequenceValues(ys[1..], xs[1..]);
      } else {
        SubsequenceValues(ys, xs[1..]);
      }
    }
  }

  /** `removeEvent`: the current list is read, filtered and sent through `updateEvents`. */
  function RemoveEvent(event: string, webhook: Result<Arr, Error>): (r: Result<Call, Error>)
    ensures webhook.Err? ==> r == webhook.PropagateFailure()
    ensures webhook.Ok? && GetEvents(webhook.value).Ok? ==>
              r == UpdateEvents(RemovedEvents(GetEvents(webhook.value).value, event))
    ensures r.Ok? ==> exists events :: Field(r.value.data, "subscribe") == Some(JArr(events)) && JStr(event) !in ValuesOf(events)
  {
    var w :- webhook;
    var current :- GetEvents(w);
    UpdateEvents(RemovedEvents(current, event))
  }

  /** Removing an event just added to a list that did not cover it restores the list. */
  lemma RemoveUndoesAdd(current: Arr, event: string)
    requires IsList(current) && !Subscribed(current, event)
    ensures RemovedEvents(AddedEvents(current, event), event) == current
  {
    var keep := Other(event);
    var tail := [Pair(KInt(NextIndex(current)), JStr(event))];
    assert AddedEvents(current, event) == current + tail;
    FilterEntriesAppend(current, tail, keep);
    forall i | 0 <= i < |current| ensures keep(current[i].value) {
      assert !LooseEqualsText(event, current[i].value);
      LooseEqualsSelf(event);
    }
    FilterEntriesKeepsAll(current, keep);
    assert FilterEntries(tail, keep) == [];
    assert current + [] == current;
  }

  /** Removing one event from a list holding `All` leaves the event covered. */
  lemma RemoveUnderAll(current: Arr, event: string)
    requires event != EventAll && exists i :: 0 <= i < |current| && current[i].value == JStr(EventAll)
    ensures Subscribed(RemovedEvents(current, event), event)
  {
    var i :| 0 <= i < |current| && current[i].value == JStr(EventAll);
    assert JStr(EventAll) in ValuesOf(current);
    var r := RemovedEvents(current, event);
    assert JStr(EventAll) in ValuesOf(r);
    var j :| 0 <= j < |r| && ValuesOf(r)[j] == JStr(EventAll);
    assert LooseEqualsText(EventAll, r[j].value);
  }
}

=== FILE: wrappers.dfy ===
/** Option and Result values, usable with `:-`, for the model's optional values and thrown exceptions. */
module Wrappers {

  /** A value that may be absent: PHP's `null` for a nullable parameter or return. */
  datatype Option<+T> = None | Some(value: T) {

    function GetOr(default: T): T {
      match this
      case Some(v) => v
      case None => default
    }
  }

  /** Either a returned value or a thrown exception. */
  datatype Result<+T, +E> = Ok(value: T) | Err(error: E) {

    predicate IsFailure() {
      Err?
    }

    function PropagateFailure<U>(): Result<U, E>
      requires Err?
    {
      Err(error)
    }

    function Extract(): T
      requires Ok?
    {
      value
    }
  }
}

/** The exceptions the package raises, as values. */
module Exceptions {

  /**
   * `WAGException(message, code)` is the package's own exception (src/Exceptions/WAGException.php);
   * `InvalidArgument` is PHP's `\InvalidArgumentException`, thrown by the webhook event checks;
   * `TypeError` is the engine error PHP raises when a value of the wrong kind reaches a typed
   * return or parameter. Only the first two are `\Exception`s that a `catch (\Exception $e)` sees.
   */
  datatype Error =
    | WAGException(message: string, code: int)
    | InvalidArgument(message: string)
    | TypeError

  /** Whether `catch (\Exception $e)` intercepts the error. */
  predicate IsException(e: Error) {
    !e.TypeError?
  }
}
